=== FILE: README.md ===
# Telegram member transfer front end — a Dafny model

This project models the interactive core of a Telegram member-transfer web front
end, a React/TypeScript application. Each of its stateful components becomes
one Dafny module:

- The three transfer flows:
  - the single transfer form, with its cost breakdown and its validating → processing → transferring progress machine;
  - the 4-step validated start wizard;
  - the 3-step page wizard.
- The parts around them:
  - the payment-proof upload widget, the step progress bar, the success dialog;
  - the order-tracking page and the newsletter form.
- The admin and help screens:
  - the help-centre FAQ, the admin user table, the settings page;
  - the notification stack, the system monitor and the model-training panel.
- The chat assistant.
- The testimonial carousel, the two showcase demos and the "how it works" flow.

A component is modelled as a state machine:

- its state is an immutable datatype;
- each user action, timer firing or settled promise is an `Event`;
- `Step` applies one event and `Run` a whole trace;
- `Offered` says which events the rendered screen makes possible (a button that is shown and not disabled, a timer that is pending).

Timers, `Math.random()`, `Date.now()` and `confirm()` become event parameters. Work still pending in the background is part of the state:

- the transfer form's jobs;
- the training panel's interval counters;
- the notification stack's removal timers;
- the tracking page's queued searches.

Invariants are proved for one step and then, by induction over the event
sequence, for every trace.

Shared pieces live in two modules:

- `Common` holds the JavaScript string primitives the components use: `trim`, ASCII `toLowerCase`, `includes`, `filter`, `toString` of integers and `slice(-k)`, plus the range of `Math.random()` and `Math.round`.
- `TelegramLink` holds the group-link pattern used by two of the flows.

Some behaviour of the code is easy to miss when reading the screens, and the
model states it as written. The two 4-step wizard items describe the wizard once
its success dialog is given a language; as written its first render throws (see
"## Findings"):

- **Payment proof.** The 4-step wizard's payment needs no uploaded proof (`StartWizard.PaymentIgnoresProof`), once the dialog fix is in.
- **Skipped validation.** The wizard's back button stays enabled while the payment is pending, so the success step can be reached with an invalid link (`StartWizard.PaymentCanSkipValidation`), once the dialog fix is in.
- **Page wizard.** It validates nothing at all (`PageWizard.SubmitWithoutInput`).
- **Member limits.** The three flows disagree:
  - the form wants 100 to 50 000 members;
  - the 4-step wizard wants at least 100;
  - the page wizard has no limit.
- **Rates.** Per member, the form charges $0.015 plus a fee of at least $5, the 4-step wizard $0.01 and the page wizard $0.04.
- **Status phases.** Only the transfer form has the validating, processing and transferring phases.
- **Failure.** A failed transfer is not terminal: loading clears and the form can be submitted again.
- **Order ids.** The success dialog shows an id passed to it verbatim, so a displayed id need not have the `TT-` digits shape.

## Model

| member | source | states |
|---|---|---|
| Common.Lower | components/InteractiveFAQ.tsx:120-121 | lower-casing keeps the length and lowers each character on its own, only `A`–`Z` changing (by 32) |
| Common.TrimStart | components/pages/TransferWizard.tsx:80 | the result is a suffix of the input, starts with a non-space, and everything cut off is whitespace |
| Common.TrimEnd | components/AIChatbot.tsx:64 | the result is a prefix of the input, ends with a non-space, and everything cut off is whitespace |
| Common.TrimEmptyIffBlank | components/AIChatbot.tsx:64 | `trim()` gives the empty string exactly for all-whitespace input, both directions |
| Common.Includes | components/InteractiveFAQ.tsx:120-121 | `includes` holds exactly when the needle occurs at some position of the text |
| Common.IncludesEmpty | components/InteractiveFAQ.tsx:120-121 | the empty search term occurs in every text |
| Common.Filter | components/NotificationSystem.tsx:55 | `filter` keeps exactly the elements satisfying the predicate, in order, as a subsequence, and everything when all satisfy it |
| Common.Decimal | components/pages/TransferWizard.tsx:77 | `toString` of a number is a non-empty digit string with no leading zero, one digit exactly below 10 |
| Common.DigitsValueOfDecimal | components/pages/TransferWizard.tsx:77 | reading back the rendered number gives the number |
| Common.DecimalInjective | components/pages/TransferWizard.tsx:77 | distinct numbers render as distinct strings |
| Common.LastChars | components/SuccessModal.tsx:64 | `slice(-k)` has length min(k, length) and is a suffix |
| Common.LastDigitsValue | components/SuccessModal.tsx:64 | the last k digits of a rendered number denote the number modulo 10^k |
| Common.Round | components/SystemMonitor.tsx:93 | `Math.round` gives the one integer within half of the value, halves rounded up |
| TelegramLink.Parse | components/TransferForm.tsx:143-145 | a link the pattern accepts splits into a non-empty handle and the optional `?join` and `/` that rebuild it exactly |
| TelegramLink.ValidLink | components/TransferForm.tsx:143-145 | an accepted link starts with `https://t.me/` and carries at least one handle character right after it |
| TelegramLink.ParseBuild | components/TransferForm.tsx:143-145 | every link built from a handle and the optional suffixes is accepted with exactly those pieces |
| TelegramLink.ValidLinkIff | components/TransferForm.tsx:143-145 | the check accepts a string exactly when it has the pattern's shape |
| TelegramLink.RejectsEmptyAndForeign | components/TransferForm.tsx:143-145 | the empty string, foreign text, the bare prefix and a handle-less `?join` are refused |
| TelegramLink.AcceptsBareHandle | components/EnhancedStartWizard.tsx:148-150 | a plain `https://t.me/<handle>` link is accepted |
| TelegramLink.AcceptsJoinAndSlash | components/EnhancedStartWizard.tsx:148-150 | a link with both `?join` and a trailing `/` is accepted |
| TransferForm.CalculateCost | components/TransferForm.tsx:147-157 | nothing is charged before a count is entered; otherwise the fee is at least $5 and the total is base plus fee |
| TransferForm.ProcessingFeeRule | components/TransferForm.tsx:149-151 | the base is $0.015 a member and the fee is the larger of $5 and a tenth of the base |
| TransferForm.TotalMonotone | components/TransferForm.tsx:149-156 | a larger member count never costs less |
| TransferForm.SubmitCheck | components/TransferForm.tsx:165-180 | a request may start exactly when both links are valid, the count is within 100..50 000 and a proof was uploaded |
| TransferForm.SubmitCheckOrder | components/TransferForm.tsx:165-180 | each error is reported exactly when its own check fails and every earlier check passes |
| TransferForm.SubmitStartsOnlyWhenValid | components/TransferForm.tsx:165-184 | a click changes the form exactly when submitting is enabled and all checks pass, and then it starts validating at progress 0 |
| TransferForm.HandleSubmit | components/TransferForm.tsx:161-186 | a disabled button changes nothing; a started request counts one more run, loads, validates from 0 and queues exactly its first wait; the entered fields are kept |
| TransferForm.FireJob | components/TransferForm.tsx:188-219 | a pending callback only removes or replaces work, keeps the entered fields, notifies the parent exactly when it is the 1-second hand-off, and completes the form only from an interval tick |
| TransferForm.Step | components/TransferForm.tsx:143-219 | edits are ignored while loading; only submits and callbacks move the progress machine; runs, parent notifications and the uploaded proof never go back |
| TransferForm.CompletedDisablesSubmit | components/TransferForm.tsx:459 | while loading or once completed, a submit does nothing |
| TransferForm.ValidationPhase | components/TransferForm.tsx:188-190 | the first wait ends in the processing phase at 20% |
| TransferForm.ProcessingPhase | components/TransferForm.tsx:193-195 | the second wait ends in transferring at 50%, or in failed on the failure draw, and loading is cleared either way |
| TransferForm.TransferTick | components/TransferForm.tsx:199-212 | each interval tick adds 3 to 10 to its run's counter; at 100 the display shows 100 and completed |
| TransferForm.RunInv | components/TransferForm.tsx:182-219 | in every reachable form the progress stays within 0..100 and each submission has at most one pending callback |
| TransferForm.StepInv | components/TransferForm.tsx:182-219 | any single event keeps the progress within 0..100 and at most one pending callback per submission |
| TransferForm.ProgressNeverExceeds100 | components/TransferForm.tsx:199-212 | from the mounted form, any sequence of events shows a progress in 0..100 |
| TransferForm.FailureClearsRun | components/TransferForm.tsx:214-219 | the failure draw marks the form failed and leaves nothing of that submission pending |
| TransferForm.NoJobNeverCompletes | components/TransferForm.tsx:199-219 | a submission with nothing pending is never completed by any later event |
| TransferForm.FailedRunNeverCompletes | components/TransferForm.tsx:214-219 | a failed submission is never later completed by its own interval |
| StartWizard.NextFromStep1 | components/EnhancedStartWizard.tsx:129-134 | Next leaves step 1 exactly when both links are valid, and changes nothing else |
| StartWizard.NextFromStep2 | components/EnhancedStartWizard.tsx:135-142 | Next leaves step 2 exactly when a count of at least 100 was entered, with no upper bound |
| StartWizard.HandleNext | components/EnhancedStartWizard.tsx:129-142 | Next changes only the step, by at most one, and advances exactly when the current step's checks pass |
| StartWizard.Step | components/EnhancedStartWizard.tsx:129-165 | the success dialog opens only when the payment settles, on step 4; the step moves forward only by Next or the payment; each field changes only by its own edit; an upload is never undone |
| StartWizard.StepBounds | components/EnhancedStartWizard.tsx:22 | any offered event keeps the wizard on one of its four steps |
| StartWizard.RunStepBounds | components/EnhancedStartWizard.tsx:22 | whatever the user does, the wizard stays on one of its four steps |
| StartWizard.PaymentIgnoresProof | components/EnhancedStartWizard.tsx:152-165 | paying without an uploaded proof reaches step 4 with the success dialog open |
| StartWizard.PaymentCanSkipValidation | components/EnhancedStartWizard.tsx:144-165 | going back while the payment is pending and emptying the source link still lands on step 4 |
| StartWizard.StartAnotherKeepsFields | components/EnhancedStartWizard.tsx:304 | "start another transfer" returns to step 1 but keeps both links and the count |
| StartWizard.EstimatedCostFacts | components/EnhancedStartWizard.tsx:167 | no count costs nothing, the cost is monotone, and 1000 members cost $10 |
| StartWizard.EstimatedCost | components/EnhancedStartWizard.tsx:167 | no count costs nothing; otherwise a hundredth of a dollar per member |
| StartWizard.DisplayedOrderId | components/EnhancedStartWizard.tsx:298 | the displayed id is `TT-` followed by 1 to 9 digits, and those digits denote the floor of the random draw times 10^9 |
| StartWizard.SixtyThousandAcceptedHereRejectedThere | components/EnhancedStartWizard.tsx:135-142 | 60 000 members pass this wizard but fail the transfer form's count check |
| StartWizard.FiftyRejectedByBoth | components/EnhancedStartWizard.tsx:135-142 | 50 members are refused by both flows |
| StartWizard.AgreeInsideRange | components/EnhancedStartWizard.tsx:135-142 | up to 50 000 members, the wizard and the transfer form accept the same counts |
| StartWizard.SuccessDialogAsWritten | components/EnhancedStartWizard.tsx:313-318 | as written, the dialog is given no language, so looking up its texts fails and nothing can be shown |
| StartWizard.SuccessDialog | components/EnhancedStartWizard.tsx:313-318 | given the wizard's language, the dialog renders with its four next steps and shows the wizard's title and description |
| StartWizard.SuccessDialogLanguage | components/EnhancedStartWizard.tsx:313-318 | the dialog as written cannot render, while with English passed its first next step reads "Our AI system will analyze the source group" |
| PageWizard.Mount | components/pages/TransferWizard.tsx:77 | the page starts on step 1 with an id of `TT-` and digits that denote the mount time |
| PageWizard.LeadingDigits | components/pages/TransferWizard.tsx:80 | the longest run of digits that prefixes the text |
| PageWizard.ParseInt | components/pages/TransferWizard.tsx:80 | a plain digit string reads as the number it denotes, and text without any digit reads as `NaN` |
| PageWizard.ParseIntTyped | components/pages/TransferWizard.tsx:80 | `parseInt` reads back a typed number despite leading whitespace, a minus sign or trailing non-digits |
| PageWizard.NoDigitsCostsNothing | components/pages/TransferWizard.tsx:79-82 | text without digits counts as zero members and costs nothing |
| PageWizard.CalculateCost | components/pages/TransferWizard.tsx:79-82 | a typed number of members costs $0.04 each, and text without digits costs nothing |
| PageWizard.CostSamples | components/pages/TransferWizard.tsx:79-82 | an empty count costs $0 and 1000 members cost $40 |
| PageWizard.NavigationMoves | components/pages/TransferWizard.tsx:84-96 | Next and Back move by one step inside 1..3; Back on step 1 leaves the wizard and Next on step 3 does nothing |
| PageWizard.HandleNext | components/pages/TransferWizard.tsx:84-88 | Next changes only the step, moving forward by one exactly below step 3 |
| PageWizard.HandleBack | components/pages/TransferWizard.tsx:90-96 | Back moves to the previous step, and on step 1 leaves the wizard instead; nothing else changes |
| PageWizard.Step | components/pages/TransferWizard.tsx:77-111 | the wizard is left exactly on the leave button or Back on step 1; success comes only from a settled submit and stays; the order id never changes; the proof changes only to a chosen file |
| PageWizard.RunStepBounds | components/pages/TransferWizard.tsx:84-96 | no sequence of events leaves steps 1..3 |
| PageWizard.SubmitWithoutInput | components/pages/TransferWizard.tsx:98-104 | Next, Next and Submit reach the success view with every field still empty |
| PageWizard.ChooseFileKeepsOthers | components/pages/TransferWizard.tsx:106-111 | an empty file choice keeps the earlier proof, a chosen file replaces it, nothing else changes |
| PageWizard.OrderIdFixed | components/pages/TransferWizard.tsx:77 | no event changes the order id fixed at mount |
| PaymentProof.ValidateFile | components/PaymentProofUpload.tsx:69-82 | a file is accepted exactly when it is at most 5 MB of an allowed type, and refused as too large exactly when oversized |
| PaymentProof.SizeCheckedFirst | components/PaymentProofUpload.tsx:73-79 | an oversized file of a wrong type is reported as too large |
| PaymentProof.ChooseOutcome | components/PaymentProofUpload.tsx:84-109 | a refused file changes nothing but the error count; an accepted one is kept with an idle status |
| PaymentProof.HandleFileChange | components/PaymentProofUpload.tsx:84-109 | the rejection count grows exactly for a refused file, only a valid file is kept, an image preview is read only for a valid image, and uploads are untouched |
| PaymentProof.Step | components/PaymentProofUpload.tsx:84-169 | exactly a settling upload adds one callback; a newly kept file is valid; success comes only from a successful upload |
| PaymentProof.RunInv | components/PaymentProofUpload.tsx:84-169 | along any trace only validated files are kept and every settled upload got exactly one callback |
| PaymentProof.StepInv | components/PaymentProofUpload.tsx:84-169 | any offered event keeps the files valid and the callbacks matched to the upload clicks |
| PaymentProof.CallbacksMatchUploads | components/PaymentProofUpload.tsx:132-163 | from the mounted widget, success plus error callbacks equal the upload clicks once none is in flight |
| PaymentProof.SuccessDisablesUpload | components/PaymentProofUpload.tsx:165-169 | after a success the upload button is disabled until the file is removed |
| ProgressIndicator.ProgressValue | components/ProgressIndicator.tsx:14 | the value exists exactly for a non-zero total and is the step's share of 100 |
| ProgressIndicator.ProgressBounds | components/ProgressIndicator.tsx:14 | inside the step range the value is within 0..100 and full exactly on the last step |
| ProgressIndicator.ProgressMonotone | components/ProgressIndicator.tsx:14 | a later step always shows strictly more progress |
| ProgressIndicator.Highlights | components/ProgressIndicator.tsx:19-27 | one flag per label |
| ProgressIndicator.OneHighlight | components/ProgressIndicator.tsx:24-27 | exactly one label is highlighted while the step is labelled, the one at the step's position; none otherwise |
| ProgressIndicator.LabelRow | components/ProgressIndicator.tsx:19-30 | labels are shown only when there is one per step, in order, each highlighted exactly when it is the current step's |
| ProgressIndicator.LabelRowHighlight | components/ProgressIndicator.tsx:19-30 | the shown row highlights one label when the step is in range and none otherwise |
| SuccessModal.GeneratedOrderId | components/SuccessModal.tsx:64 | a non-empty given id is shown verbatim; otherwise `TT-` and the clock's last eight digits |
| SuccessModal.ClockIdLength | components/SuccessModal.tsx:64 | every clock reading from 10^7 on gives an 11-character id |
| SuccessModal.GeneratedIdDependsOnClock | components/SuccessModal.tsx:64 | two generated ids agree only if the clocks agree modulo 10^8; a given id ignores the clock |
| SuccessModal.ShortClockDiffers | components/SuccessModal.tsx:64 | a short clock reading gives a different id than one 10^8 later |
| SuccessModal.Translate | components/SuccessModal.tsx:30-62 | a text exists exactly when a language is given; it is the language's entry, or the key itself for an empty entry |
| SuccessModal.Render | components/SuccessModal.tsx:79-130 | the dialog renders exactly when a language is given, lists the four translated next steps, and shows a non-empty title or description over the defaults |
| SuccessModal.Click | components/SuccessModal.tsx:66-152 | every button but copy calls `onClose` last and once, `onConfirm` only from confirm, and copy writes the shown id |
| OrderTracking.MockLookup | components/pages/OrderTracking.tsx:77-91 | an order is found exactly for queries starting with `TT-`, under the queried id, processing at 65% |
| OrderTracking.HandleSearch | components/pages/OrderTracking.tsx:68-76 | a blank query does nothing; any other starts loading and queues the untrimmed text last |
| OrderTracking.Step | components/pages/OrderTracking.tsx:68-150 | the id changes only by typing; a search is queued only by the button or Enter, with the typed text; a shown order changes only when a search settles, to the lookup of its query; loading starts only for non-blank text |
| OrderTracking.SettleShows | components/pages/OrderTracking.tsx:77-94 | a settling search shows an order exactly when its query has the prefix, and stops loading |
| OrderTracking.RunInv | components/pages/OrderTracking.tsx:68-94 | in any reachable state a shown order is the mock's processing order under a `TT-` id |
| OrderTracking.NotFoundBeforeSearch | components/pages/OrderTracking.tsx:240 | typing an id shows "not found" before any search |
| OrderTracking.NotFoundShown | components/pages/OrderTracking.tsx:240 | "not found" shows only for a typed id with no order and no search running, and whenever those hold without it an order is shown |
| OrderTracking.PaddedIdNotFound | components/pages/OrderTracking.tsx:69-91 | an id with leading whitespace is searched for and not found |
| OrderTracking.OverlappingSearches | components/pages/OrderTracking.tsx:147-150 | a search started with Enter while loading overlaps the first; the first to settle ends loading, the second replaces its result |
| OrderTracking.OverlapSteps | components/pages/OrderTracking.tsx:68-94 | the five intermediate states of that overlapping search |
| OrderTracking.StatusKey | components/pages/OrderTracking.tsx:168 | the translation key is `status` followed by the status with its first letter upper-cased |
| OrderTracking.UpperChar | components/pages/OrderTracking.tsx:168 | upper-casing changes exactly `a`–`z`, by 32 |
| OrderTracking.StatusLabels | components/pages/OrderTracking.tsx:58-61 | the four known statuses get their English labels |
| OrderTracking.UnknownStatusShowsKey | components/pages/OrderTracking.tsx:65 | any other status shows its raw key |
| OrderTracking.IconMatchesBadge | components/pages/OrderTracking.tsx:96-124 | the icon and badge share a colour, coloured exactly for the four known statuses |
| Newsletter.IndexOf | components/NewsletterSignup.tsx:51-53 | the position of the first occurrence of a character, or none when absent |
| Newsletter.ValidateEmailIff | components/NewsletterSignup.tsx:51-53 | the check accepts exactly the strings of the address pattern |
| Newsletter.ShapeAccepted | components/NewsletterSignup.tsx:51-53 | three tokens joined by `@` and `.` are accepted |
| Newsletter.RejectionReasons | components/NewsletterSignup.tsx:51-53 | whitespace anywhere fails the check, and an accepted address has exactly one `@` |
| Newsletter.ValidateEmail | components/NewsletterSignup.tsx:51-53 | an accepted address has at least five characters and starts and ends with a token character |
| Newsletter.SubmitOutcome | components/NewsletterSignup.tsx:55-74 | an invalid address only raises a toast; a valid one starts the request with that address |
| Newsletter.Step | components/NewsletterSignup.tsx:55-110 | an address is sent only by a submit of a valid address; toasts are only appended, one at a time; the form is subscribed exactly once a request has succeeded |
| Newsletter.StepInv | components/NewsletterSignup.tsx:55-110 | any offered event keeps every sent address valid and ties being subscribed to a success toast |
| Newsletter.RunInv | components/NewsletterSignup.tsx:55-110 | only valid addresses are ever sent, and being subscribed means one was sent and the success toast shown |
| Faq.Insert | components/InteractiveFAQ.tsx:124 | one step of the popularity sort adds exactly one entry |
| Faq.SortByPopularity | components/InteractiveFAQ.tsx:124 | the sort keeps the length |
| Faq.InsertPerm | components/InteractiveFAQ.tsx:124 | insertion adds exactly the new entry to the multiset |
| Faq.InsertSorted | components/InteractiveFAQ.tsx:124 | insertion keeps a list sorted by descending popularity |
| Faq.InsertStable | components/InteractiveFAQ.tsx:124 | insertion puts the entry ahead of equally popular ones that followed it |
| Faq.SortCorrect | components/InteractiveFAQ.tsx:124 | the sort is a permutation, descending by popularity, and stable |
| Faq.VisibleCorrect | components/InteractiveFAQ.tsx:119-124 | the list holds exactly the entries matching search and category, once per occurrence, sorted and stable |
| Faq.Visible | components/InteractiveFAQ.tsx:119-124 | the listing holds the matching entries, each as often as it occurs, sorted by descending popularity |
| Faq.EmptySearchMatchesAll | components/InteractiveFAQ.tsx:120-121 | an empty search matches every entry |
| Faq.EmptySearchListsAll | components/InteractiveFAQ.tsx:119-124 | no search under `all` lists the whole catalogue by popularity |
| Faq.SortCatalogueShape | components/InteractiveFAQ.tsx:55-124 | six entries with the catalogue's popularities are listed in the order 1, 3, 2, 5, 6, 4 |
| Faq.DefaultListing | components/InteractiveFAQ.tsx:55-124 | the English catalogue is listed with ids 1, 3, 2, 5, 6, 4 |
| Faq.ToggleExpanded | components/InteractiveFAQ.tsx:198 | a question is open after the click exactly when it was not open before |
| Faq.ToggleTwice | components/InteractiveFAQ.tsx:198 | two clicks on one question leave it open only if it was open |
| Faq.HandleVote | components/InteractiveFAQ.tsx:126-131 | the same vote again withdraws it, another replaces it, other questions are untouched |
| Faq.VoteTwice | components/InteractiveFAQ.tsx:126-131 | voting the same way twice leaves that vote only if it was already there |
| Faq.OppositeVoteSwitches | components/InteractiveFAQ.tsx:126-131 | a thumbs-down after a thumbs-up switches the vote |
| AdminUsers.FilteredUsers | components/EnhancedAdminFeatures.tsx:93-96 | the users whose name or email contains the term ignoring case, in table order; everyone for an empty term |
| AdminUsers.MaxId | components/EnhancedAdminFeatures.tsx:103 | no numeric id exceeds it |
| AdminUsers.AddUserAsWritten | components/EnhancedAdminFeatures.tsx:98-107 | refused exactly when name or email is empty; otherwise keeps the users and appends one with the draft's fields and the id `users.length + 1` as a decimal string |
| AdminUsers.AddUser | components/EnhancedAdminFeatures.tsx:98-107 | the same, with an id no existing user carries |
| AdminUsers.FreshId | components/EnhancedAdminFeatures.tsx:103 | no user carries the id after the largest numeric one |
| AdminUsers.AddKeepsUnique | components/EnhancedAdminFeatures.tsx:98-107 | adding keeps ids unique |
| AdminUsers.SequentialIdsAgree | components/EnhancedAdminFeatures.tsx:84-88 | with ids 1..n in order the largest id is n |
| AdminUsers.AddAgreesWithoutDeletes | components/EnhancedAdminFeatures.tsx:98-107 | where nothing was deleted the corrected add equals the original |
| AdminUsers.ReplaceById | components/EnhancedAdminFeatures.tsx:113-119 | save replaces every user with the edited id and keeps the rest in place |
| AdminUsers.SaveKeepsIds | components/EnhancedAdminFeatures.tsx:113-119 | saving keeps every id in place, so unique ids stay unique and one user changes |
| AdminUsers.DeleteUser | components/EnhancedAdminFeatures.tsx:121-126 | unconfirmed nothing changes; confirmed exactly the users with that id go |
| AdminUsers.DeleteKeepsUnique | components/EnhancedAdminFeatures.tsx:121-126 | deleting keeps ids unique |
| AdminUsers.Step | components/EnhancedAdminFeatures.tsx:98-126 | with the corrected add (`AddUser`), the table changes only by add, save or a confirmed delete, grows by at most one row, and save or cancel ends editing |
| AdminUsers.StepKeepsUnique | components/EnhancedAdminFeatures.tsx:98-126 | with the corrected add (`AddUser`), any event keeps the ids unique |
| AdminUsers.InitialUnique | components/EnhancedAdminFeatures.tsx:84-88 | the three seeded users have distinct ids |
| AdminUsers.RunKeepsUnique | components/EnhancedAdminFeatures.tsx:98-126 | with the corrected add (`AddUser`), whatever the admin does, no two rows share an id |
| AdminUsers.DuplicateIdAfterDelete | components/EnhancedAdminFeatures.tsx:103 | as written, deleting user 1 and adding a user gives the newcomer the id `3`, already taken |
| AdminUsers.DuplicateSaveOverwritesBoth | components/EnhancedAdminFeatures.tsx:113-119 | with a repeated id, saving one edit overwrites both rows |
| Customization.ToggleMethod | components/CustomizationPanel.tsx:77-81 | a method is enabled afterwards exactly when it was not before; the others are untouched |
| Customization.ToggleKeepsNoDuplicates | components/CustomizationPanel.tsx:77-81 | toggling keeps the method list free of repeats |
| Customization.ToggleTwice | components/CustomizationPanel.tsx:77-81 | checking then unchecking restores the list exactly; the reverse permutes it |
| Customization.DefaultChecks | components/CustomizationPanel.tsx:60-67 | by default credit card and crypto are checked and bank transfer is not |
| Customization.SaveChangesNothing | components/CustomizationPanel.tsx:69-75 | saving leaves the settings exactly as they were |
| Customization.Step | components/CustomizationPanel.tsx:69-81 | exactly a save counts one more save and leaves the settings as they are; the payment methods change only by their check boxes |
| Customization.StepKeepsNoDuplicates | components/CustomizationPanel.tsx:77-81 | no click puts a repeat into the method list |
| Notifications.Schedule | components/NotificationSystem.tsx:84-92 | timers are set exactly for the ids of the timed notes |
| Notifications.Update | components/NotificationSystem.tsx:84-92 | after any change every timed note has a pending removal timer |
| Notifications.RunArmed | components/NotificationSystem.tsx:49-92 | along any trace every timed note on screen has a pending removal timer |
| Notifications.Step | components/NotificationSystem.tsx:49-92 | a note appears only by being added; closing removes its id; every event but an expiry leaves each timed note with a pending timer, and an expiry does so too from a stack where that already held |
| Notifications.StickyNotScheduled | components/NotificationSystem.tsx:84-92 | a sticky note with its own id is never scheduled for removal |
| Notifications.ExpireRemoves | components/NotificationSystem.tsx:84-92 | an expiring timer removes exactly the notes with its id and keeps the rest in order |
| Notifications.CloseRemoves | components/NotificationSystem.tsx:54-56 | closing removes exactly the notes with that id, keeps the rest in order, and changes nothing for an unknown id |
| Notifications.AddAppends | components/NotificationSystem.tsx:49-52 | adding appends one note with the given fields last, and arms it when timed |
| Notifications.DemoStickiness | components/NotificationSystem.tsx:58-63 | among the four demo notes exactly the warning is sticky |
| Notifications.TonesDistinct | components/NotificationSystem.tsx:95-123 | each kind has its own colour |
| SystemMonitor.Clamp | components/SystemMonitor.tsx:84 | the result is within 0..100 and equals an in-range input |
| SystemMonitor.Drift | components/SystemMonitor.tsx:79-94 | a drifted metric keeps its name and unit and shows a value within 0..100 |
| SystemMonitor.DriftBounded | components/SystemMonitor.tsx:83-93 | from an in-range value the displayed value moves by at most 5 |
| SystemMonitor.StatusLevels | components/SystemMonitor.tsx:86-91 | the disk is critical above 90 and warning above 80; the CPU never warns; memory is never critical |
| SystemMonitor.StatusFor | components/SystemMonitor.tsx:86-91 | critical exactly for CPU above 80 or disk above 90; warning exactly for memory above 70, disk in (80, 90] or latency above 50 |
| SystemMonitor.CriticalAtDisplayedThreshold | components/SystemMonitor.tsx:86-93 | the CPU can display 80 while marked critical, as status is taken before rounding |
| SystemMonitor.TickMetrics | components/SystemMonitor.tsx:81-95 | every metric drifts with its own draw, and the list keeps its length |
| SystemMonitor.NewLog | components/SystemMonitor.tsx:98-102 | an error above 0.8 on the first draw; a warning exactly when not an error and above 0.6 on the second |
| SystemMonitor.PushLog | components/SystemMonitor.tsx:103 | the new line comes first, followed by at most nine older ones in order |
| SystemMonitor.PushLogsBound | components/SystemMonitor.tsx:103 | after any number of pushes the log holds at most ten lines, newest first |
| SystemMonitor.Tick | components/SystemMonitor.tsx:79-104 | a tick keeps every metric named and in range and puts a line with the tick's time first |
| SystemMonitor.TonesMatch | components/SystemMonitor.tsx:109-122 | a status and a log level share a colour exactly when their severity is the same |
| TrainingDashboard.RemoveAt | components/AITrainingDashboard.tsx:91-93 | a cleared interval leaves the others in order |
| TrainingDashboard.InitialInv | components/AITrainingDashboard.tsx:15-20 | the mounted panel satisfies the invariant |
| TrainingDashboard.StepInv | components/AITrainingDashboard.tsx:84-139 | every offered event keeps progress a multiple of 5 within 0..100 and never reaches failed |
| TrainingDashboard.RunInv | components/AITrainingDashboard.tsx:84-139 | the same along any offered trace |
| TrainingDashboard.ButtonEffects | components/AITrainingDashboard.tsx:84-139 | Start and Resume add a counter from 0 or the progress; Pause only changes status; Stop zeroes progress; no button clears a counter |
| TrainingDashboard.CompletionAt100 | components/AITrainingDashboard.tsx:89-96 | a completing tick shows exactly 100 and completed, from a counter of 95 |
| TrainingDashboard.FireTick | components/AITrainingDashboard.tsx:89-96 | a tick adds 5 to its counter and shows it, capped at 100; only reaching 100 changes the status, to completed; the form fields are kept |
| TrainingDashboard.StepAsWritten | components/AITrainingDashboard.tsx:84-139 | as written, pause, stop and reset keep every interval; exactly start and resume add one; the model name and dataset change only by their own field or reset |
| TrainingDashboard.PauseKeepsRunning | components/AITrainingDashboard.tsx:102-105 | as written, a tick after Pause still advances the progress |
| TrainingDashboard.StopKeepsRunning | components/AITrainingDashboard.tsx:125-129 | as written, a tick after Stop moves the progress off 0 while the status is idle |
| TrainingDashboard.ResumeDoublesIntervals | components/AITrainingDashboard.tsx:107-123 | as written, Pause then Resume leaves two intervals counting |
| TrainingDashboard.StepFixedInv | components/AITrainingDashboard.tsx:84-139 | with the fix, exactly one interval runs while training and none otherwise, its counter being the progress |
| TrainingDashboard.Step | components/AITrainingDashboard.tsx:84-139 | with the fix, pause, stop and reset clear every interval, exactly start and resume add one, and only they enter training |
| TrainingDashboard.RunFixedInv | components/AITrainingDashboard.tsx:84-139 | the same along any offered trace |
| TrainingDashboard.FixedFrozenUnlessTraining | components/AITrainingDashboard.tsx:102-129 | with the fix, nothing ticks unless training |
| TrainingDashboard.FixedAgrees | components/AITrainingDashboard.tsx:84-123 | the fix changes only Pause, Stop and Reset |
| Chatbot.ReplyFor | components/AIChatbot.tsx:75-87 | transfer help exactly when the transfer keyword occurs, pricing when the price word but not that occurs, and so on |
| Chatbot.LowerIdempotent | components/AIChatbot.tsx:75 | lower-casing twice equals lower-casing once |
| Chatbot.ReplyIgnoresCase | components/AIChatbot.tsx:75-84 | a text and its lower-cased form get the same answer |
| Chatbot.KeywordFound | components/AIChatbot.tsx:75-84 | a lower-case keyword is found wherever it sits in the text |
| Chatbot.TransferWins | components/AIChatbot.tsx:75-84 | any message mentioning the transfer keyword is answered about transfers |
| Chatbot.KeywordsFollowLanguage | components/AIChatbot.tsx:75-84 | with Arabic active, a text of Latin characters only (an English question) gets the fallback answer |
| Chatbot.WelcomeEffect | components/AIChatbot.tsx:51-56 | an empty chat gets the welcome message; otherwise nothing changes |
| Chatbot.HandleSend | components/AIChatbot.tsx:62-72 | a blank input changes nothing; otherwise the user's text is appended, the input cleared and a reply awaited in the current language |
| Chatbot.HandleSettle | components/AIChatbot.tsx:73-94 | a settling reply appends one assistant answer fitting the question, in the language of the send, and clears loading |
| Chatbot.Step | components/AIChatbot.tsx:51-158 | the chat is never empty and only grows, one message at a time; the language changes only by the toggle |
| Chatbot.StartInv | components/AIChatbot.tsx:51-56 | the first screen holds only the welcome message |
| Chatbot.StepInv | components/AIChatbot.tsx:62-94 | each offered event keeps user messages and answers alternating, each answer fitting its question, and never shortens the chat |
| Chatbot.RunInv | components/AIChatbot.tsx:62-94 | the same along any offered trace |
| Chatbot.WelcomeOnce | components/AIChatbot.tsx:51-94 | from the first screen, the welcome message stays first and appears once |
| Chatbot.WelcomeKept | components/AIChatbot.tsx:62-94 | earlier messages are never changed or removed |
| Chatbot.SendThenSettle | components/AIChatbot.tsx:62-94 | a sent message is appended and clears the input; its settling appends exactly one answer and clears loading |
| Chatbot.SendGuards | components/AIChatbot.tsx:64-158 | no sending while a reply is pending, and a blank input is never sent |
| Chatbot.ReplyUsesSendLanguage | components/AIChatbot.tsx:75-87 | the reply follows the language at send time, even if the language changes before it arrives |
| Testimonials.Next | components/SmartTestimonials.tsx:71-73 | the next story wraps from the last to the first |
| Testimonials.Prev | components/SmartTestimonials.tsx:75-77 | the previous story wraps from the first to the last |
| Testimonials.NextPrevInverse | components/SmartTestimonials.tsx:71-77 | the two arrows undo each other |
| Testimonials.Forward | components/SmartTestimonials.tsx:62-69 | repeated steps stay on one of the four stories |
| Testimonials.ForwardWraps | components/SmartTestimonials.tsx:62-73 | k steps forward land on (i + k) mod 4 |
| Testimonials.FullCircle | components/SmartTestimonials.tsx:62-73 | four steps come back to the same story |
| Testimonials.ForwardShift | components/SmartTestimonials.tsx:62-73 | taking the first step before the rest equals taking it last |
| Testimonials.Counter | components/SmartTestimonials.tsx:125 | the counter shows a position from 1 up to the four stories |
| Testimonials.Dots | components/SmartTestimonials.tsx:187-197 | one dot per story, exactly the current one highlighted |
| Testimonials.RunInRange | components/SmartTestimonials.tsx:62-190 | whatever is clicked, the shown story is one of the four |
| Testimonials.AutoPlayCycles | components/SmartTestimonials.tsx:62-69 | with auto-play on, k ticks show story k mod 4 |
| Testimonials.AutoPlayFrom | components/SmartTestimonials.tsx:62-69 | from any story, k ticks move forward k steps |
| Testimonials.ToggleTwice | components/SmartTestimonials.tsx:105 | the play switch only flips auto-play and two flips restore the carousel |
| Testimonials.Step | components/SmartTestimonials.tsx:62-197 | the shown story stays one of the four; only the play switch flips auto-play; the previous arrow is undone by the next one |
| Testimonials.PausedNoTick | components/SmartTestimonials.tsx:62-69 | while paused no tick happens |
| DemoPlayer.Tick | components/InteractiveShowcase.tsx:90-110 | below 100 a tick adds 2; at 100 it resets progress and moves on, or on the last step stops according to the end mode |
| DemoPlayer.TogglePlay | components/InteractiveShowcase.tsx:112-114 | play/pause flips only whether the demo is playing |
| DemoPlayer.TickInv | components/AIShowcase.tsx:92-112 | a tick keeps the step in range and the progress even within 0..100 |
| DemoPlayer.TicksAdd | components/InteractiveShowcase.tsx:90-110 | a+b ticks equal a ticks followed by b ticks |
| DemoPlayer.Climb | components/InteractiveShowcase.tsx:90-110 | below 100, k ticks add 2k and change nothing else |
| DemoPlayer.OneStage | components/AIShowcase.tsx:92-112 | a step starting at 0 takes 51 ticks |
| DemoPlayer.PlayToEnd | components/InteractiveShowcase.tsx:90-110 | played without interruption from step s, the demo stops after 51 ticks per remaining step |
| InteractiveShowcase.RunInv | components/InteractiveShowcase.tsx:90-120 | whatever is clicked, the demo shows one of its four steps with an even progress in 0..100 |
| InteractiveShowcase.Step | components/InteractiveShowcase.tsx:90-120 | any event keeps a valid demo, and the step changes only on restart or on a tick at full progress |
| InteractiveShowcase.CurrentStats | components/InteractiveShowcase.tsx:122 | the current step's figures, falling back to the first step's |
| InteractiveShowcase.StatsGrow | components/InteractiveShowcase.tsx:59-88 | every figure grows from step to step |
| InteractiveShowcase.CardState | components/InteractiveShowcase.tsx:213-243 | the current card is active and earlier ones are done |
| InteractiveShowcase.PlaysOnceThenStops | components/InteractiveShowcase.tsx:90-110 | played from the start, the demo stops on its last step after 204 ticks |
| InteractiveShowcase.ReplayShowsLastStepOnly | components/InteractiveShowcase.tsx:112-120 | play after the end replays only the last step; restart returns to the first |
| AIShowcase.Grow | components/AIShowcase.tsx:115-124 | the counter ends at or under its cap, grows by at most its spread, never falls from under the cap and drops to the cap from above it |
| AIShowcase.LiveTick | components/AIShowcase.tsx:115-124 | after a tick all three counters are under their caps, each has grown by less than 50, 40 and 35, and from under the caps none falls |
| AIShowcase.OverallPercent | components/AIShowcase.tsx:280 | the overall percentage is never negative and lies within half a point of transferred / 5000 · 100 |
| AIShowcase.BarWidth | components/AIShowcase.tsx:285 | the bar width is capped at 100 |
| AIShowcase.OverallNeverComplete | components/AIShowcase.tsx:115-124 | because transfers stop at 4100, the overall figure never passes 82% |
| AIShowcase.CapReached | components/AIShowcase.tsx:280 | at the cap the figure is exactly 82% |
| AIShowcase.RunInv | components/AIShowcase.tsx:92-124 | the demo stays valid and none of the three live counters (analyzed, filtered, transferred) ever falls |
| AIShowcase.Step | components/AIShowcase.tsx:92-124 | the live counters change only on their own interval, which leaves the player alone and leaves them under their caps; from under the caps they never fall |
| AIShowcase.SelectKeepsProgress | components/AIShowcase.tsx:171 | picking a step keeps the progress and playing state |
| AIShowcase.PlaysThenRewinds | components/AIShowcase.tsx:92-112 | played from the start, the demo stops after 153 ticks back on the first step |
| ProcessFlow.Tick | components/ProcessFlow.tsx:118-131 | a tick marks the step it leaves completed, or clears the list when it wraps to the first step |
| ProcessFlow.TickAdvances | components/ProcessFlow.tsx:118-131 | the active step goes round the four in order |
| ProcessFlow.Select | components/ProcessFlow.tsx:184 | a click makes the step active and keeps the completed list |
| ProcessFlow.Step | components/ProcessFlow.tsx:118-184 | the completed list grows by at most one, empties when a tick wraps to the first step and is kept by clicks; the active step stays one of the four |
| ProcessFlow.UpTo | components/ProcessFlow.tsx:118-131 | the list 0, 1, …, n−1 |
| ProcessFlow.TickOrderly | components/ProcessFlow.tsx:118-131 | with no clicks, completed steps are exactly those before the active one |
| ProcessFlow.TicksOrderly | components/ProcessFlow.tsx:118-131 | the same after any number of ticks |
| ProcessFlow.FullCycle | components/ProcessFlow.tsx:118-131 | four ticks return to the mounted state |
| ProcessFlow.RunInRange | components/ProcessFlow.tsx:118-263 | every active and completed step names one of the four |
| ProcessFlow.ClickBackRepeats | components/ProcessFlow.tsx:184 | clicking back to the first step and ticking lists it completed twice |
| ProcessFlow.CardState | components/ProcessFlow.tsx:177-198 | a card is active exactly for the active step, and done when completed otherwise |
| ProcessFlow.OrderlyCards | components/ProcessFlow.tsx:177-198 | in an orderly flow earlier cards are done and later pending |
| ProcessFlow.PercentByStep | components/ProcessFlow.tsx:233 | the four steps show 25, 50, 75 and 100 percent |
| ProcessFlow.Percent | components/ProcessFlow.tsx:233 | the shown percentage is within half a point of the active step's share of 100 |

## Left out

- Rendering, styling, animation and scroll effects: only what a component shows or enables is modelled.
- Translations: labels are modelled by their keys, except the chat assistant's keywords and the tracking page's English status labels.
- Toast texts, icons and the chat assistant's reply wording: outcomes are modelled by kind.
- `formatFileSize`, and the contents a `FileReader` delivers: the preview is an opaque string.
- The clipboard write itself: only the text written is modelled.
- Browser checks (`required`, `type=email`, `type=number`): a number input is modelled as yielding a number or nothing, never `NaN`.
- OrderTracking.UpperChar: ASCII letters only, because the statuses it capitalises are the four English words and unknown keys.
- Common.Lower: ASCII letters only, because the texts searched are English or Arabic and Arabic has no case.
- PageWizard.ParseInt: no `0x` prefix and no radix argument, because the page calls `parseInt` on decimal text without a radix.
- SuccessModal.GeneratedOrderId: the clock is a parameter, read at render time.
- Chatbot: message ids drawn from `Date.now()` and the timestamps are not modelled.
- Notifications: random ids are event parameters, and a timer's delay is not modelled, only which timers are pending.
- SystemMonitor.Tick: the log line's wording, and the clock formatting of its timestamp, are left out.
- Numbers are exact reals; IEEE rounding of money and percentages is not modelled.
- Elapsed time is not modelled: every timer is an event that may fire whenever it is pending.
- TransferForm: the 1-second delay before `onSubmit` is a pending job whose effect on the parent is not modelled.
- SuccessModal.Text: the English and Arabic tables are data; no property of their wording is proved.
- AIShowcase.Step: the counters are promised never to fall only from states under their caps; above a cap `Math.min` lowers a counter to the cap, and `RunInv` shows no reachable state is there.
- StartWizard: the "back" link and the "go to dashboard" button (components/EnhancedStartWizard.tsx:172 and :301) only call the parent's `onBack`, which lies outside the wizard; they change none of its state and are not events.
- StartWizard: as written, the wizard mounts its success dialog on every render without a language, so its first render throws and none of its steps is shown (`SuccessDialogAsWritten`). The step machine `StartWizard.Step` and every lemma about it model the wizard as it behaves once the dialog is given the wizard's language (`SuccessDialog`).
- StartWizard.DisplayedOrderId: one random draw per render; the source draws again on every re-render of step 4, so the shown id changes, which the model does not track.
- AdminUsers: a newly added user is always active, because the add form has no status input.
- TrainingDashboard: the form fields' effects beyond the state they set, and the dataset list.

## Findings

| source | as written | input that shows it | evidently intended | confidence | as-written member | corrected member |
|---|---|---|---|---|---|---|
| components/EnhancedAdminFeatures.tsx:103 | a new user's id is one more than the number of users | delete user 1 of the three seeded users, then add a user: it gets id 3, which user 3 already has | ids stay unique, since rows, edits and deletes all go by id | not executed | AdminUsers.DuplicateIdAfterDelete | AdminUsers.AddUser |
| components/AITrainingDashboard.tsx:125-129 | Pause and Stop change the status but never clear the running interval | Start, then Stop, then one interval tick: the status is idle but progress is 5 | pausing or stopping halts progress | not executed | TrainingDashboard.StopKeepsRunning | TrainingDashboard.FixedFrozenUnlessTraining |
| components/EnhancedStartWizard.tsx:313-318 | the wizard mounts the success dialog without its required `language` prop, and the dialog computes its next steps with `translations[language][key]` on every render | mounting the wizard: `translations[undefined]` is undefined, so reading `step1` from it throws | pass the wizard's `language` to the dialog | not executed | StartWizard.SuccessDialogAsWritten | StartWizard.SuccessDialog |

=== FILE: admin_users.dfy ===
/** The admin user table (`EnhancedAdminFeatures`): search, add, edit in place,
    save, cancel and confirmed delete over a list of users keyed by their id.

    As written, a new user's id is `(users.length + 1).toString()`, which repeats
    an existing id once a user has been deleted; rows, edits and deletes all go
    by id, so ids are evidently meant to be unique. `AddUserAsWritten` keeps the
    original rule and `DuplicateIdAfterDelete` exhibits the clash; `AddUser`
    takes one more than the largest numeric id instead, and the table's steps use
    it. */
module AdminUsers {
  import opened Common

  datatype Role = Admin | Member | Viewer       // 'admin' | 'user' | 'viewer'
  datatype Status = Active | Inactive

  datatype User = User(id: string, name: string, email: string, role: Role, status: Status)

  /** The add form: a user without an id. */
  datatype Draft = Draft(name: string, email: string, role: Role, status: Status)

  const InitialUsers: seq<User> := [
    User("1", "Alice Smith", "alice@example.com", Admin, Active),
    User("2", "Bob Johnson", "bob@example.com", Member, Active),
    User("3", "Charlie Brown", "charlie@example.com", Viewer, Inactive)
  ]

  const EmptyDraft: Draft := Draft("", "", Member, Active)

  predicate UniqueIds(users: seq<User>) {
    forall i, j :: 0 <= i < j < |users| ==> users[i].id != users[j].id
  }

  // ---------------------------------------------------------------------------
  // Search
  // ---------------------------------------------------------------------------

  predicate UserMatches(u: User, term: string) {
    Includes(Lower(u.name), Lower(term)) || Includes(Lower(u.email), Lower(term))
  }

  function UserMatcher(term: string): User -> bool {
    (u: User) => UserMatches(u, term)
  }

  /** `filteredUsers`: the users whose name or email contains the term, ignoring
      case, in table order; an empty term lists everyone. */
  function FilteredUsers(users: seq<User>, term: string): (r: seq<User>)
    ensures forall u :: u in r <==> u in users && UserMatches(u, term)
    ensures IsSubseq(r, users)
    ensures term == [] ==> r == users
  {
    if term == [] then
      forall u | u in users ensures UserMatcher(term)(u) {
        IncludesEmpty(Lower(u.name));
      }
      Filter(UserMatcher(term), users)
    else Filter(UserMatcher(term), users)
  }

  // ---------------------------------------------------------------------------
  // Adding
  // ---------------------------------------------------------------------------

  /** The numeric value of an id, zero for an id that is not a decimal number. */
  function IdValue(id: string): nat {
    if AllDigits(id) then DigitsValue(id) else 0
  }

  /** The largest numeric id in the table. */
  function MaxId(users: seq<User>): (m: nat)
    ensures forall k :: 0 <= k < |users| ==> IdValue(users[k].id) <= m
    decreases |users|
  {
    if users == [] then 0
    else
      var rest := MaxId(users[..|users| - 1]);
      var last := IdValue(users[|users| - 1].id);
      assert forall k :: 0 <= k < |users| - 1 ==> users[k] == users[..|users| - 1][k];
      if last > rest then last else rest
  }

  /** `handleAddUser` as written: refused (`None`) when the name or email is
      empty, otherwise appended under the id `users.length + 1`. */
  function AddUserAsWritten(users: seq<User>, d: Draft): (r: Option<seq<User>>)
    ensures r.None? <==> d.name == [] || d.email == []
    ensures r.Some? ==> |r.value| == |users| + 1 && r.value[..|users|] == users
    ensures r.Some? ==> r.value[|users|] == User(Decimal(|users| + 1), d.name, d.email, d.role, d.status)
  {
    if d.name == [] || d.email == [] then None
    else Some(users + [User(Decimal(|users| + 1), d.name, d.email, d.role, d.status)])
  }

  /** The same operation with a fresh id: one more than the largest numeric id. */
  function AddUser(users: seq<User>, d: Draft): (r: Option<seq<User>>)
    ensures r.None? <==> d.name == [] || d.email == []
    ensures r.Some? ==> |r.value| == |users| + 1 && r.value[..|users|] == users
    ensures r.Some? ==> var u := r.value[|users|];
      u.name == d.name && u.email == d.email && u.role == d.role && u.status == d.status
      && forall k :: 0 <= k < |users| ==> users[k].id != u.id
  {
    if d.name == [] || d.email == [] then None
    else
      var id := Decimal(MaxId(users) + 1);
      FreshId(users);
      Some(users + [User(id, d.name, d.email, d.role, d.status)])
  }

  /** No user carries the id after the largest numeric one. */
  lemma FreshId(users: seq<User>)
    ensures forall k :: 0 <= k < |users| ==> users[k].id != Decimal(MaxId(users) + 1)
  {
    DigitsValueOfDecimal(MaxId(users) + 1);
  }

  /** Adding keeps ids unique. */
  lemma AddKeepsUnique(users: seq<User>, d: Draft)
    requires UniqueIds(users) && AddUser(users, d).Some?
    ensures UniqueIds(AddUser(users, d).value)
  {
    var r := AddUser(users, d).value;
    assert forall k :: 0 <= k < |users| ==> r[k] == users[k];
  }

  /** Where nothing was ever deleted (ids 1..n in order) the fresh id is the
      original `users.length + 1`: the correction changes nothing there. */
  lemma {:induction false} SequentialIdsAgree(users: seq<User>)
    requires forall k :: 0 <= k < |users| ==> users[k].id == Decimal(k + 1)
    ensures MaxId(users) == |users|
    decreases |users|
  {
    if users != [] {
      var n := |users|;
      SequentialIdsAgree(users[..n - 1]);
      DigitsValueOfDecimal(n);
    }
  }

  lemma AddAgreesWithoutDeletes(users: seq<User>, d: Draft)
    requires forall k :: 0 <= k < |users| ==> users[k].id == Decimal(k + 1)
    ensures AddUser(users, d) == AddUserAsWritten(users, d)
  {
    SequentialIdsAgree(users);
  }

  // ---------------------------------------------------------------------------
  // Saving and deleting
  // ---------------------------------------------------------------------------

  /** `users.map(user => user.id === edited.id ? edited : user)`. */
  function ReplaceById(users: seq<User>, edited: User): (r: seq<User>)
    ensures |r| == |users|
    ensures forall k :: 0 <= k < |users| ==> r[k] == (if users[k].id == edited.id then edited else users[k])
  {
    seq(|users|, k requires 0 <= k < |users| => if users[k].id == edited.id then edited else users[k])
  }

  /** Saving never changes which ids sit where, so it keeps ids unique; with
      unique ids it replaces exactly the one user with the edited id. */
  lemma SaveKeepsIds(users: seq<User>, edited: User)
    ensures forall k :: 0 <= k < |users| ==> ReplaceById(users, edited)[k].id == users[k].id
    ensures UniqueIds(users) ==> UniqueIds(ReplaceById(users, edited))
    ensures UniqueIds(users) ==> forall i, j :: (0 <= i < |users| && 0 <= j < |users| && i != j
      && users[i].id == edited.id) ==> ReplaceById(users, edited)[j] == users[j]
  {
  }

  function IdIsNot(id: string): User -> bool {
    (u: User) => u.id != id
  }

  /** `handleDeleteUser`: after a confirmation, every user with the id is dropped. */
  function DeleteUser(users: seq<User>, id: string, confirmed: bool): (r: seq<User>)
    ensures !confirmed ==> r == users
    ensures confirmed ==> forall u :: u in r <==> u in users && u.id != id
  {
    if confirmed then Filter(IdIsNot(id), users) else users
  }

  lemma {:induction false} SubseqMembers(a: seq<User>, b: seq<User>)
    requires IsSubseq(a, b)
    ensures forall x :: x in a ==> x in b
    decreases |b|
  {
    if a != [] {
      if a[0] == b[0] && IsSubseq(a[1..], b[1..]) {
        SubseqMembers(a[1..], b[1..]);
        forall x | x in a ensures x in b {
          if x != a[0] { assert x in a[1..]; }
        }
      } else {
        SubseqMembers(a, b[1..]);
      }
    }
  }

  /** A subsequence of a table with unique ids has unique ids. */
  lemma {:induction false} SubseqKeepsUnique(a: seq<User>, b: seq<User>)
    requires IsSubseq(a, b) && UniqueIds(b)
    ensures UniqueIds(a)
    decreases |b|
  {
    if a != [] {
      assert UniqueIds(b[1..]) by {
        forall i, j | 0 <= i < j < |b[1..]| ensures b[1..][i].id != b[1..][j].id {
          assert b[1..][i] == b[i + 1] && b[1..][j] == b[j + 1];
        }
      }
      if a[0] == b[0] && IsSubseq(a[1..], b[1..]) {
        SubseqKeepsUnique(a[1..], b[1..]);
        SubseqMembers(a[1..], b[1..]);
        forall i, j | 0 <= i < j < |a| ensures a[i].id != a[j].id {
          if i == 0 {
            assert a[j] in a[1..];
            assert a[j] in b[1..];
            var m :| 0 <= m < |b[1..]| && b[1..][m] == a[j];
            assert b[m + 1] == a[j];
          } else {
            assert a[i] == a[1..][i - 1] && a[j] == a[1..][j - 1];
          }
        }
      } else {
        SubseqKeepsUnique(a, b[1..]);
      }
    }
  }

  lemma DeleteKeepsUnique(users: seq<User>, id: string, confirmed: bool)
    requires UniqueIds(users)
    ensures UniqueIds(DeleteUser(users, id, confirmed))
  {
    if confirmed {
      SubseqKeepsUnique(Filter(IdIsNot(id), users), users);
    }
  }

  // ---------------------------------------------------------------------------
  // The panel
  // ---------------------------------------------------------------------------

  datatype Panel = Panel(users: seq<User>, searchTerm: string, editing: Option<User>, draft: Draft)

  const Initial: Panel := Panel(InitialUsers, "", None, EmptyDraft)

  datatype Event =
    | TypeSearch(text: string)
    | EditDraft(name: string, email: string, role: Role)   // the add form has no status input
    | Add
    | StartEdit(u: User)
    | ChangeEditing(name: string, email: string, role: Role, status: Status)
    | Save
    | Cancel
    | Delete(id: string, confirmed: bool)   // `window.confirm`'s answer

  /** One event. The user list changes only by adding, saving or a confirmed
      delete, grows by at most one user, and saving or cancelling ends the edit. */
  function Step(p: Panel, e: Event): (q: Panel)
    ensures q.users != p.users ==> e.Add? || e.Save? || (e.Delete? && e.confirmed)
    ensures |q.users| <= |p.users| + 1
    ensures e.Save? || e.Cancel? ==> q.editing.None?
  {
    match e
    case TypeSearch(t) => p.(searchTerm := t)
    case EditDraft(name, email, role) => p.(draft := Draft(name, email, role, Active))
    case Add =>
      var r := AddUser(p.users, p.draft);
      if r.None? then p else p.(users := r.value, draft := EmptyDraft)
    case StartEdit(u) => p.(editing := Some(u))
    case ChangeEditing(n, m, r, s) =>
      if p.editing.None? then p else p.(editing := Some(p.editing.value.(name := n, email := m, role := r, status := s)))
    case Save => if p.editing.None? then p else p.(users := ReplaceById(p.users, p.editing.value), editing := None)
    case Cancel => p.(editing := None)
    case Delete(id, c) => p.(users := DeleteUser(p.users, id, c))
  }

  function Run(p: Panel, events: seq<Event>): Panel
    decreases |events|
  {
    if events == [] then p else Run(Step(p, events[0]), events[1..])
  }

  lemma InitialUnique()
    ensures UniqueIds(InitialUsers)
  {
  }

  lemma StepKeepsUnique(p: Panel, e: Event)
    requires UniqueIds(p.users)
    ensures UniqueIds(Step(p, e).users)
  {
    match e
    case Add =>
      if AddUser(p.users, p.draft).Some? { AddKeepsUnique(p.users, p.draft); }
    case Save =>
      if p.editing.Some? { SaveKeepsIds(p.users, p.editing.value); }
    case Delete(id, c) => DeleteKeepsUnique(p.users, id, c);
    case _ =>
  }

  /** Whatever the admin does, no two rows share an id. */
  lemma {:induction false} RunKeepsUnique(p: Panel, events: seq<Event>)
    requires UniqueIds(p.users)
    ensures UniqueIds(Run(p, events).users)
    decreases |events|
  {
    if events != [] {
      StepKeepsUnique(p, events[0]);
      RunKeepsUnique(Step(p, events[0]), events[1..]);
    }
  }

  // ---------------------------------------------------------------------------
  // The original id rule
  // ---------------------------------------------------------------------------

  /** Deleting Alice and adding a user gives the newcomer Charlie's id `3`. */
  lemma DuplicateIdAfterDelete()
    ensures var users := DeleteUser(InitialUsers, "1", true);
      var r := AddUserAsWritten(users, Draft("Dana", "dana@example.com", Member, Active));
      r.Some? && !UniqueIds(r.value)
  {
    var users := DeleteUser(InitialUsers, "1", true);
    var bob := InitialUsers[1];
    var charlie := InitialUsers[2];
    assert users == [bob, charlie] by {
      assert Filter(IdIsNot("1"), InitialUsers[2..]) == [charlie];
      assert Filter(IdIsNot("1"), InitialUsers[1..]) == [bob, charlie];
    }
    assert Decimal(3) == "3";
    var r := AddUserAsWritten(users, Draft("Dana", "dana@example.com", Member, Active)).value;
    assert r[1].id == r[2].id;
  }

  /** With a repeated id, saving an edit of one of the two overwrites both. */
  lemma DuplicateSaveOverwritesBoth(a: User, b: User, edited: User)
    requires a.id == b.id == edited.id && a != edited && b != edited
    ensures ReplaceById([a, b], edited) == [edited, edited]
  {
  }
}

=== FILE: ai_showcase.dfy ===
/** The three-step AI demo section (`AIShowcase`): the same player as the other
    showcase, except that the last step's completing tick goes back to the first
    step, and the steps can be picked by clicking them. Next to it, three live
    counters grow by random amounts every 500 ms up to fixed caps, whether or not
    the demo plays; `Math.random()` becomes the event's parameters. */
module AIShowcase {
  import opened Common
  import opened DemoPlayer

  const StepCount: nat := 3
  const Mode: EndMode := BackToFirst

  const AnalyzedCap: nat := 5000
  const FilteredCap: nat := 4200
  const TransferredCap: nat := 4100

  datatype LiveStats = LiveStats(analyzed: nat, filtered: nat, transferred: nat)

  const NoStats: LiveStats := LiveStats(0, 0, 0)

  function Min(a: int, b: int): (r: int)
    ensures r <= a && r <= b && (r == a || r == b)
  {
    if a <= b then a else b
  }

  /** `Math.min(prev + Math.floor(r * spread), cap)`. A counter under its cap
      never falls; one above it would drop to the cap. */
  function Grow(prev: nat, r: Unit, spread: nat, cap: nat): (n: nat)
    ensures n <= cap && n <= prev + spread
    ensures prev <= cap ==> prev <= n
    ensures prev > cap ==> n == cap
  {
    var step := (r * spread as real).Floor;
    ScaledFloor(r, spread);
    Min(prev + step, cap)
  }

  lemma ScaleBounds(r: Unit, x: real)
    requires x >= 0.0
    ensures 0.0 <= r * x <= x
  {
    assert x - r * x == (1.0 - r) * x;
    assert (1.0 - r) * x >= 0.0;
  }

  /** `Math.floor(r * n)` lies in 0..n. */
  lemma ScaledFloor(r: Unit, n: nat)
    ensures 0 <= (r * n as real).Floor <= n
  {
    ScaleBounds(r, n as real);
  }

  /** One tick of the live counters: afterwards all three are under their caps,
      and from counters under their caps none falls. */
  function LiveTick(s: LiveStats, a: Unit, f: Unit, t: Unit): (r: LiveStats)
    ensures LiveInRange(r)
    ensures r.analyzed < s.analyzed + 50 && r.filtered < s.filtered + 40 && r.transferred < s.transferred + 35
    ensures LiveInRange(s) ==>
      s.analyzed <= r.analyzed && s.filtered <= r.filtered && s.transferred <= r.transferred
  {
    var r := LiveStats(Grow(s.analyzed, a, 50, AnalyzedCap), Grow(s.filtered, f, 40, FilteredCap),
                       Grow(s.transferred, t, 35, TransferredCap));
    assert (a * 50.0).Floor < 50 && (f * 40.0).Floor < 40 && (t * 35.0).Floor < 35;
    r
  }

  /** The overall percentage: transferred out of 5000, rounded. */
  function OverallPercent(transferred: nat): (n: int)
    ensures n >= 0
    ensures transferred as real / 50.0 - 0.5 < n as real <= transferred as real / 50.0 + 0.5
  {
    Round(transferred as real / 5000.0 * 100.0)
  }

  /** The bar width: the same ratio, capped at 100. */
  function BarWidth(transferred: nat): (w: real)
    ensures w <= 100.0
  {
    var x := transferred as real / 5000.0 * 100.0;
    if x <= 100.0 then x else 100.0
  }

  /** Because the transfer counter stops at 4100, the overall figure never passes
      82% and the bar's 100% cap never comes into play. */
  lemma OverallNeverComplete(transferred: nat)
    requires transferred <= TransferredCap
    ensures OverallPercent(transferred) <= 82
    ensures BarWidth(transferred) == transferred as real / 50.0 <= 82.0
  {
  }

  lemma CapReached()
    ensures OverallPercent(TransferredCap) == 82
  {
  }

  datatype Demo = Demo(player: Player, live: LiveStats)

  const Initial: Demo := Demo(Stopped, NoStats)

  datatype Event =
    | PlayButton
    | RestartButton
    | SelectStep(index: nat)
    | IntervalTick
    | LiveInterval(a: Unit, f: Unit, t: Unit)

  predicate LiveInRange(s: LiveStats) {
    s.analyzed <= AnalyzedCap && s.filtered <= FilteredCap && s.transferred <= TransferredCap
  }

  /** One event. The player and the counters are independent: only the counters'
      interval touches the counters, and it leaves the player alone. Counters
      under their caps never fall, and the interval always leaves them there. */
  function Step(d: Demo, e: Event): (g: Demo)
    ensures !e.LiveInterval? ==> g.live == d.live
    ensures e.LiveInterval? ==> g.player == d.player && LiveInRange(g.live)
    ensures LiveInRange(d.live) ==>
      g.live.analyzed >= d.live.analyzed && g.live.filtered >= d.live.filtered
      && g.live.transferred >= d.live.transferred
  {
    match e
    case PlayButton => d.(player := TogglePlay(d.player))
    case RestartButton => d.(player := Stopped)
    case SelectStep(i) => d.(player := d.player.(step := i))
    case IntervalTick => d.(player := Tick(d.player, StepCount, Mode))
    case LiveInterval(a, f, t) => d.(live := LiveTick(d.live, a, f, t))
  }

  /** The step cards exist for the three steps; the demo interval runs only while
      playing; the counters' interval always runs. */
  predicate Offered(d: Demo, e: Event) {
    match e
    case SelectStep(i) => i < StepCount
    case IntervalTick => d.player.playing
    case _ => true
  }

  predicate OfferedTrace(d: Demo, events: seq<Event>)
    decreases |events|
  {
    events == [] || (Offered(d, events[0]) && OfferedTrace(Step(d, events[0]), events[1..]))
  }

  function Run(d: Demo, events: seq<Event>): Demo
    decreases |events|
  {
    if events == [] then d else Run(Step(d, events[0]), events[1..])
  }

  predicate DemoInv(d: Demo) {
    Inv(d.player, StepCount) && LiveInRange(d.live)
  }

  /** Along any offered trace the demo shows one of its three steps with an even
      progress in 0..100, and the counters stay under their caps and never fall. */
  lemma {:induction false} RunInv(d: Demo, events: seq<Event>)
    requires DemoInv(d) && OfferedTrace(d, events)
    ensures DemoInv(Run(d, events))
    ensures Run(d, events).live.transferred >= d.live.transferred
    ensures Run(d, events).live.analyzed >= d.live.analyzed
    ensures Run(d, events).live.filtered >= d.live.filtered
    decreases |events|
  {
    if events != [] {
      if events[0].IntervalTick? {
        TickInv(d.player, StepCount, Mode);
      }
      RunInv(Step(d, events[0]), events[1..]);
    }
  }

  /** Picking a step keeps the progress bar where it was. */
  lemma SelectKeepsProgress(d: Demo, i: nat)
    requires i < StepCount
    ensures Step(d, SelectStep(i)).player.step == i
    ensures Step(d, SelectStep(i)).player.progress == d.player.progress
    ensures Step(d, SelectStep(i)).player.playing == d.player.playing
  {
  }

  /** Played from the start, the demo stops after 153 ticks back on the first step,
      exactly as the restart button leaves it. */
  lemma PlaysThenRewinds()
    ensures Ticks(Player(true, 0, 0), StepCount, Mode, 153) == Stopped
  {
    PlayToEnd(0, StepCount, Mode);
  }
}

=== FILE: chatbot.dfy ===
/** The canned chat assistant (`AIChatbot`). A sent message is answered after a
    1.5-second wait by looking for one keyword per topic in the lower-cased text,
    in a fixed order; the keywords and the answer's language are those of the
    language active when the message was sent. Replies are modelled by topic,
    not by their wording. */
module Chatbot {
  import opened Common

  datatype Language = En | Ar

  /** What an assistant message says. `ErrorReply` is the catch path's text. */
  datatype Reply = TransferHelp | PricingHelp | SupportHelp | Fallback | ErrorReply

  datatype Content =
    | Welcome(lang: Language)
    | UserText(text: string)
    | Answer(lang: Language, reply: Reply)

  datatype Role = User | Assistant

  datatype Message = Message(role: Role, content: Content)

  /** The pending reply: the text that was sent and the language it was sent in. */
  datatype Pending = Pending(text: string, lang: Language)

  datatype Chat = Chat(
    messages: seq<Message>,
    input: string,
    loading: bool,
    pending: Option<Pending>,
    lang: Language)

  // ---------------------------------------------------------------------------
  // Choosing a reply
  // ---------------------------------------------------------------------------

  function TransferWord(l: Language): string {
    if l == En then "transfer" else "\U{0646}\U{0642}\U{0644}"
  }

  function PriceWord(l: Language): string {
    if l == En then "price" else "\U{0633}\U{0639}\U{0631}"
  }

  function SupportWord(l: Language): string {
    if l == En then "support" else "\U{062F}\U{0639}\U{0645}"
  }

  /** The answer to `text` in language `l`: the first topic whose keyword occurs in
      the lower-cased text, transfers before prices before support, else the
      fallback. */
  function ReplyFor(l: Language, text: string): (r: Reply)
    ensures r != ErrorReply
    ensures r == TransferHelp <==> Includes(Lower(text), TransferWord(l))
    ensures r == PricingHelp <==> !Includes(Lower(text), TransferWord(l)) && Includes(Lower(text), PriceWord(l))
    ensures r == SupportHelp <==>
      !Includes(Lower(text), TransferWord(l)) && !Includes(Lower(text), PriceWord(l)) && Includes(Lower(text), SupportWord(l))
  {
    var low := Lower(text);
    if Includes(low, TransferWord(l)) then TransferHelp
    else if Includes(low, PriceWord(l)) then PricingHelp
    else if Includes(low, SupportWord(l)) then SupportHelp
    else Fallback
  }

  lemma LowerIdempotent(s: string)
    ensures Lower(Lower(s)) == Lower(s)
  {
  }

  /** Case does not matter: a text and its lower-cased form get the same answer. */
  lemma ReplyIgnoresCase(l: Language, text: string)
    ensures ReplyFor(l, Lower(text)) == ReplyFor(l, text)
  {
    LowerIdempotent(text);
  }

  /** A keyword that is its own lower case is found wherever it sits in the text. */
  lemma KeywordFound(a: string, k: string, b: string)
    requires Lower(k) == k
    ensures Includes(Lower(a + k + b), k)
  {
    var low := Lower(a + k + b);
    assert low[|a|..][..|k|] == Lower(k);
    assert StartsWith(low[|a|..], k);
  }

  /** Any message mentioning a transfer keyword is answered about transfers,
      whatever else it mentions. */
  lemma TransferWins(l: Language, a: string, b: string)
    ensures ReplyFor(l, a + TransferWord(l) + b) == TransferHelp
  {
    KeywordFound(a, TransferWord(l), b);
  }

  /** The keywords of the other language are not understood: every Arabic
      keyword starts with an Arabic letter, so in text typed in Latin letters,
      such as an English question about prices, no Arabic keyword is ever found
      and the answer is the fallback while Arabic is active. */
  lemma KeywordsFollowLanguage(text: string)
    requires forall i :: 0 <= i < |text| ==> text[i] < '\U{0080}'
    ensures ReplyFor(Ar, text) == Fallback
  {
    var low := Lower(text);
    assert forall i :: 0 <= i < |low| ==> low[i] < '\U{0080}';
    NotFound(low, TransferWord(Ar));
    NotFound(low, PriceWord(Ar));
    NotFound(low, SupportWord(Ar));
  }

  /** A needle whose first character never occurs in the text is not found. */
  lemma NotFound(hay: string, needle: string)
    requires |needle| > 0 && needle[0] >= '\U{0080}'
    requires forall i :: 0 <= i < |hay| ==> hay[i] < '\U{0080}'
    ensures !Includes(hay, needle)
  {
  }

  // ---------------------------------------------------------------------------
  // The conversation
  // ---------------------------------------------------------------------------

  /** The mount effect: an empty list gets the welcome message. */
  function WelcomeEffect(c: Chat): (r: Chat)
    ensures c.messages == [] ==> r.messages == [Message(Assistant, Welcome(c.lang))]
    ensures c.messages != [] ==> r == c
  {
    if c.messages == [] then c.(messages := [Message(Assistant, Welcome(c.lang))]) else c
  }

  /** The chat as first shown in language `l`. */
  function Start(l: Language): Chat {
    WelcomeEffect(Chat([], "", false, None, l))
  }

  datatype Event =
    | Type(text: string)
    | Send                       // the form submitted by the button or Enter
    | Settle(failed: bool)       // the awaited timer resolved, or the try block threw
    | SetLanguage(l: Language)

  /** `handleSendMessage` up to the wait: a blank input does nothing; otherwise the
      text is appended as the user's message, the input cleared and loading set. */
  function HandleSend(c: Chat): (d: Chat)
    ensures IsBlank(c.input) ==> d == c
    ensures !IsBlank(c.input) ==>
      |d.messages| == |c.messages| + 1 && d.messages[..|c.messages|] == c.messages
      && d.messages[|c.messages|] == Message(User, UserText(c.input)) && d.input == [] && d.loading
      && d.pending == Some(Pending(c.input, c.lang))
    ensures d.lang == c.lang
  {
    if IsBlank(c.input) then c
    else c.(messages := c.messages + [Message(User, UserText(c.input))], input := "", loading := true,
            pending := Some(Pending(c.input, c.lang)))
  }

  /** The rest of `handleSendMessage`: the answer (or the error text) is appended
      and `finally` clears loading. The answer is in the language the question
      was sent in and answers that question, whatever the language is now. The
      `failed` path over-approximates the component, whose awaited timer cannot
      throw. */
  function HandleSettle(c: Chat, failed: bool): (d: Chat)
    ensures c.pending.None? ==> d == c
    ensures c.pending.Some? ==>
      !d.loading && d.pending.None? && d.lang == c.lang
      && |d.messages| == |c.messages| + 1 && d.messages[..|c.messages|] == c.messages
      && d.messages[|c.messages|].role == Assistant && d.messages[|c.messages|].content.Answer?
      && d.messages[|c.messages|].content.lang == c.pending.value.lang
      && Answers(c.pending.value.text, d.messages[|c.messages|].content)
  {
    if c.pending.None? then c
    else
      var p := c.pending.value;
      var reply := if failed then ErrorReply else ReplyFor(p.lang, p.text);
      c.(messages := c.messages + [Message(Assistant, Answer(p.lang, reply))], loading := false, pending := None)
  }

  /** One event. Messages are only ever appended, at most one at a time after
      the welcome; only the language switch changes the language. */
  function Step(c: Chat, e: Event): (d: Chat)
    ensures c.messages != [] ==>
      |c.messages| <= |d.messages| <= |c.messages| + 1 && d.messages[..|c.messages|] == c.messages
    ensures d.messages != []
    ensures d.lang != c.lang ==> e.SetLanguage?
  {
    var next := match e
      case Type(t) => c.(input := t)
      case Send => HandleSend(c)
      case Settle(failed) => HandleSettle(c, failed)
      case SetLanguage(l) => c.(lang := l);
    WelcomeEffect(next)
  }

  /** The input is disabled while loading; so is the send button, also while the
      input is blank. The pending reply arrives whenever one is pending, with or
      without failure, although the component's own wait never fails. */
  predicate Offered(c: Chat, e: Event) {
    match e
    case Type(_) => !c.loading
    case Send => !c.loading && !IsBlank(c.input)
    case Settle(_) => c.pending.Some?
    case SetLanguage(_) => true
  }

  predicate OfferedTrace(c: Chat, events: seq<Event>)
    decreases |events|
  {
    events == [] || (Offered(c, events[0]) && OfferedTrace(Step(c, events[0]), events[1..]))
  }

  function Run(c: Chat, events: seq<Event>): Chat
    decreases |events|
  {
    if events == [] then c else Run(Step(c, events[0]), events[1..])
  }

  /** The conversation's shape: the welcome message first, then the user's
      messages and the assistant's answers strictly alternating, each user message
      non-blank and each answer either the error text or the reply its question
      calls for; loading exactly while an answer is pending, for the last user
      message. */
  predicate Inv(c: Chat) {
    && |c.messages| >= 1
    && c.messages[0].role == Assistant && c.messages[0].content.Welcome?
    && (c.loading <==> c.pending.Some?)
    && (c.loading <==> |c.messages| % 2 == 0)
    && (forall i :: 1 <= i < |c.messages| && i % 2 == 1 ==>
          c.messages[i].role == User && c.messages[i].content.UserText?
          && !IsBlank(c.messages[i].content.text))
    && (forall i :: 2 <= i < |c.messages| && i % 2 == 0 ==>
          c.messages[i].role == Assistant && c.messages[i].content.Answer? && c.messages[i - 1].content.UserText?
          && Answers(c.messages[i - 1].content.text, c.messages[i].content))
    && (c.pending.Some? ==> c.messages[|c.messages| - 1].content == UserText(c.pending.value.text))
  }

  /** `answer` is a proper answer to the question `q`. */
  predicate Answers(q: string, answer: Content)
    requires answer.Answer?
  {
    answer.reply == ErrorReply || answer.reply == ReplyFor(answer.lang, q)
  }

  lemma StartInv(l: Language)
    ensures Inv(Start(l))
    ensures Start(l).messages == [Message(Assistant, Welcome(l))]
  {
  }

  /** Sending appends a user message after an answer (or the welcome). */
  lemma SendInv(c: Chat)
    requires Inv(c) && !c.loading && !IsBlank(c.input)
    ensures Inv(HandleSend(c))
    ensures HandleSend(c).messages == c.messages + [Message(User, UserText(c.input))]
  {
    var d := HandleSend(c);
    var n := |c.messages|;
    forall i | 1 <= i < |d.messages| && i % 2 == 1
      ensures d.messages[i].role == User && d.messages[i].content.UserText?
      ensures !IsBlank(d.messages[i].content.text)
    {
      if i < n { assert d.messages[i] == c.messages[i]; }
    }
    forall i | 2 <= i < |d.messages| && i % 2 == 0
      ensures d.messages[i].role == Assistant && d.messages[i].content.Answer? && d.messages[i - 1].content.UserText?
      ensures Answers(d.messages[i - 1].content.text, d.messages[i].content)
    {
      assert d.messages[i] == c.messages[i] && d.messages[i - 1] == c.messages[i - 1];
    }
  }

  /** Settling appends the answer to the last user message. */
  lemma SettleInv(c: Chat, failed: bool)
    requires Inv(c) && c.pending.Some?
    ensures Inv(HandleSettle(c, failed))
    ensures |HandleSettle(c, failed).messages| == |c.messages| + 1
    ensures HandleSettle(c, failed).messages[..|c.messages|] == c.messages
  {
    var d := HandleSettle(c, failed);
    var n := |c.messages|;
    var m := d.messages[n];
    assert d.messages == c.messages + [m];
    AppendAnswer(c.messages, m, c.pending.value.text);
  }

  /** An answer to the last question keeps the alternation. */
  lemma AppendAnswer(ms: seq<Message>, m: Message, q: string)
    requires |ms| >= 2 && |ms| % 2 == 0 && ms[|ms| - 1].content == UserText(q)
    requires forall i :: 1 <= i < |ms| && i % 2 == 1 ==>
      ms[i].role == User && ms[i].content.UserText? && !IsBlank(ms[i].content.text)
    requires forall i :: 2 <= i < |ms| && i % 2 == 0 ==>
      ms[i].role == Assistant && ms[i].content.Answer? && ms[i - 1].content.UserText?
      && Answers(ms[i - 1].content.text, ms[i].content)
    requires m.role == Assistant && m.content.Answer? && Answers(q, m.content)
    ensures var d := ms + [m];
      (forall i :: 1 <= i < |d| && i % 2 == 1 ==>
        d[i].role == User && d[i].content.UserText? && !IsBlank(d[i].content.text))
      && (forall i :: 2 <= i < |d| && i % 2 == 0 ==>
        d[i].role == Assistant && d[i].content.Answer? && d[i - 1].content.UserText?
        && Answers(d[i - 1].content.text, d[i].content))
  {
    var d := ms + [m];
    var n := |ms|;
    forall i | 1 <= i < |d| && i % 2 == 1
      ensures d[i].role == User && d[i].content.UserText? && !IsBlank(d[i].content.text)
    {
      assert d[i] == ms[i];
    }
    forall i | 2 <= i < |d| && i % 2 == 0
      ensures d[i].role == Assistant && d[i].content.Answer? && d[i - 1].content.UserText?
      ensures Answers(d[i - 1].content.text, d[i].content)
    {
      assert d[i - 1] == ms[i - 1];
      if i < n { assert d[i] == ms[i]; }
    }
  }

  lemma StepInv(c: Chat, e: Event)
    requires Inv(c) && Offered(c, e)
    ensures Inv(Step(c, e))
    ensures |Step(c, e).messages| >= |c.messages|
    ensures Step(c, e).messages[..|c.messages|] == c.messages
  {
    match e {
      case Send =>
        SendInv(c);
        assert (c.messages + [Message(User, UserText(c.input))])[..|c.messages|] == c.messages;
      case Settle(failed) => SettleInv(c, failed);
      case _ =>
    }
  }

  lemma {:induction false} RunInv(c: Chat, events: seq<Event>)
    requires Inv(c) && OfferedTrace(c, events)
    ensures Inv(Run(c, events))
    decreases |events|
  {
    if events != [] {
      StepInv(c, events[0]);
      RunInv(Step(c, events[0]), events[1..]);
    }
  }

  /** From the first screen, whatever is typed and sent, the welcome message stays
      first and shows only once, and every user message gets its answer before the
      next can be sent. */
  lemma WelcomeOnce(l: Language, events: seq<Event>)
    requires OfferedTrace(Start(l), events)
    ensures var c := Run(Start(l), events);
      |c.messages| >= 1 && c.messages[0] == Message(Assistant, Welcome(l))
      && (forall i :: 1 <= i < |c.messages| ==> !c.messages[i].content.Welcome?)
  {
    StartInv(l);
    RunInv(Start(l), events);
    WelcomeKept(Start(l), events);
  }

  lemma {:induction false} WelcomeKept(c: Chat, events: seq<Event>)
    requires Inv(c) && OfferedTrace(c, events)
    ensures |Run(c, events).messages| >= |c.messages|
    ensures Run(c, events).messages[..|c.messages|] == c.messages
    decreases |events|
  {
    if events != [] {
      StepInv(c, events[0]);
      var d := Step(c, events[0]);
      WelcomeKept(d, events[1..]);
      var r := Run(d, events[1..]).messages;
      assert r[..|c.messages|] == r[..|d.messages|][..|c.messages|];
    }
  }

  /** An accepted message is appended as the user's and clears the input; its
      settling appends exactly one assistant message, the topic reply or the error
      text, and clears loading. */
  lemma SendThenSettle(c: Chat, failed: bool)
    requires Inv(c) && !c.loading && !IsBlank(c.input)
    ensures var s := Step(c, Send);
      s.messages == c.messages + [Message(User, UserText(c.input))] && s.input == "" && s.loading
    ensures var d := Step(Step(c, Send), Settle(failed));
      d.messages == c.messages + [Message(User, UserText(c.input)),
                                  Message(Assistant, Answer(c.lang, if failed then ErrorReply else ReplyFor(c.lang, c.input)))]
      && !d.loading
  {
  }

  /** Sending while a reply is pending is impossible, and a blank input is never sent. */
  lemma SendGuards(c: Chat)
    requires Inv(c)
    ensures c.loading ==> !Offered(c, Send)
    ensures IsBlank(c.input) ==> Step(c, Send) == c
  {
  }

  /** The reply is chosen in the language the question was sent in, even when the
      language changes while it is pending. */
  lemma ReplyUsesSendLanguage(c: Chat, text: string)
    requires Inv(c) && !c.loading && c.input == text && !IsBlank(text) && c.lang == En
    ensures var d := Step(Step(Step(c, Send), SetLanguage(Ar)), Settle(false));
      d.messages[|d.messages| - 1] == Message(Assistant, Answer(En, ReplyFor(En, text)))
  {
  }
}

=== FILE: common.dfy ===
/** Helpers shared by every component model: optional values, the JavaScript
    string primitives the components call (`trim`, `toLowerCase`, `includes`,
    `startsWith`, `filter`), decimal rendering of integers (`toString`), and the
    range of `Math.random()` with `Math.round`. */
module Common {

  /** `T | null` / `T | undefined` / the `''` placeholder of a number input. */
  datatype Option<T> = None | Some(value: T)

  // ---------------------------------------------------------------------------
  // Characters
  // ---------------------------------------------------------------------------

  /** The ECMAScript WhiteSpace and LineTerminator code points: the regular
      expression class `\s`, and exactly what `trim()` and `parseInt` skip. */
  predicate IsJsSpace(c: char) {
    || c == '\t' || c == '\n' || c == '\U{000B}' || c == '\U{000C}' || c == '\r'
    || c == ' ' || c == '\U{00A0}' || c == '\U{1680}'
    || ('\U{2000}' <= c <= '\U{200A}')
    || c == '\U{2028}' || c == '\U{2029}' || c == '\U{202F}' || c == '\U{205F}'
    || c == '\U{3000}' || c == '\U{FEFF}'
  }

  predicate IsDigit(c: char) {
    '0' <= c <= '9'
  }

  predicate IsAsciiLetter(c: char) {
    ('a' <= c <= 'z') || ('A' <= c <= 'Z')
  }

  /** `toLowerCase` on one character, restricted to the ASCII letters. */
  function LowerChar(c: char): (r: char)
    ensures 'A' <= c <= 'Z' ==> 'a' <= r <= 'z' && r as int - c as int == 32
    ensures !('A' <= c <= 'Z') ==> r == c
  {
    if 'A' <= c <= 'Z' then (c as int + 32) as char else c
  }

  /** `toLowerCase` on a string: same length, every character lowered. */
  function Lower(s: string): (r: string)
    ensures |r| == |s|
    ensures forall i :: 0 <= i < |s| ==> r[i] == LowerChar(s[i])
  {
    seq(|s|, i requires 0 <= i < |s| => LowerChar(s[i]))
  }

  // ---------------------------------------------------------------------------
  // trim()
  // ---------------------------------------------------------------------------

  /** Every character is whitespace (the empty string included). */
  predicate IsBlank(s: string) {
    forall i :: 0 <= i < |s| ==> IsJsSpace(s[i])
  }

  function TrimStart(s: string): (r: string)
    ensures |r| <= |s| && r == s[|s| - |r|..]
    ensures r == [] || !IsJsSpace(r[0])
    ensures forall i :: 0 <= i < |s| - |r| ==> IsJsSpace(s[i])
    decreases |s|
  {
    if |s| > 0 && IsJsSpace(s[0]) then
      var r := TrimStart(s[1..]);
      assert s[|s| - |r|..] == s[1..][|s| - 1 - |r|..];
      r
    else s
  }

  function TrimEnd(s: string): (r: string)
    ensures |r| <= |s| && r == s[..|r|]
    ensures r == [] || !IsJsSpace(r[|r| - 1])
    ensures forall i :: |r| <= i < |s| ==> IsJsSpace(s[i])
    decreases |s|
  {
    if |s| > 0 && IsJsSpace(s[|s| - 1]) then
      var t := s[..|s| - 1];
      var r := TrimEnd(t);
      assert s[..|r|] == t[..|r|];
      r
    else s
  }

  /** `String.prototype.trim`. */
  function Trim(s: string): string {
    TrimEnd(TrimStart(s))
  }

  /** `!s.trim()` holds exactly for the blank strings. */
  lemma TrimEmptyIffBlank(s: string)
    ensures Trim(s) == [] <==> IsBlank(s)
  {
    var a := TrimStart(s);
    if Trim(s) == [] {
      assert IsBlank(a[0..]);
      assert s == s[..|s| - |a|] + a;
    } else {
      var b := TrimEnd(a);
      assert !IsJsSpace(b[0]) && b[0] == s[|s| - |a|];
    }
  }

  // ---------------------------------------------------------------------------
  // startsWith / includes
  // ---------------------------------------------------------------------------

  predicate StartsWith(s: string, prefix: string) {
    |prefix| <= |s| && s[..|prefix|] == prefix
  }

  predicate EndsWith(s: string, suffix: string) {
    |suffix| <= |s| && s[|s| - |suffix|..] == suffix
  }

  /** `hay.includes(needle)`, searched left to right. */
  function Includes(hay: string, needle: string): (r: bool)
    ensures r <==> exists i :: 0 <= i <= |hay| && StartsWith(hay[i..], needle)
    decreases |hay|
  {
    if StartsWith(hay, needle) then
      assert StartsWith(hay[0..], needle);
      true
    else if |hay| == 0 then
      false
    else
      var r := Includes(hay[1..], needle);
      assert forall i :: 1 <= i <= |hay| ==> hay[i..] == hay[1..][i - 1..];
      assert r ==> exists i :: 0 <= i <= |hay| && StartsWith(hay[i..], needle) by {
        if r {
          var j :| 0 <= j <= |hay[1..]| && StartsWith(hay[1..][j..], needle);
          assert hay[j + 1..] == hay[1..][j..];
        }
      }
      r
  }

  /** The empty search term is found in every text. */
  lemma IncludesEmpty(hay: string)
    ensures Includes(hay, [])
  {
    assert StartsWith(hay[0..], []);
  }

  // ---------------------------------------------------------------------------
  // Array.prototype.filter and order preservation
  // ---------------------------------------------------------------------------

  /** `a` can be obtained from `b` by deleting elements, keeping the order. */
  predicate IsSubseq<T(==)>(a: seq<T>, b: seq<T>)
    decreases |b|
  {
    || a == []
    || (|b| > 0 && ((a[0] == b[0] && IsSubseq(a[1..], b[1..])) || IsSubseq(a, b[1..])))
  }

  /** `s.filter(p)`: the elements satisfying `p`, in their original order. */
  function Filter<T(==,!new)>(p: T -> bool, s: seq<T>): (r: seq<T>)
    ensures |r| <= |s|
    ensures forall x :: x in r <==> x in s && p(x)
    ensures forall i :: 0 <= i < |r| ==> p(r[i])
    ensures (forall i :: 0 <= i < |s| ==> p(s[i])) ==> r == s
    ensures IsSubseq(r, s)
    decreases |s|
  {
    if s == [] then []
    else
      var rest := Filter(p, s[1..]);
      if p(s[0]) then
        var r := [s[0]] + rest;
        assert r[1..] == rest;
        r
      else
        rest
  }

  /** Filtering a concatenation filters each part. */
  lemma {:induction false} FilterAppend<T(!new)>(p: T -> bool, s: seq<T>, t: seq<T>)
    ensures Filter(p, s + t) == Filter(p, s) + Filter(p, t)
    decreases |s|
  {
    if s == [] {
      assert [] + t == t;
    } else {
      assert (s + t)[0] == s[0] && (s + t)[1..] == s[1..] + t;
      FilterAppend(p, s[1..], t);
    }
  }

  // ---------------------------------------------------------------------------
  // Random draws and rounding
  // ---------------------------------------------------------------------------

  /** A value of `Math.random()`. */
  type Unit = r: real | 0.0 <= r < 1.0 witness 0.0

  /** `Math.round(x)`: the nearest integer, halves rounded up. */
  function Round(x: real): (n: int)
    ensures x - 0.5 < n as real <= x + 0.5
  {
    (x + 0.5).Floor
  }

  // ---------------------------------------------------------------------------
  // Decimal rendering of naturals (`n.toString()`)
  // ---------------------------------------------------------------------------

  predicate AllDigits(s: string) {
    forall i :: 0 <= i < |s| ==> IsDigit(s[i])
  }

  function DigitChar(d: nat): (c: char)
    requires d < 10
    ensures IsDigit(c) && c as int - '0' as int == d
  {
    ('0' as int + d) as char
  }

  /** The shortest decimal rendering of `n`, as `n.toString()` produces it. */
  function Decimal(n: nat): (r: string)
    ensures 1 <= |r|
    ensures AllDigits(r)
    ensures |r| > 1 ==> r[0] != '0'
    ensures n < 10 <==> |r| == 1
    decreases n
  {
    if n < 10 then [DigitChar(n)] else Decimal(n / 10) + [DigitChar(n % 10)]
  }

  /** The number a string of decimal digits denotes. */
  function DigitsValue(s: string): nat
    requires AllDigits(s)
    decreases |s|
  {
    if s == [] then 0
    else DigitsValue(s[..|s| - 1]) * 10 + (s[|s| - 1] as int - '0' as int)
  }

  /** Reading back a rendered number gives the number: `Decimal` is injective. */
  lemma {:induction false} DigitsValueOfDecimal(n: nat)
    ensures DigitsValue(Decimal(n)) == n
    decreases n
  {
    if n >= 10 {
      var r := Decimal(n);
      assert r[..|r| - 1] == Decimal(n / 10);
      DigitsValueOfDecimal(n / 10);
    }
  }

  lemma DecimalInjective(m: nat, n: nat)
    requires Decimal(m) == Decimal(n)
    ensures m == n
  {
    DigitsValueOfDecimal(m);
    DigitsValueOfDecimal(n);
  }

  /** `s.slice(-k)` for a positive `k`: the last `min(k, |s|)` characters
      (`slice(-0)` would be `slice(0)`, the whole string). */
  function LastChars(s: string, k: nat): (r: string)
    requires k > 0
    ensures |r| == if |s| < k then |s| else k
    ensures EndsWith(s, r)
  {
    if |s| <= k then s else s[|s| - k..]
  }

  function Pow10(e: nat): (r: nat)
    ensures r >= 1
  {
    if e == 0 then 1 else 10 * Pow10(e - 1)
  }

  /** Dropping the last digit and keeping `k - 1` digits of what remains is the
      same as keeping `k` digits, once the last digit is put back. */
  lemma ModShift(n: nat, p: nat)
    requires p >= 1
    ensures n % (10 * p) == (n / 10 % p) * 10 + n % 10
  {
    var q := n / 10;
    var a := q / p;
    var b := q % p;
    assert n == 10 * q + n % 10;
    assert q == p * a + b;
    assert n == (10 * p) * a + (b * 10 + n % 10);
    assert 0 <= b * 10 + n % 10 < 10 * p;
    ModUnique(n, 10 * p, a, b * 10 + n % 10);
  }

  /** Division with remainder has one answer. */
  lemma ModUnique(n: nat, d: nat, q: nat, r: nat)
    requires d >= 1 && n == d * q + r && r < d
    ensures n % d == r
  {
    var q2, r2 := n / d, n % d;
    assert d * q + r == d * q2 + r2;
    assert d * (q - q2) == r2 - r;
    MulBound(d, q - q2);
  }

  lemma MulBound(d: nat, x: int)
    requires d >= 1
    ensures x >= 1 ==> d * x >= d
    ensures x <= -1 ==> d * x <= -(d as int)
  {
  }

  /** The last `k` digits of a rendered number denote the number modulo `10^k`:
      `n.toString().slice(-k)` read back. */
  lemma {:induction false} LastDigitsValue(n: nat, k: nat)
    requires k > 0
    ensures AllDigits(LastChars(Decimal(n), k))
    ensures DigitsValue(LastChars(Decimal(n), k)) == n % Pow10(k)
    decreases n
  {
    if n < 10 {
      LastDigitsOfDigit(n, k);
    } else if k == 1 {
      LastDigitOnly(n);
    } else {
      LastDigitsValue(n / 10, k - 1);
      LastDigitsStep(n, k);
    }
  }

  /** A one-digit number is its own last `k` digits. */
  lemma LastDigitsOfDigit(n: nat, k: nat)
    requires n < 10 && k > 0
    ensures AllDigits(LastChars(Decimal(n), k))
    ensures DigitsValue(LastChars(Decimal(n), k)) == n % Pow10(k)
  {
    assert LastChars(Decimal(n), k) == Decimal(n);
    DigitsValueOfDecimal(n);
    assert Pow10(k) == 10 * Pow10(k - 1);
    ModUnique(n, Pow10(k), 0, n);
  }

  /** The last digit of a number of two or more digits is its remainder by 10. */
  lemma LastDigitOnly(n: nat)
    requires n >= 10
    ensures AllDigits(LastChars(Decimal(n), 1))
    ensures DigitsValue(LastChars(Decimal(n), 1)) == n % Pow10(1)
  {
    var c := DigitChar(n % 10);
    assert Decimal(n) == Decimal(n / 10) + [c];
    assert LastChars(Decimal(n), 1) == [] + [c];
    DigitsValueSnoc([], c);
  }

  /** The last `k` digits are the last `k - 1` digits of `n / 10` followed by
      the last digit. */
  lemma LastDigitsStep(n: nat, k: nat)
    requires n >= 10 && k >= 2
    requires AllDigits(LastChars(Decimal(n / 10), k - 1))
    requires DigitsValue(LastChars(Decimal(n / 10), k - 1)) == n / 10 % Pow10(k - 1)
    ensures AllDigits(LastChars(Decimal(n), k))
    ensures DigitsValue(LastChars(Decimal(n), k)) == n % Pow10(k)
  {
    var head := Decimal(n / 10);
    var c := DigitChar(n % 10);
    var p := Pow10(k - 1);
    assert Decimal(n) == head + [c];
    LastCharsValueSnoc(head, c, k);
    LastDigitArith(n, p, DigitsValue(LastChars(head, k - 1)));
    assert Pow10(k) == 10 * p;
  }

  /** Appending a digit to a string appends it to its last `k - 1` characters and
      multiplies their value by ten before adding the digit. */
  lemma LastCharsValueSnoc(head: string, c: char, k: nat)
    requires k >= 2 && IsDigit(c) && AllDigits(LastChars(head, k - 1))
    ensures AllDigits(LastChars(head + [c], k))
    ensures DigitsValue(LastChars(head + [c], k))
      == DigitsValue(LastChars(head, k - 1)) * 10 + (c as int - '0' as int)
  {
    LastCharsSnoc(head, c, k);
    DigitsValueSnoc(LastChars(head, k - 1), c);
  }

  /** Putting the last digit back behind the remainder of `n / 10` by `p` gives
      the remainder of `n` by `10 * p`. */
  lemma LastDigitArith(n: nat, p: nat, v: nat)
    requires p >= 1 && v == n / 10 % p
    ensures v * 10 + n % 10 == n % (10 * p)
  {
    ModShift(n, p);
  }

  lemma LastCharsSnoc(head: string, c: char, k: nat)
    requires k >= 2
    ensures LastChars(head + [c], k) == LastChars(head, k - 1) + [c]
  {
    var s := head + [c];
    if |head| + 1 > k {
      assert s[|s| - k..] == head[|head| - (k - 1)..] + [c];
    }
  }

  lemma DigitsValueSnoc(s: string, c: char)
    requires AllDigits(s) && IsDigit(c)
    ensures AllDigits(s + [c])
    ensures DigitsValue(s + [c]) == DigitsValue(s) * 10 + (c as int - '0' as int)
  {
    assert (s + [c])[..|s|] == s;
  }
}

=== FILE: customization.dfy ===
/** The platform settings page (`CustomizationPanel`): eight settings edited in
    place, a set of payment-method checkboxes, and a save button that only logs
    and raises a toast. */
module Customization {
  import opened Common

  datatype Settings = Settings(
    platformName: string,
    contactEmail: string,
    welcomeMessage: string,
    enableDarkMode: bool,
    primaryColor: string,
    pricePerMember: real,
    minMembers: real,
    enabledPaymentMethods: seq<string>)

  const Defaults: Settings := Settings(
    "TeleTransfer",
    "support@teletransfer.com",
    "Welcome to TeleTransfer! Your smart solution for Telegram member migration.",
    true,
    "#3b82f6",
    0.01,
    100.0,
    ["credit_card", "crypto"])

  /** The three checkboxes offered. */
  const PaymentMethods: seq<string> := ["credit_card", "bank_transfer", "crypto"]

  predicate NoDuplicates(s: seq<string>) {
    forall i, j :: 0 <= i < j < |s| ==> s[i] != s[j]
  }

  function Differs(m: string): string -> bool {
    (x: string) => x != m
  }

  /** `handlePaymentMethodChange`: an enabled method is dropped, a disabled one
      appended at the end. */
  function ToggleMethod(methods: seq<string>, m: string): (r: seq<string>)
    ensures m in r <==> m !in methods
    ensures forall x :: x != m ==> (x in r <==> x in methods)
  {
    if m in methods then Filter(Differs(m), methods) else methods + [m]
  }

  /** Toggling keeps the list free of repeats. */
  lemma ToggleKeepsNoDuplicates(methods: seq<string>, m: string)
    requires NoDuplicates(methods)
    ensures NoDuplicates(ToggleMethod(methods, m))
  {
    if m in methods {
      FilterKeepsNoDuplicates(Differs(m), methods);
    }
  }

  lemma {:induction false} FilterKeepsNoDuplicates(p: string -> bool, s: seq<string>)
    requires NoDuplicates(s)
    ensures NoDuplicates(Filter(p, s))
    decreases |s|
  {
    if s != [] {
      FilterKeepsNoDuplicates(p, s[1..]);
      var rest := Filter(p, s[1..]);
      assert s[0] !in s[1..] by {
        forall k | 0 <= k < |s[1..]| ensures s[1..][k] != s[0] {
          assert s[1..][k] == s[k + 1];
        }
      }
      assert s[0] !in rest;
    }
  }

  /** Checking a box and unchecking it again restores the list exactly; unchecking
      and re-checking moves the method to the end but keeps the same methods. */
  lemma ToggleTwice(methods: seq<string>, m: string)
    requires NoDuplicates(methods)
    ensures m !in methods ==> ToggleMethod(ToggleMethod(methods, m), m) == methods
    ensures m in methods ==> multiset(ToggleMethod(ToggleMethod(methods, m), m)) == multiset(methods)
  {
    if m !in methods {
      FilterSplit(Differs(m), methods, m);
    } else {
      RemoveOne(methods, m);
    }
  }

  /** Filtering out `m` from `s + [m]`, where `s` lacks `m`, gives back `s`. */
  lemma FilterSplit(p: string -> bool, s: seq<string>, m: string)
    requires p == Differs(m) && m !in s
    ensures Filter(p, s + [m]) == s
  {
    FilterAppend(p, s, [m]);
    assert [m][1..] == [];
    assert forall i :: 0 <= i < |s| ==> p(s[i]);
  }

  /** Dropping the one occurrence of `m` from a repeat-free list and appending it
      again permutes the list. */
  lemma {:induction false} RemoveOne(s: seq<string>, m: string)
    requires NoDuplicates(s) && m in s
    ensures multiset(Filter(Differs(m), s)) + multiset{m} == multiset(s)
    decreases |s|
  {
    assert s == [s[0]] + s[1..];
    if s[0] == m {
      assert m !in s[1..] by {
        forall k | 0 <= k < |s[1..]| ensures s[1..][k] != m {
          assert s[1..][k] == s[k + 1];
        }
      }
      forall k | 0 <= k < |s[1..]| ensures Differs(m)(s[1..][k]) {
      }
    } else {
      assert NoDuplicates(s[1..]) by {
        forall i, j | 0 <= i < j < |s[1..]| ensures s[1..][i] != s[1..][j] {
          assert s[1..][i] == s[i + 1] && s[1..][j] == s[j + 1];
        }
      }
      RemoveOne(s[1..], m);
    }
  }

  /** A box shows checked exactly when its method is enabled; by default credit
      card and crypto are, bank transfer is not. */
  lemma DefaultChecks()
    ensures "credit_card" in Defaults.enabledPaymentMethods
    ensures "bank_transfer" !in Defaults.enabledPaymentMethods
    ensures "crypto" in Defaults.enabledPaymentMethods
  {
  }

  datatype Event =
    | SetPlatformName(text: string)
    | SetContactEmail(text: string)
    | SetWelcomeMessage(text: string)
    | SetDarkMode(on: bool)
    | SetPrimaryColor(text: string)
    | SetPrice(value: real)          // `Number(e.target.value)`
    | SetMinMembers(value: real)
    | ToggleMethodBox(choice: string)
    | SaveChanges

  datatype Page = Page(settings: Settings, saves: nat)

  /** One event. Only the save button counts a save, and it leaves the settings
      as they are; the method list changes only through its checkboxes. */
  function Step(p: Page, e: Event): (q: Page)
    ensures q.saves == p.saves + (if e.SaveChanges? then 1 else 0)
    ensures e.SaveChanges? ==> q.settings == p.settings
    ensures q.settings.enabledPaymentMethods != p.settings.enabledPaymentMethods ==> e.ToggleMethodBox?
  {
    var s := p.settings;
    match e
    case SetPlatformName(t) => p.(settings := s.(platformName := t))
    case SetContactEmail(t) => p.(settings := s.(contactEmail := t))
    case SetWelcomeMessage(t) => p.(settings := s.(welcomeMessage := t))
    case SetDarkMode(b) => p.(settings := s.(enableDarkMode := b))
    case SetPrimaryColor(t) => p.(settings := s.(primaryColor := t))
    case SetPrice(v) => p.(settings := s.(pricePerMember := v))
    case SetMinMembers(v) => p.(settings := s.(minMembers := v))
    case ToggleMethodBox(m) => p.(settings := s.(enabledPaymentMethods := ToggleMethod(s.enabledPaymentMethods, m)))
    case SaveChanges => p.(saves := p.saves + 1)
  }

  /** Saving persists nothing: the settings are exactly as before. */
  lemma SaveChangesNothing(p: Page)
    ensures Step(p, SaveChanges).settings == p.settings
  {
  }

  /** The method list never gains a repeat, whatever the clicks. */
  lemma StepKeepsNoDuplicates(p: Page, e: Event)
    requires NoDuplicates(p.settings.enabledPaymentMethods)
    ensures NoDuplicates(Step(p, e).settings.enabledPaymentMethods)
  {
    if e.ToggleMethodBox? {
      ToggleKeepsNoDuplicates(p.settings.enabledPaymentMethods, e.choice);
    }
  }
}

=== FILE: demo_player.dfy ===
/** The autoplaying step demo shared by the two showcase sections: while playing,
    a 100 ms interval adds 2 to the progress; a tick that finds the progress at
    100 or more resets it to 0 and moves to the next step, or, on the last step,
    stops playing and either stays there or goes back to the first step. */
module DemoPlayer {
  /** What the last step's completing tick does with the current step. */
  datatype EndMode = StayOnLast | BackToFirst

  datatype Player = Player(playing: bool, step: int, progress: int)

  /** The mounted demo, and the state the restart button returns to. */
  const Stopped: Player := Player(false, 0, 0)

  /** Ticks from 0 to 100 per step, and the completing tick after them. */
  const TicksPerStep: nat := 51

  /** One interval tick of a demo with `steps` steps. */
  function Tick(p: Player, steps: nat, mode: EndMode): (r: Player)
    ensures p.progress < 100 ==> r == p.(progress := p.progress + 2)
    ensures p.progress >= 100 ==> r.progress == 0
    ensures p.progress >= 100 && p.step < steps - 1 ==> r.step == p.step + 1 && r.playing == p.playing
    ensures p.progress >= 100 && p.step >= steps - 1 ==>
      !r.playing && r.step == (if mode == StayOnLast then p.step else 0)
  {
    if p.progress >= 100 then
      if p.step >= steps - 1 then p.(playing := false, step := if mode == StayOnLast then p.step else 0, progress := 0)
      else p.(step := p.step + 1, progress := 0)
    else p.(progress := p.progress + 2)
  }

  /** `k` consecutive ticks. */
  function Ticks(p: Player, steps: nat, mode: EndMode, k: nat): Player
    decreases k
  {
    if k == 0 then p else Ticks(Tick(p, steps, mode), steps, mode, k - 1)
  }

  /** The play/pause button. */
  function TogglePlay(p: Player): (r: Player)
    ensures r.playing != p.playing && r.(playing := p.playing) == p
  {
    p.(playing := !p.playing)
  }

  /** A valid demo state: one of the steps, progress an even number in 0..100. */
  predicate Inv(p: Player, steps: nat) {
    0 <= p.step < steps && 0 <= p.progress <= 100 && p.progress % 2 == 0
  }

  lemma TickInv(p: Player, steps: nat, mode: EndMode)
    requires Inv(p, steps)
    ensures Inv(Tick(p, steps, mode), steps)
  {
  }

  lemma {:induction false} TicksAdd(p: Player, steps: nat, mode: EndMode, a: nat, b: nat)
    ensures Ticks(p, steps, mode, a + b) == Ticks(Ticks(p, steps, mode, a), steps, mode, b)
    decreases a
  {
    if a > 0 {
      TicksAdd(Tick(p, steps, mode), steps, mode, a - 1, b);
    }
  }

  /** Below 100 each tick adds 2, so `k` ticks add `2k` and change nothing else. */
  lemma {:induction false} Climb(p: Player, steps: nat, mode: EndMode, k: nat)
    requires p.progress + 2 * k <= 100
    ensures Ticks(p, steps, mode, k) == p.(progress := p.progress + 2 * k)
    decreases k
  {
    if k > 0 {
      Climb(Tick(p, steps, mode), steps, mode, k - 1);
    }
  }

  /** A step that starts at 0 takes 51 ticks: 50 to reach 100, one to move on. */
  lemma OneStage(p: Player, steps: nat, mode: EndMode)
    requires p.progress == 0
    ensures var r := Ticks(p, steps, mode, TicksPerStep);
      r.progress == 0
      && (p.step < steps - 1 ==> r == p.(step := p.step + 1))
      && (p.step >= steps - 1 ==> r == p.(playing := false, step := if mode == StayOnLast then p.step else 0))
  {
    TicksAdd(p, steps, mode, 50, 1);
    Climb(p, steps, mode, 50);
  }

  /** Played from the start of step `s` without interruption, the demo stops after
      51 ticks per remaining step, on the step the end mode names. */
  lemma {:induction false} PlayToEnd(s: int, steps: nat, mode: EndMode)
    requires 0 <= s < steps
    ensures Ticks(Player(true, s, 0), steps, mode, TicksPerStep * (steps - s))
      == Player(false, if mode == StayOnLast then steps - 1 else 0, 0)
    decreases steps - s
  {
    var p := Player(true, s, 0);
    OneStage(p, steps, mode);
    if s < steps - 1 {
      TicksAdd(p, steps, mode, TicksPerStep, TicksPerStep * (steps - s - 1));
      PlayToEnd(s + 1, steps, mode);
    }
  }
}

=== FILE: faq.dfy ===
/** The help centre (`InteractiveFAQ`): six questions filtered by a search term
    and a category, listed most popular first, each expandable and each with a
    thumbs-up / thumbs-down vote that a second click withdraws. */
module Faq {
  import opened Common

  datatype Entry = Entry(id: int, category: string, question: string, answer: string, popularity: int)

  /** The English catalogue, in declaration order. */
  const EnglishFaqs: seq<Entry> := [Faq1, Faq2, Faq3, Faq4, Faq5, Faq6]

  const Faq1: Entry :=
    Entry(1, "security", "Is the tool safe to use?",
      "Yes, the tool is completely safe. We use military-grade encryption and don't ask for Telegram login credentials. All operations are performed through official Telegram APIs with multi-layer protection.",
      95)
  const Faq2: Entry :=
    Entry(2, "process", "How long does member transfer take?",
      "It depends on the number of members to be transferred. Usually takes 30 minutes to 3 hours for large groups. AI optimizes speed while maintaining security.",
      88)
  const Faq3: Entry :=
    Entry(3, "process", "What is the success rate?",
      "We achieve a 99.8% success rate in transfers. This high rate comes from using advanced AI that analyzes and filters only real members.",
      92)
  const Faq4: Entry :=
    Entry(4, "technical", "Can I track the transfer process?",
      "Yes, you will receive a unique tracking number to monitor transfer progress in real-time with live updates and detailed reports.",
      76)
  const Faq5: Entry :=
    Entry(5, "security", "Do you keep my data?",
      "No, we don't keep any personal data. All information is automatically deleted after process completion. We are committed to the highest privacy standards.",
      84)
  const Faq6: Entry :=
    Entry(6, "technical", "Is technical support available?",
      "Yes, technical support team is available 24/7 via WhatsApp and email. We have specialized Telegram experts to help you anytime.",
      79)

  /** The category buttons; `all` shows every category. */
  const Categories: seq<string> := ["all", "security", "process", "technical"]

  // ---------------------------------------------------------------------------
  // Filtering
  // ---------------------------------------------------------------------------

  /** The term occurs, ignoring case, in the question or in the answer. */
  predicate MatchesSearch(e: Entry, term: string) {
    Includes(Lower(e.question), Lower(term)) || Includes(Lower(e.answer), Lower(term))
  }

  predicate MatchesCategory(e: Entry, category: string) {
    category == "all" || e.category == category
  }

  function Matcher(term: string, category: string): Entry -> bool {
    (e: Entry) => MatchesSearch(e, term) && MatchesCategory(e, category)
  }

  /** `filteredFAQs`: the matching entries, most popular first, each as often as
      it occurs in the catalogue. */
  function Visible(faqs: seq<Entry>, term: string, category: string): (r: seq<Entry>)
    ensures |r| <= |faqs| && SortedDesc(r)
    ensures multiset(r) == multiset(Filter(Matcher(term, category), faqs))
  {
    var f := Filter(Matcher(term, category), faqs);
    SortPerm(f);
    SortSorted(f);
    SortByPopularity(f)
  }

  // ---------------------------------------------------------------------------
  // The stable sort `(a, b) => b.popularity - a.popularity`
  // ---------------------------------------------------------------------------

  /** Puts `x` before the first entry that is not more popular, so that it stays
      ahead of the equally popular entries that followed it. */
  function Insert(x: Entry, s: seq<Entry>): (r: seq<Entry>)
    ensures |r| == |s| + 1
    decreases |s|
  {
    if s == [] || s[0].popularity <= x.popularity then [x] + s
    else [s[0]] + Insert(x, s[1..])
  }

  function SortByPopularity(s: seq<Entry>): (r: seq<Entry>)
    ensures |r| == |s|
    decreases |s|
  {
    if s == [] then [] else Insert(s[0], SortByPopularity(s[1..]))
  }

  predicate SortedDesc(s: seq<Entry>) {
    forall i, j :: 0 <= i < j < |s| ==> s[i].popularity >= s[j].popularity
  }

  /** The entries of `s` with popularity `p`, in order. */
  function WithPopularity(s: seq<Entry>, p: int): seq<Entry>
    decreases |s|
  {
    if s == [] then []
    else (if s[0].popularity == p then [s[0]] else []) + WithPopularity(s[1..], p)
  }

  lemma {:induction false} InsertPerm(x: Entry, s: seq<Entry>)
    ensures multiset(Insert(x, s)) == multiset(s) + multiset{x}
    decreases |s|
  {
    if s != [] && s[0].popularity > x.popularity {
      InsertPerm(x, s[1..]);
      assert s == [s[0]] + s[1..];
    }
  }

  lemma {:induction false} InsertSorted(x: Entry, s: seq<Entry>)
    requires SortedDesc(s)
    ensures SortedDesc(Insert(x, s))
    decreases |s|
  {
    if s != [] && s[0].popularity > x.popularity {
      var rest := Insert(x, s[1..]);
      InsertSorted(x, s[1..]);
      InsertBounded(x, s[1..], s[0].popularity);
      var r := [s[0]] + rest;
      forall i, j | 0 <= i < j < |r| ensures r[i].popularity >= r[j].popularity {
        if i > 0 { assert r[i] == rest[i - 1] && r[j] == rest[j - 1]; }
        else { assert r[j] == rest[j - 1]; }
      }
    }
  }

  /** Inserting keeps every popularity under a common bound. */
  lemma {:induction false} InsertBounded(x: Entry, s: seq<Entry>, b: int)
    requires x.popularity <= b
    requires forall k :: 0 <= k < |s| ==> s[k].popularity <= b
    ensures forall k :: 0 <= k < |Insert(x, s)| ==> Insert(x, s)[k].popularity <= b
    decreases |s|
  {
    if s != [] && s[0].popularity > x.popularity {
      InsertBounded(x, s[1..], b);
    }
  }

  lemma {:induction false} InsertStable(x: Entry, s: seq<Entry>, p: int)
    ensures WithPopularity(Insert(x, s), p) == (if x.popularity == p then [x] else []) + WithPopularity(s, p)
    decreases |s|
  {
    if s == [] || s[0].popularity <= x.popularity {
      WithPopularityCons(x, s, p);
    } else {
      var rest := Insert(x, s[1..]);
      InsertStable(x, s[1..], p);
      WithPopularityCons(s[0], rest, p);
      WithPopularityCons(s[0], s[1..], p);
      assert s == [s[0]] + s[1..];
      // `s[0]` is strictly more popular than `x`, so at most one of them has popularity `p`
      if s[0].popularity == p {
        assert x.popularity != p;
      }
    }
  }

  lemma WithPopularityCons(y: Entry, t: seq<Entry>, p: int)
    ensures WithPopularity([y] + t, p) == (if y.popularity == p then [y] else []) + WithPopularity(t, p)
  {
    assert ([y] + t)[1..] == t;
  }

  /** The sort is a permutation, orders by popularity, and keeps entries of equal
      popularity in their original order. */
  lemma SortCorrect(s: seq<Entry>, p: int)
    ensures multiset(SortByPopularity(s)) == multiset(s)
    ensures SortedDesc(SortByPopularity(s))
    ensures WithPopularity(SortByPopularity(s), p) == WithPopularity(s, p)
  {
    SortPerm(s);
    SortSorted(s);
    SortStable(s, p);
  }

  lemma {:induction false} SortPerm(s: seq<Entry>)
    ensures multiset(SortByPopularity(s)) == multiset(s)
    decreases |s|
  {
    if s != [] {
      SortPerm(s[1..]);
      InsertPerm(s[0], SortByPopularity(s[1..]));
      assert s == [s[0]] + s[1..];
    }
  }

  lemma {:induction false} SortSorted(s: seq<Entry>)
    ensures SortedDesc(SortByPopularity(s))
    decreases |s|
  {
    if s != [] {
      SortSorted(s[1..]);
      InsertSorted(s[0], SortByPopularity(s[1..]));
    }
  }

  lemma {:induction false} SortStable(s: seq<Entry>, p: int)
    ensures WithPopularity(SortByPopularity(s), p) == WithPopularity(s, p)
    decreases |s|
  {
    if s != [] {
      SortStable(s[1..], p);
      InsertStable(s[0], SortByPopularity(s[1..]), p);
    }
  }

  /** The list shows exactly the entries matching both the search and the category,
      each once per occurrence in the catalogue, most popular first, ties in
      catalogue order. */
  lemma VisibleCorrect(faqs: seq<Entry>, term: string, category: string, p: int)
    ensures var v := Visible(faqs, term, category);
      (forall e :: e in v <==> e in faqs && MatchesSearch(e, term) && MatchesCategory(e, category))
      && SortedDesc(v)
      && multiset(v) == multiset(Filter(Matcher(term, category), faqs))
      && WithPopularity(v, p) == WithPopularity(Filter(Matcher(term, category), faqs), p)
  {
    var f := Filter(Matcher(term, category), faqs);
    SortCorrect(f, p);
    forall e
      ensures e in Visible(faqs, term, category) <==> e in f
    {
      assert e in Visible(faqs, term, category) <==> e in multiset(Visible(faqs, term, category));
      assert e in f <==> e in multiset(f);
    }
  }

  /** An empty search matches every entry, so only the category filters. */
  lemma EmptySearchMatchesAll(e: Entry)
    ensures MatchesSearch(e, "")
  {
    IncludesEmpty(Lower(e.question));
  }

  /** With no search and the `all` category every entry is listed, by popularity. */
  lemma EmptySearchListsAll(faqs: seq<Entry>)
    ensures Visible(faqs, "", "all") == SortByPopularity(faqs)
  {
    forall e | e in faqs
      ensures Matcher("", "all")(e)
    {
      EmptySearchMatchesAll(e);
    }
  }

  /** Six entries with the catalogue's popularities are listed in the order 1, 3, 2, 5, 6, 4. */
  lemma SortCatalogueShape(s: seq<Entry>)
    requires |s| == 6
    requires s[0].popularity == 95 && s[1].popularity == 88 && s[2].popularity == 92
    requires s[3].popularity == 76 && s[4].popularity == 84 && s[5].popularity == 79
    ensures SortByPopularity(s) == [s[0], s[2], s[1], s[4], s[5], s[3]]
  {
    var e1, e2, e3, e4, e5, e6 := s[0], s[1], s[2], s[3], s[4], s[5];
    assert s == [e1] + [e2, e3, e4, e5, e6];
    SortFive(e2, e3, e4, e5, e6);
    SortCons(e1, [e2, e3, e4, e5, e6]);
    InsertFront(e1, [e3, e2, e5, e6, e4]);
  }

  /** Sorting a non-empty sequence inserts its head into the sorted tail. */
  lemma SortCons(x: Entry, s: seq<Entry>)
    ensures SortByPopularity([x] + s) == Insert(x, SortByPopularity(s))
  {
    assert ([x] + s)[1..] == s;
  }

  /** An entry at least as popular as the head goes in front. */
  lemma InsertFront(x: Entry, s: seq<Entry>)
    requires s == [] || s[0].popularity <= x.popularity
    ensures Insert(x, s) == [x] + s
  {
  }

  /** An entry less popular than the head goes behind it. */
  lemma InsertBehind(x: Entry, s: seq<Entry>)
    requires s != [] && s[0].popularity > x.popularity
    ensures Insert(x, s) == [s[0]] + Insert(x, s[1..])
  {
  }

  lemma SortTwo(b: Entry, c: Entry)
    requires c.popularity <= b.popularity
    ensures SortByPopularity([b, c]) == [b, c]
  {
    SortCons(c, []);
    InsertFront(c, []);
    SortCons(b, [c]);
    InsertFront(b, [c]);
  }

  lemma SortThree(a: Entry, b: Entry, c: Entry)
    requires a.popularity < c.popularity <= b.popularity
    ensures SortByPopularity([a, b, c]) == [b, c, a]
  {
    SortTwo(b, c);
    SortCons(a, [b, c]);
    InsertBehind(a, [b, c]);
    assert [b, c][1..] == [c];
    InsertBehind(a, [c]);
    assert [c][1..] == [];
    InsertFront(a, []);
  }

  lemma SortFour(d: Entry, a: Entry, b: Entry, c: Entry)
    requires a.popularity < c.popularity <= b.popularity <= d.popularity
    ensures SortByPopularity([d, a, b, c]) == [d, b, c, a]
  {
    SortThree(a, b, c);
    SortCons(d, [a, b, c]);
    InsertFront(d, [b, c, a]);
  }

  lemma SortFive(e: Entry, d: Entry, a: Entry, b: Entry, c: Entry)
    requires a.popularity < c.popularity <= b.popularity <= e.popularity < d.popularity
    ensures SortByPopularity([e, d, a, b, c]) == [d, e, b, c, a]
  {
    SortFour(d, a, b, c);
    SortCons(e, [d, a, b, c]);
    InsertBehind(e, [d, b, c, a]);
    assert [d, b, c, a][1..] == [b, c, a];
    InsertFront(e, [b, c, a]);
  }

  /** With no search and the `all` category (see `EmptySearchListsAll`) the
      English catalogue is listed as
      ids 1, 3, 2, 5, 6, 4 (popularity 95, 92, 88, 84, 79, 76). */
  lemma DefaultListing()
    ensures var v := SortByPopularity(EnglishFaqs);
      |v| == 6 && v[0].id == 1 && v[1].id == 3 && v[2].id == 2 && v[3].id == 5 && v[4].id == 6 && v[5].id == 4
  {
    CatalogueFacts();
    SortCatalogueShape(EnglishFaqs);
  }

  /** The ids and popularities of the English catalogue. */
  lemma CatalogueFacts()
    ensures |EnglishFaqs| == 6
    ensures EnglishFaqs[0].id == 1 && EnglishFaqs[0].popularity == 95
    ensures EnglishFaqs[1].id == 2 && EnglishFaqs[1].popularity == 88
    ensures EnglishFaqs[2].id == 3 && EnglishFaqs[2].popularity == 92
    ensures EnglishFaqs[3].id == 4 && EnglishFaqs[3].popularity == 76
    ensures EnglishFaqs[4].id == 5 && EnglishFaqs[4].popularity == 84
    ensures EnglishFaqs[5].id == 6 && EnglishFaqs[5].popularity == 79
  {
  }

  // ---------------------------------------------------------------------------
  // Expanding and voting
  // ---------------------------------------------------------------------------

  /** Clicking a question: it opens, closing any other, or closes when it was open. */
  function ToggleExpanded(expanded: Option<int>, id: int): (r: Option<int>)
    ensures r == Some(id) <==> expanded != Some(id)
    ensures r.Some? ==> r.value == id
  {
    if expanded == Some(id) then None else Some(id)
  }

  lemma ToggleTwice(expanded: Option<int>, id: int)
    ensures ToggleExpanded(ToggleExpanded(expanded, id), id) == (if expanded == Some(id) then Some(id) else None)
  {
  }

  datatype Vote = Up | Down

  /** `helpfulVotes`: an entry is missing, `null`, or a vote. */
  type Votes = map<int, Option<Vote>>

  function CurrentVote(votes: Votes, id: int): Option<Vote> {
    if id in votes then votes[id] else None
  }

  /** `handleVote`: the same vote again withdraws it; otherwise the vote replaces
      what was there. */
  function HandleVote(votes: Votes, id: int, v: Vote): (r: Votes)
    ensures CurrentVote(r, id) == (if CurrentVote(votes, id) == Some(v) then None else Some(v))
    ensures forall k :: k != id ==> CurrentVote(r, k) == CurrentVote(votes, k)
  {
    votes[id := if id in votes && votes[id] == Some(v) then None else Some(v)]
  }

  /** Voting the same way twice leaves a vote only if that vote was already there. */
  lemma VoteTwice(votes: Votes, id: int, v: Vote)
    ensures CurrentVote(HandleVote(HandleVote(votes, id, v), id, v), id)
      == (if CurrentVote(votes, id) == Some(v) then Some(v) else None)
  {
  }

  /** A thumbs-down after a thumbs-up switches the vote rather than withdrawing it. */
  lemma OppositeVoteSwitches(votes: Votes, id: int)
    requires CurrentVote(votes, id) == Some(Up)
    ensures CurrentVote(HandleVote(votes, id, Down), id) == Some(Down)
  {
  }
}

=== FILE: interactive_showcase.dfy ===
/** The four-step demo section (`InteractiveShowcase`): play/pause, restart, the
    step's statistics and the overview cards. On the last step the demo stops
    and stays there. */
module InteractiveShowcase {
  import opened DemoPlayer

  datatype StepStats = StepStats(analyzed: nat, realMembers: nat, transferred: nat, success: real)

  /** The statistics shown for each of the four steps. */
  const Stats: seq<StepStats> := [
    StepStats(5000, 0, 0, 0.0),
    StepStats(5000, 4200, 0, 0.0),
    StepStats(5000, 4200, 4150, 98.8),
    StepStats(5000, 4200, 4150, 99.8)
  ]

  const StepCount: nat := 4
  const Mode: EndMode := StayOnLast

  datatype Event = PlayButton | RestartButton | IntervalTick

  /** One event. A valid demo state stays valid; the shown step changes only by
      restarting or by the tick that completes a step. */
  function Step(p: Player, e: Event): (q: Player)
    ensures Inv(p, StepCount) ==> Inv(q, StepCount)
    ensures q.step != p.step ==> e.RestartButton? || (e.IntervalTick? && p.progress >= 100)
  {
    match e
    case PlayButton => TogglePlay(p)
    case RestartButton => Stopped
    case IntervalTick => Tick(p, StepCount, Mode)
  }

  /** Both buttons are always there; the interval exists only while playing. */
  predicate Offered(p: Player, e: Event) {
    e.IntervalTick? ==> p.playing
  }

  predicate OfferedTrace(p: Player, events: seq<Event>)
    decreases |events|
  {
    events == [] || (Offered(p, events[0]) && OfferedTrace(Step(p, events[0]), events[1..]))
  }

  function Run(p: Player, events: seq<Event>): Player
    decreases |events|
  {
    if events == [] then p else Run(Step(p, events[0]), events[1..])
  }

  /** Whatever is clicked and however long it plays, the demo shows one of its four
      steps with an even progress between 0 and 100. */
  lemma {:induction false} RunInv(p: Player, events: seq<Event>)
    requires Inv(p, StepCount)
    ensures Inv(Run(p, events), StepCount)
    decreases |events|
  {
    if events != [] {
      if events[0].IntervalTick? {
        TickInv(p, StepCount, Mode);
      }
      RunInv(Step(p, events[0]), events[1..]);
    }
  }

  /** `currentStats`: the current step's figures, falling back to the first step's. */
  function CurrentStats(p: Player): (s: StepStats)
    ensures 0 <= p.step < |Stats| ==> s == Stats[p.step]
    ensures !(0 <= p.step < |Stats|) ==> s == Stats[0]
  {
    if 0 <= p.step < |Stats| then Stats[p.step] else Stats[0]
  }

  /** The figures only grow from step to step. */
  lemma StatsGrow(i: int, j: int)
    requires 0 <= i <= j < |Stats|
    ensures Stats[i].analyzed <= Stats[j].analyzed
    ensures Stats[i].realMembers <= Stats[j].realMembers
    ensures Stats[i].transferred <= Stats[j].transferred
    ensures Stats[i].success <= Stats[j].success
  {
  }

  datatype Card = Active | Done | Upcoming

  /** The look of overview card `index`: the current step is active, earlier ones
      are done (with a check mark), later ones upcoming. */
  function CardState(index: int, current: int): (c: Card)
    ensures c == Active <==> index == current
    ensures c == Done <==> index < current
  {
    if index == current then Active else if index < current then Done else Upcoming
  }

  /** Played from the start, the demo stops after 204 ticks on its last step. */
  lemma PlaysOnceThenStops()
    ensures Ticks(Player(true, 0, 0), StepCount, Mode, 204) == Player(false, 3, 0)
  {
    PlayToEnd(0, StepCount, Mode);
  }

  /** Once it has stopped, pressing play again replays only the last step; the
      restart button is the only way back to the first. */
  lemma ReplayShowsLastStepOnly()
    ensures var p := Step(Player(false, 3, 0), PlayButton);
      p == Player(true, 3, 0) && Ticks(p, StepCount, Mode, TicksPerStep) == Player(false, 3, 0)
    ensures Step(Player(false, 3, 0), RestartButton).step == 0
  {
    OneStage(Player(true, 3, 0), StepCount, Mode);
  }
}

=== FILE: newsletter.dfy ===
/** The newsletter form (`NewsletterSignup`): the address is checked against
    `^[^\s@]+@[^\s@]+\.[^\s@]+$`, then a 1.5-second simulated request subscribes
    it and clears the field. Toasts are recorded in order. */
module Newsletter {
  import opened Common

  /** A character of the class `[^\s@]`. */
  predicate IsTokenChar(c: char) {
    !IsJsSpace(c) && c != '@'
  }

  predicate AllTokenChars(s: string) {
    forall i :: 0 <= i < |s| ==> IsTokenChar(s[i])
  }

  /** A match of `[^\s@]+`. */
  predicate IsToken(s: string) {
    |s| > 0 && AllTokenChars(s)
  }

  /** The strings the pattern describes: three tokens joined by `@` and `.`. */
  ghost predicate EmailShape(s: string) {
    exists a: string, b: string, c: string :: IsToken(a) && IsToken(b) && IsToken(c) && s == a + "@" + b + "." + c
  }

  /** The position of the first `c` in `s`. */
  function IndexOf(s: string, c: char): (r: Option<nat>)
    ensures r.Some? ==> r.value < |s| && s[r.value] == c && forall k :: 0 <= k < r.value ==> s[k] != c
    ensures r.None? ==> forall k :: 0 <= k < |s| ==> s[k] != c
    decreases |s|
  {
    if s == [] then None
    else if s[0] == c then Some(0)
    else
      var r := IndexOf(s[1..], c);
      if r.Some? then Some(r.value + 1) else None
  }

  /** A `.` with at least one character on each side. */
  predicate HasInnerDot(d: string) {
    exists j :: 0 < j < |d| - 1 && d[j] == '.'
  }

  /** `validateEmail`: one `@` after a non-empty local part, and a domain with no
      space or further `@` that has an inner dot. An accepted address has at
      least five characters and neither starts nor ends with a space or `@`. */
  function ValidateEmail(s: string): (ok: bool)
    ensures ok ==> 5 <= |s| && IsTokenChar(s[0]) && IsTokenChar(s[|s| - 1])
  {
    var at := IndexOf(s, '@');
    if at.Some? && IsToken(s[..at.value]) && AllTokenChars(s[at.value + 1..]) && HasInnerDot(s[at.value + 1..]) then
      var i := at.value;
      var d := s[i + 1..];
      assert s[0] == s[..i][0];
      assert s[|s| - 1] == d[|d| - 1];
      true
    else false
  }

  /** The check accepts exactly the strings of the pattern. */
  lemma ValidateEmailIff(s: string)
    ensures ValidateEmail(s) <==> EmailShape(s)
  {
    if ValidateEmail(s) {
      var i := IndexOf(s, '@').value;
      var d := s[i + 1..];
      var j :| 0 < j < |d| - 1 && d[j] == '.';
      var a, b, c := s[..i], d[..j], d[j + 1..];
      assert d == b + "." + c;
      assert s == a + "@" + d;
      assert s == a + "@" + b + "." + c;
      assert IsToken(a) && IsToken(b) && IsToken(c);
    }
    if EmailShape(s) {
      var a: string, b: string, c: string :| IsToken(a) && IsToken(b) && IsToken(c) && s == a + "@" + b + "." + c;
      ShapeAccepted(a, b, c);
    }
  }

  lemma ShapeAccepted(a: string, b: string, c: string)
    requires IsToken(a) && IsToken(b) && IsToken(c)
    ensures ValidateEmail(a + "@" + b + "." + c)
  {
    var d := b + "." + c;
    assert a + "@" + b + "." + c == a + "@" + d;
    FirstAt(a, d);
    DomainChars(b, c);
    assert d[|b|] == '.';
  }

  /** In `a@d` with no `@` in `a`, the first `@` ends `a`. */
  lemma FirstAt(a: string, d: string)
    requires AllTokenChars(a)
    ensures var s := a + "@" + d;
      IndexOf(s, '@') == Some(|a|) && s[..|a|] == a && s[|a| + 1..] == d
  {
    var s := a + "@" + d;
    assert forall k :: 0 <= k < |a| ==> s[k] == a[k] && s[k] != '@';
    assert s[|a|] == '@';
  }

  /** Two tokens joined by a dot contain no space and no `@`. */
  lemma DomainChars(b: string, c: string)
    requires AllTokenChars(b) && AllTokenChars(c)
    ensures AllTokenChars(b + "." + c)
  {
    var d := b + "." + c;
    forall k | 0 <= k < |d|
      ensures IsTokenChar(d[k])
    {
      if k < |b| { assert d[k] == b[k]; }
      else if k > |b| { assert d[k] == c[k - |b| - 1]; }
    }
  }

  /** A whitespace anywhere, a second `@`, or no dot inside the domain fails the check. */
  lemma RejectionReasons(s: string, i: nat)
    requires i < |s|
    ensures IsJsSpace(s[i]) ==> !ValidateEmail(s)
    ensures ValidateEmail(s) ==> exists k :: 0 <= k < |s| && s[k] == '@'
    ensures ValidateEmail(s) && s[i] == '@' ==> forall k :: 0 <= k < |s| && k != i ==> s[k] != '@'
  {
    var at := IndexOf(s, '@');
    if at.Some? {
      var p := at.value;
      if i < p {
        assert s[i] == s[..p][i];
      } else if i > p {
        assert s[i] == s[p + 1..][i - p - 1];
      }
      if ValidateEmail(s) {
        forall k | 0 <= k < |s| && k != p
          ensures s[k] != '@'
        {
          if k > p { assert s[k] == s[p + 1..][k - p - 1]; }
        }
      }
    }
  }

  // ---------------------------------------------------------------------------
  // The form
  // ---------------------------------------------------------------------------

  datatype Toast = InvalidEmail | Subscribed

  datatype Form = Form(
    email: string,
    loading: bool,
    subscribed: bool,
    accepted: seq<string>,   // addresses sent to the simulated request
    toasts: seq<Toast>)

  const Initial: Form := Form("", false, false, [], [])

  datatype Event = Type(text: string) | Submit | RequestSettles

  /** One event. Only a valid address is ever sent, toasts are only appended,
      and the form becomes subscribed only when the request settles. */
  function Step(f: Form, e: Event): (g: Form)
    ensures g.accepted == f.accepted || (e.Submit? && ValidateEmail(f.email) && g.accepted == f.accepted + [f.email])
    ensures |f.toasts| <= |g.toasts| <= |f.toasts| + 1 && g.toasts[..|f.toasts|] == f.toasts
    ensures g.subscribed <==> f.subscribed || e.RequestSettles?
  {
    match e
    case Type(text) => f.(email := text)
    case Submit =>
      if !ValidateEmail(f.email) then f.(toasts := f.toasts + [InvalidEmail])
      else f.(loading := true, accepted := f.accepted + [f.email])
    case RequestSettles => f.(subscribed := true, email := "", loading := false, toasts := f.toasts + [Subscribed])
  }

  /** The form shows until subscribed; its input and button are disabled while
      loading. The pending request settles on its own. */
  predicate Offered(f: Form, e: Event) {
    match e
    case RequestSettles => f.loading
    case _ => !f.subscribed && !f.loading
  }

  predicate OfferedTrace(f: Form, events: seq<Event>)
    decreases |events|
  {
    events == [] || (Offered(f, events[0]) && OfferedTrace(Step(f, events[0]), events[1..]))
  }

  function Run(f: Form, events: seq<Event>): Form
    decreases |events|
  {
    if events == [] then f else Run(Step(f, events[0]), events[1..])
  }

  /** An invalid address only raises a toast; a valid one starts the request. */
  lemma SubmitOutcome(f: Form)
    ensures !ValidateEmail(f.email) ==> Step(f, Submit) == f.(toasts := f.toasts + [InvalidEmail])
    ensures ValidateEmail(f.email) ==> Step(f, Submit).loading && Step(f, Submit).accepted == f.accepted + [f.email]
  {
  }

  /** Only valid addresses are ever sent, the field is empty once subscribed, and
      being subscribed means some address was sent and a success toast shown. */
  predicate Inv(f: Form) {
    && (forall k :: 0 <= k < |f.accepted| ==> ValidateEmail(f.accepted[k]))
    && (f.subscribed ==> f.email == [] && |f.accepted| > 0 && Subscribed in f.toasts)
    && (f.loading ==> |f.accepted| > 0)
  }

  lemma StepInv(f: Form, e: Event)
    requires Inv(f) && Offered(f, e)
    ensures Inv(Step(f, e))
  {
    if e == Submit && ValidateEmail(f.email) {
      var g := Step(f, e);
      assert forall k :: 0 <= k < |f.accepted| ==> g.accepted[k] == f.accepted[k];
    }
  }

  lemma {:induction false} RunInv(f: Form, events: seq<Event>)
    requires Inv(f) && OfferedTrace(f, events)
    ensures Inv(Run(f, events))
    decreases |events|
  {
    if events != [] {
      StepInv(f, events[0]);
      RunInv(Step(f, events[0]), events[1..]);
    }
  }
}

=== FILE: notifications.dfy ===
/** The notification stack (`NotificationSystem`). Notifications are appended
    with a random id and closed by their X button. Every time the list changes,
    a removal timer is started for each notification that has a positive
    duration. Those timers are never cancelled (the cleanup returned inside
    `forEach` is discarded), so pending timers accumulate in `timers`. */
module Notifications {
  import opened Common

  datatype Kind = Info | Success | Warning | Error

  /** `duration` in milliseconds; missing or `0` means sticky. */
  datatype Note = Note(id: string, kind: Kind, message: string, duration: Option<int>)

  datatype Center = Center(notes: seq<Note>, timers: seq<string>)

  const Initial: Center := Center([], [])

  /** `notification.duration && notification.duration > 0`. */
  predicate Timed(n: Note) {
    n.duration.Some? && n.duration.value > 0
  }

  /** The ids the effect schedules for removal after a change, one per timed note. */
  function Schedule(notes: seq<Note>): (r: seq<string>)
    ensures forall id :: id in r <==> exists k :: 0 <= k < |notes| && Timed(notes[k]) && notes[k].id == id
    decreases |notes|
  {
    if notes == [] then []
    else
      var rest := Schedule(notes[1..]);
      assert forall k :: 1 <= k < |notes| ==> notes[k] == notes[1..][k - 1];
      (if Timed(notes[0]) then [notes[0].id] else []) + rest
  }

  function DropId(id: string): Note -> bool {
    (n: Note) => n.id != id
  }

  /** A new list of notes re-runs the effect, which schedules a timer per timed note. */
  function Update(c: Center, notes: seq<Note>): (d: Center)
    ensures d.notes == notes
    ensures |d.timers| >= |c.timers| && d.timers[..|c.timers|] == c.timers
    ensures Armed(d)
  {
    var d := Center(notes, c.timers + Schedule(notes));
    assert d.timers[..|c.timers|] == c.timers;
    forall n | n in notes && Timed(n)
      ensures n.id in d.timers
    {
      var k :| 0 <= k < |notes| && notes[k] == n;
      assert n.id in Schedule(notes);
    }
    d
  }

  datatype Event =
    | Add(kind: Kind, message: string, duration: Option<int>, id: string)   // `id` is the random one
    | Close(id: string)                                                   // the X button
    | Expire(k: nat)                                                      // the k-th pending timer fires

  /** One event. Only `Add` brings a note, the one it describes; a closed or
      expired note's id is gone from the list; every timed note stays armed. */
  function Step(c: Center, e: Event): (d: Center)
    ensures forall n :: n in d.notes ==> n in c.notes || (e.Add? && n == Note(e.id, e.kind, e.message, e.duration))
    ensures e.Close? ==> forall n :: n in d.notes ==> n.id != e.id
    ensures Armed(c) || !e.Expire? ==> Armed(d)
  {
    match e
    case Add(kind, message, duration, id) => Update(c, c.notes + [Note(id, kind, message, duration)])
    case Close(id) => Update(c, Filter(DropId(id), c.notes))
    case Expire(k) =>
      if k < |c.timers| then
        var id := c.timers[k];
        var rest := c.timers[..k] + c.timers[k + 1..];
        Update(Center(c.notes, rest), Filter(DropId(id), c.notes))
      else c
  }

  function Run(c: Center, events: seq<Event>): Center
    decreases |events|
  {
    if events == [] then c else Run(Step(c, events[0]), events[1..])
  }

  /** Every timed note on screen has a timer waiting to remove it. */
  predicate Armed(c: Center) {
    forall n :: n in c.notes && Timed(n) ==> n.id in c.timers
  }

  lemma {:induction false} RunArmed(c: Center, events: seq<Event>)
    requires Armed(c)
    ensures Armed(Run(c, events))
    decreases |events|
  {
    if events != [] {
      RunArmed(Step(c, events[0]), events[1..]);
    }
  }

  /** A sticky note is never scheduled while its id is not shared with a timed note. */
  lemma StickyNotScheduled(notes: seq<Note>, n: Note)
    requires n in notes && !Timed(n)
    requires forall m :: m in notes && m.id == n.id ==> m == n
    ensures n.id !in Schedule(notes)
  {
  }

  /** An expiring timer removes exactly the notes with its id and keeps the rest in order. */
  lemma ExpireRemoves(c: Center, k: nat)
    requires k < |c.timers|
    ensures var d := Step(c, Expire(k));
      (forall n :: n in d.notes <==> n in c.notes && n.id != c.timers[k]) && IsSubseq(d.notes, c.notes)
  {
  }

  /** A closed note disappears and nothing else does; the rest keep their order,
      and closing an id no note carries changes no note. */
  lemma CloseRemoves(c: Center, id: string)
    ensures forall n :: n in Step(c, Close(id)).notes <==> n in c.notes && n.id != id
    ensures IsSubseq(Step(c, Close(id)).notes, c.notes)
    ensures (forall k :: 0 <= k < |c.notes| ==> c.notes[k].id != id) ==> Step(c, Close(id)).notes == c.notes
  {
  }

  /** Adding puts the one new note last with the given fields and leaves the
      earlier ones as they were. */
  lemma AddAppends(c: Center, kind: Kind, message: string, duration: Option<int>, id: string)
    ensures var d := Step(c, Add(kind, message, duration, id));
      |d.notes| == |c.notes| + 1 && d.notes[..|c.notes|] == c.notes
      && d.notes[|c.notes|] == Note(id, kind, message, duration)
    ensures Timed(Note(id, kind, message, duration)) ==> id in Step(c, Add(kind, message, duration, id)).timers
  {
    var n := Note(id, kind, message, duration);
    var notes := c.notes + [n];
    if Timed(n) {
      assert Timed(notes[|c.notes|]) && notes[|c.notes|].id == id;
    }
  }

  /** The four demo notifications: info for 5 s, success for 7 s, a sticky payment
      warning, and an error for 6 s. Only the warning stays until closed. */
  function Demo(k: nat): (n: Note)
    requires k < 4
  {
    [Note("", Info, "welcome", Some(5000)),
     Note("", Success, "newFeature", Some(7000)),
     Note("", Warning, "paymentPending", Some(0)),
     Note("", Error, "transferFailed", Some(6000))][k]
  }

  lemma DemoStickiness(k: nat)
    requires k < 4
    ensures !Timed(Demo(k)) <==> Demo(k).kind == Warning
  {
  }

  datatype Tone = Blue | Green | Yellow | Red

  /** `getIcon` and `getColors` both colour by kind, one tone per kind. */
  function ToneOf(k: Kind): Tone {
    match k
    case Info => Blue
    case Success => Green
    case Warning => Yellow
    case Error => Red
  }

  lemma TonesDistinct(a: Kind, b: Kind)
    ensures ToneOf(a) == ToneOf(b) <==> a == b
  {
  }
}

=== FILE: order_tracking.dfy ===
/** The order-tracking page (`pages/OrderTracking`): a search box, a 1.5-second
    simulated lookup that "finds" every id starting with `TT-`, and the status
    badge of a found order. Searches can overlap (Enter is not disabled while
    loading), so the queries still waiting are kept in `pending`. */
module OrderTracking {
  import opened Common

  datatype Order = Order(
    id: string,
    status: string,
    progress: int,
    sourceGroup: string,
    targetGroup: string,
    memberCount: int,
    totalCost: real,
    createdAt: string,
    estimatedCompletion: string)

  const OrderPrefix: string := "TT-"

  /** The mock lookup: any query starting with `TT-` yields the same processing
      order under the queried id; anything else yields nothing. */
  function MockLookup(query: string): (r: Option<Order>)
    ensures r.Some? <==> StartsWith(query, OrderPrefix)
    ensures r.Some? ==> r.value.id == query && r.value.status == "processing" && r.value.progress == 65
  {
    if StartsWith(query, OrderPrefix) then
      Some(Order(query, "processing", 65, "Crypto Traders Hub", "My Trading Group", 1500, 60.0,
                 "2024-01-15 14:30:00", "2024-01-15 18:00:00"))
    else None
  }

  datatype Tracker = Tracker(
    orderId: string,
    orderData: Option<Order>,
    isLoading: bool,
    pending: seq<string>)   // queries of searches still waiting, oldest first

  const Initial: Tracker := Tracker("", None, false, [])

  datatype Event =
    | Type(text: string)
    | SearchButton
    | EnterKey
    | Settle(k: nat)        // the timer of the k-th pending search fires

  /** `handleSearch`: blank input is ignored; otherwise loading starts and the
      query is the input text as it is, untrimmed. */
  function HandleSearch(t: Tracker): (u: Tracker)
    ensures IsBlank(t.orderId) ==> u == t
    ensures !IsBlank(t.orderId) ==> u.isLoading && u.pending == t.pending + [t.orderId]
    ensures u.orderId == t.orderId && u.orderData == t.orderData
  {
    TrimEmptyIffBlank(t.orderId);
    if Trim(t.orderId) == [] then t
    else t.(isLoading := true, pending := t.pending + [t.orderId])
  }

  function RemoveAt<T>(s: seq<T>, k: nat): (r: seq<T>)
    requires k < |s|
    ensures |r| == |s| - 1
  {
    s[..k] + s[k + 1..]
  }

  /** One event. Only typing changes the text, only a search queues a query and
      only a settling search changes the shown order, to the lookup of the query
      it was started with; loading starts only for a non-blank search. */
  function Step(t: Tracker, e: Event): (u: Tracker)
    ensures u.orderId != t.orderId ==> e.Type?
    ensures |u.pending| > |t.pending| ==> (e.SearchButton? || e.EnterKey?) && u.pending == t.pending + [t.orderId]
    ensures u.orderData != t.orderData ==> e.Settle? && e.k < |t.pending| && u.orderData == MockLookup(t.pending[e.k])
    ensures u.isLoading && !t.isLoading ==> !IsBlank(t.orderId)
  {
    match e
    case Type(text) => t.(orderId := text)
    case SearchButton => HandleSearch(t)
    case EnterKey => HandleSearch(t)
    case Settle(k) =>
      if k < |t.pending| then
        t.(orderData := MockLookup(t.pending[k]), isLoading := false, pending := RemoveAt(t.pending, k))
      else t
  }

  /** The search button is disabled while loading; typing and Enter are not. */
  predicate Offered(t: Tracker, e: Event) {
    match e
    case SearchButton => !t.isLoading
    case Settle(k) => k < |t.pending|
    case _ => true
  }

  predicate OfferedTrace(t: Tracker, events: seq<Event>)
    decreases |events|
  {
    events == [] || (Offered(t, events[0]) && OfferedTrace(Step(t, events[0]), events[1..]))
  }

  function Run(t: Tracker, events: seq<Event>): Tracker
    decreases |events|
  {
    if events == [] then t else Run(Step(t, events[0]), events[1..])
  }

  /** One step of a run, with its offer check. */
  lemma RunStep(t: Tracker, events: seq<Event>)
    requires events != []
    ensures Run(t, events) == Run(Step(t, events[0]), events[1..])
    ensures OfferedTrace(t, events) <==> Offered(t, events[0]) && OfferedTrace(Step(t, events[0]), events[1..])
  {
  }

  /** The order card, shown whenever an order was found. */
  predicate OrderShown(t: Tracker) {
    t.orderData.Some?
  }

  /** The "order not found" card: never together with the order card, never
      while loading, and never for an empty box. */
  function NotFoundShown(t: Tracker): (shown: bool)
    ensures shown ==> !OrderShown(t) && !t.isLoading && t.orderId != []
    ensures !shown && t.orderId != [] && !t.isLoading ==> OrderShown(t)
  {
    t.orderId != [] && t.orderData.None? && !t.isLoading
  }

  // ---------------------------------------------------------------------------
  // Searching
  // ---------------------------------------------------------------------------

  /** A settling search shows the order exactly when its query starts with `TT-`,
      under the text typed at click time, and stops loading either way. */
  lemma SettleShows(t: Tracker, k: nat)
    requires k < |t.pending|
    ensures var u := Step(t, Settle(k));
      !u.isLoading && (u.orderData.Some? <==> StartsWith(t.pending[k], OrderPrefix))
      && (u.orderData.Some? ==> u.orderData.value.id == t.pending[k])
  {
  }

  /** What the page keeps: a shown order is always the mock's processing order
      under a `TT-` id, and loading means some search is still waiting. */
  predicate Inv(t: Tracker) {
    && (t.orderData.Some? ==> StartsWith(t.orderData.value.id, OrderPrefix) && t.orderData.value.status == "processing")
    && (t.isLoading ==> t.pending != [])
  }

  lemma {:induction false} RunInv(t: Tracker, events: seq<Event>)
    requires Inv(t)
    ensures Inv(Run(t, events))
    decreases |events|
  {
    if events != [] {
      RunInv(Step(t, events[0]), events[1..]);
    }
  }

  /** Typing an id shows "not found" before any search was made. */
  lemma NotFoundBeforeSearch()
    ensures NotFoundShown(Step(Initial, Type("abc")))
  {
  }

  /** Text with leading whitespace passes the blank check but fails the prefix
      test (the query is not trimmed): such an id is searched for and not found. */
  lemma PaddedIdNotFound(q: string)
    requires |q| > 0 && IsJsSpace(q[0]) && !IsBlank(q)
    ensures var events := [Type(q), SearchButton, Settle(0)];
      OfferedTrace(Initial, events) && NotFoundShown(Run(Initial, events))
  {
    PaddedSteps(q);
    PaddedSettles(q);
    var t1 := Tracker(q, None, false, []);
    var t2 := Tracker(q, None, true, [q]);
    RunStep(t2, [Settle(0)]);
    RunStep(t1, [SearchButton, Settle(0)]);
    RunStep(Initial, [Type(q), SearchButton, Settle(0)]);
  }

  /** The two steps that start the padded search. */
  lemma PaddedSteps(q: string)
    requires !IsBlank(q)
    ensures Step(Initial, Type(q)) == Tracker(q, None, false, [])
    ensures Step(Tracker(q, None, false, []), SearchButton) == Tracker(q, None, true, [q])
  {
    TrimEmptyIffBlank(q);
    assert [] + [q] == [q];
  }

  /** The padded search settles with nothing found. */
  lemma PaddedSettles(q: string)
    requires |q| > 0 && IsJsSpace(q[0])
    ensures Step(Tracker(q, None, true, [q]), Settle(0)) == Tracker(q, None, false, [])
    ensures NotFoundShown(Tracker(q, None, false, []))
  {
    assert RemoveAt([q], 0) == [];
    assert !StartsWith(q, OrderPrefix) by { assert OrderPrefix[0] == 'T'; }
  }

  /** Two overlapping searches, the second started with Enter while the first
      was loading: the first to settle ends loading although the second is still
      waiting, and when the second settles it replaces the first's result. */
  lemma OverlappingSearches(a: string, b: string)
    requires StartsWith(a, OrderPrefix)
    requires !IsBlank(b) && !StartsWith(b, OrderPrefix)
    ensures var events := [Type(a), SearchButton, Type(b), EnterKey, Settle(0)];
      var t := Run(Initial, events);
      OfferedTrace(Initial, events) && !t.isLoading && t.pending == [b]
      && t.orderData.Some? && t.orderData.value.id == a
      && Step(t, Settle(0)).orderData.None?
  {
    assert !IsBlank(a) by { assert a[0] == 'T'; }
    OverlapSteps(a, b);
    var t1 := Tracker(a, None, false, []);
    var t2 := Tracker(a, None, true, [a]);
    var t3 := Tracker(b, None, true, [a]);
    var t4 := Tracker(b, None, true, [a, b]);
    RunStep(t4, [Settle(0)]);
    RunStep(t3, [EnterKey, Settle(0)]);
    RunStep(t2, [Type(b), EnterKey, Settle(0)]);
    RunStep(t1, [SearchButton, Type(b), EnterKey, Settle(0)]);
    RunStep(Initial, [Type(a), SearchButton, Type(b), EnterKey, Settle(0)]);
  }

  lemma OverlapSteps(a: string, b: string)
    requires StartsWith(a, OrderPrefix) && !IsBlank(a)
    requires !IsBlank(b) && !StartsWith(b, OrderPrefix)
    ensures Step(Initial, Type(a)) == Tracker(a, None, false, [])
    ensures Step(Tracker(a, None, false, []), SearchButton) == Tracker(a, None, true, [a])
    ensures Step(Tracker(a, None, true, [a]), Type(b)) == Tracker(b, None, true, [a])
    ensures Step(Tracker(b, None, true, [a]), EnterKey) == Tracker(b, None, true, [a, b])
    ensures Step(Tracker(b, None, true, [a, b]), Settle(0)) == Tracker(b, MockLookup(a), false, [b])
    ensures Step(Tracker(b, MockLookup(a), false, [b]), Settle(0)).orderData == None
  {
    StartBoth(a, b);
    SettleBoth(a, b);
  }

  /** The four steps that start the overlapping searches. */
  lemma StartBoth(a: string, b: string)
    requires !IsBlank(a) && !IsBlank(b)
    ensures Step(Initial, Type(a)) == Tracker(a, None, false, [])
    ensures Step(Tracker(a, None, false, []), SearchButton) == Tracker(a, None, true, [a])
    ensures Step(Tracker(a, None, true, [a]), Type(b)) == Tracker(b, None, true, [a])
    ensures Step(Tracker(b, None, true, [a]), EnterKey) == Tracker(b, None, true, [a, b])
  {
    PaddedSteps(a);
    EnterQueues(a, b);
  }

  /** Enter during a pending search queues a second one. */
  lemma EnterQueues(a: string, b: string)
    requires !IsBlank(b)
    ensures Step(Tracker(b, None, true, [a]), EnterKey) == Tracker(b, None, true, [a, b])
  {
    TrimEmptyIffBlank(b);
    assert [a] + [b] == [a, b];
  }

  /** The two settling steps of the overlapping searches. */
  lemma SettleBoth(a: string, b: string)
    requires StartsWith(a, OrderPrefix) && !StartsWith(b, OrderPrefix)
    ensures Step(Tracker(b, None, true, [a, b]), Settle(0)) == Tracker(b, MockLookup(a), false, [b])
    ensures Step(Tracker(b, MockLookup(a), false, [b]), Settle(0)).orderData == None
  {
    assert RemoveAt([a, b], 0) == [b];
    assert RemoveAt([b], 0) == [];
  }

  // ---------------------------------------------------------------------------
  // Status badge
  // ---------------------------------------------------------------------------

  function UpperChar(c: char): (r: char)
    ensures 'a' <= c <= 'z' ==> 'A' <= r <= 'Z' && c as int - r as int == 32
    ensures !('a' <= c <= 'z') ==> r == c
  {
    if 'a' <= c <= 'z' then (c as int - 32) as char else c
  }

  /** `status${s.charAt(0).toUpperCase() + s.slice(1)}`. */
  function StatusKey(status: string): (k: string)
    ensures StartsWith(k, "status") && |k| == 6 + |status|
    ensures |status| > 0 ==> k[6] == UpperChar(status[0]) && k[7..] == status[1..]
  {
    if status == [] then "status" else "status" + [UpperChar(status[0])] + status[1..]
  }

  /** The English status translations; `t` falls back to the key itself. */
  function EnglishLabel(key: string): string {
    if key == "statusPending" then "Pending"
    else if key == "statusProcessing" then "Processing"
    else if key == "statusCompleted" then "Completed"
    else if key == "statusFailed" then "Failed"
    else key
  }

  /** The four known statuses are translated; any other is shown as its raw key. */
  lemma StatusLabels()
    ensures EnglishLabel(StatusKey("pending")) == "Pending"
    ensures EnglishLabel(StatusKey("processing")) == "Processing"
    ensures EnglishLabel(StatusKey("completed")) == "Completed"
    ensures EnglishLabel(StatusKey("failed")) == "Failed"
  {
    KeyOf("pending", "statusPending");
    KeyOf("processing", "statusProcessing");
    KeyOf("completed", "statusCompleted");
    KeyOf("failed", "statusFailed");
  }

  /** The key of a status, from its first letter upper-cased and the rest. */
  lemma KeyOf(status: string, key: string)
    requires |status| > 0 && |key| == 6 + |status|
    requires key[..6] == "status" && key[6] == UpperChar(status[0]) && key[7..] == status[1..]
    ensures StatusKey(status) == key
  {
    var k := StatusKey(status);
    assert k[..6] == "status";
    assert forall i :: 0 <= i < |k| ==> k[i] == key[i] by {
      forall i | 0 <= i < |k| ensures k[i] == key[i] {
        if i < 6 { assert k[i] == k[..6][i] && key[i] == key[..6][i]; }
        else if i > 6 { assert k[i] == k[7..][i - 7] && key[i] == key[7..][i - 7]; }
      }
    }
  }

  lemma UnknownStatusShowsKey()
    ensures EnglishLabel(StatusKey("cancelled")) == "statusCancelled"
  {
    KeyOf("cancelled", "statusCancelled");
  }

  datatype Tone = Yellow | Blue | Green | Red | Gray

  /** The colour of `getStatusIcon`. */
  function IconTone(status: string): Tone {
    if status == "pending" then Yellow
    else if status == "processing" then Blue
    else if status == "completed" then Green
    else if status == "failed" then Red
    else Gray
  }

  /** The colour of `getStatusColor`. */
  function BadgeTone(status: string): Tone {
    match status
    case "pending" => Yellow
    case "processing" => Blue
    case "completed" => Green
    case "failed" => Red
    case _ => Gray
  }

  /** The icon and the badge around it always share a colour, and only the four
      known statuses are coloured. */
  lemma IconMatchesBadge(status: string)
    ensures IconTone(status) == BadgeTone(status)
    ensures BadgeTone(status) != Gray <==> status in ["pending", "processing", "completed", "failed"]
  {
  }
}

=== FILE: page_wizard.dfy ===
/** The 3-step page wizard (`pages/TransferWizard`): groups on step 1, the member
    count on step 2, payment method and proof on step 3. It validates nothing;
    its cost reads the count with `parseInt`. Leaving the wizard (`onBack`) is
    counted in `exits`; the 3-second submit wait is split into `Submit` and
    `SubmitSettles`. */
module PageWizard {
  import opened Common

  const LastStep: int := 3
  const CentsPerMember: real := 0.04

  /** What the wizard keeps of the chosen `File`. */
  datatype FileInfo = FileInfo(name: string, size: nat, mime: string)

  datatype Page = Page(
    step: int,
    sourceGroup: string,
    targetGroup: string,
    memberCount: string,
    paymentMethod: string,
    paymentProof: Option<FileInfo>,
    isProcessing: bool,
    isSuccess: bool,
    orderId: string,
    exits: nat)

  /** The page as mounted at time `now`; the order id is fixed from then on. */
  function Mount(now: nat): (p: Page)
    ensures p.step == 1 && !p.isProcessing && !p.isSuccess && p.exits == 0
    ensures StartsWith(p.orderId, "TT-") && AllDigits(p.orderId[3..])
    ensures DigitsValue(p.orderId[3..]) == now
  {
    var id := "TT-" + Decimal(now);
    assert id[3..] == Decimal(now);
    DigitsValueOfDecimal(now);
    Page(1, "", "", "", "", None, false, false, id, 0)
  }

  // ---------------------------------------------------------------------------
  // parseInt
  // ---------------------------------------------------------------------------

  /** The longest prefix of `s` made of decimal digits. */
  function LeadingDigits(s: string): (r: string)
    ensures |r| <= |s| && r == s[..|r|] && AllDigits(r)
    ensures |r| == |s| || !IsDigit(s[|r|])
    decreases |s|
  {
    if |s| > 0 && IsDigit(s[0]) then
      var rest := LeadingDigits(s[1..]);
      assert s[..1 + |rest|] == [s[0]] + rest;
      [s[0]] + rest
    else []
  }

  /** `parseInt(s)` with the default radix: leading whitespace skipped, an
      optional sign, then the longest run of digits; `None` stands for `NaN`. */
  function ParseInt(s: string): (r: Option<int>)
    ensures AllDigits(s) && s != [] ==> r == Some(DigitsValue(s))
    ensures (forall i :: 0 <= i < |s| ==> !IsDigit(s[i])) ==> r.None?
  {
    DigitsParse(s);
    NoDigitsParse(s);
    ParseSigned(TrimStart(s))
  }

  /** A plain run of digits is read whole. */
  lemma DigitsParse(s: string)
    ensures AllDigits(s) && s != [] ==> ParseSigned(TrimStart(s)) == Some(DigitsValue(s))
  {
    if AllDigits(s) && s != [] {
      assert IsDigit(s[0]);
      SkipBlank("", s);
      assert "" + s == s;
      LeadingDigitsOfRun(s, []);
      assert s + [] == s;
      ParseUnsigned(s);
    }
  }

  /** Text with no digit in it reads as `NaN`. */
  lemma NoDigitsParse(s: string)
    ensures (forall i :: 0 <= i < |s| ==> !IsDigit(s[i])) ==> ParseSigned(TrimStart(s)).None?
  {
    if forall i :: 0 <= i < |s| ==> !IsDigit(s[i]) {
      NoDigitsRest(s);
    }
  }

  lemma NoDigitsRest(s: string)
    requires forall i :: 0 <= i < |s| ==> !IsDigit(s[i])
    ensures ParseSigned(TrimStart(s)).None?
  {
    var t := TrimStart(s);
    var signed := |t| > 0 && (t[0] == '-' || t[0] == '+');
    var rest := if signed then t[1..] else t;
    if rest != [] {
      var k := if signed then |s| - |t| + 1 else |s| - |t|;
      assert rest[0] == s[k];
    }
    assert LeadingDigits(rest) == [];
  }

  /** The part of `parseInt` after the whitespace. */
  function ParseSigned(t: string): Option<int> {
    var negative := |t| > 0 && t[0] == '-';
    var rest := if |t| > 0 && (t[0] == '-' || t[0] == '+') then t[1..] else t;
    var digits := LeadingDigits(rest);
    if digits == [] then None
    else if negative then Some(0 - DigitsValue(digits))
    else Some(DigitsValue(digits))
  }

  /** `parseInt(s) || 0`: `NaN` (and zero) become zero. */
  function CountOf(s: string): int {
    var n := ParseInt(s);
    if n.Some? then n.value else 0
  }

  /** `calculateCost`: four cents a member. */
  function CalculateCost(memberCount: string): (c: real)
    ensures AllDigits(memberCount) && memberCount != [] ==> c * 25.0 == DigitsValue(memberCount) as real
    ensures (forall i :: 0 <= i < |memberCount| ==> !IsDigit(memberCount[i])) ==> c == 0.0
  {
    CountOf(memberCount) as real * CentsPerMember
  }

  /** A run of digits followed by anything that does not continue it is read whole. */
  lemma {:induction false} LeadingDigitsOfRun(a: string, tail: string)
    requires AllDigits(a)
    requires tail == [] || !IsDigit(tail[0])
    ensures LeadingDigits(a + tail) == a
    decreases |a|
  {
    if a != [] {
      assert (a + tail)[1..] == a[1..] + tail;
      LeadingDigitsOfRun(a[1..], tail);
    }
  }

  /** The text a user types: whitespace, an optional minus sign, the rendered number,
      then anything that does not start with a digit (a fraction, an exponent). */
  function Typed(space: string, negative: bool, n: nat, tail: string): string {
    space + (if negative then "-" else "") + Decimal(n) + tail
  }

  /** `parseInt` reads back the number that was typed, whatever surrounds it. */
  lemma ParseIntTyped(space: string, negative: bool, n: nat, tail: string)
    requires IsBlank(space)
    requires tail == [] || !IsDigit(tail[0])
    ensures ParseInt(Typed(space, negative, n, tail)) == Some(if negative then 0 - n else n)
  {
    var rest := Decimal(n) + tail;
    var body := (if negative then "-" else "") + Decimal(n) + tail;
    assert Typed(space, negative, n, tail) == space + body;
    if negative {
      assert body == "-" + rest;
      SkipBlank(space, body);
      NegativeTyped(n, tail);
    } else {
      assert body == rest;
      assert body[0] == Decimal(n)[0];
      SkipBlank(space, body);
      PositiveTyped(n, tail);
    }
  }

  lemma NegativeTyped(n: nat, tail: string)
    requires tail == [] || !IsDigit(tail[0])
    ensures ParseSigned("-" + (Decimal(n) + tail)) == Some(0 - n)
  {
    LeadingDigitsOfRun(Decimal(n), tail);
    DigitsValueOfDecimal(n);
    ParseMinus(Decimal(n) + tail);
  }

  lemma PositiveTyped(n: nat, tail: string)
    requires tail == [] || !IsDigit(tail[0])
    ensures ParseSigned(Decimal(n) + tail) == Some(n)
  {
    var rest := Decimal(n) + tail;
    LeadingDigitsOfRun(Decimal(n), tail);
    DigitsValueOfDecimal(n);
    assert rest[0] == Decimal(n)[0];
    ParseUnsigned(rest);
  }

  /** After a minus sign the digits are read and negated. */
  lemma ParseMinus(rest: string)
    ensures ParseSigned("-" + rest) == (if LeadingDigits(rest) == [] then None else Some(0 - DigitsValue(LeadingDigits(rest))))
  {
    var t := "-" + rest;
    assert t[0] == '-' && t[1..] == rest;
  }

  /** Without a sign the digits are read as they are. */
  lemma ParseUnsigned(rest: string)
    requires rest == [] || (rest[0] != '-' && rest[0] != '+')
    ensures ParseSigned(rest) == (if LeadingDigits(rest) == [] then None else Some(DigitsValue(LeadingDigits(rest))))
  {
  }

  /** Leading whitespace before a non-blank start is skipped exactly. */
  lemma {:induction false} SkipBlank(space: string, body: string)
    requires IsBlank(space)
    requires body == [] || !IsJsSpace(body[0])
    ensures TrimStart(space + body) == body
    decreases |space|
  {
    if space != [] {
      assert (space + body)[1..] == space[1..] + body;
      SkipBlank(space[1..], body);
    }
  }

  /** Text with no digit in it counts as zero members and costs nothing. */
  lemma NoDigitsCostsNothing(s: string)
    requires forall i :: 0 <= i < |s| ==> !IsDigit(s[i])
    ensures CountOf(s) == 0 && CalculateCost(s) == 0.0
  {
  }

  /** 1000 members cost 40 dollars; an empty count costs nothing. */
  lemma CostSamples()
    ensures CalculateCost("") == 0.0
    ensures CalculateCost("1000") == 40.0
  {
    assert Decimal(1) == "1";
    assert Decimal(10) == Decimal(1) + "0" == "10";
    assert Decimal(100) == Decimal(10) + "0" == "100";
    assert Decimal(1000) == Decimal(100) + "0" == "1000";
    assert Typed("", false, 1000, "") == "1000";
    ParseIntTyped("", false, 1000, "");
  }

  // ---------------------------------------------------------------------------
  // Navigation and submission
  // ---------------------------------------------------------------------------

  datatype Event =
    | EditSource(text: string)
    | EditTarget(text: string)
    | EditCount(text: string)
    | EditMethod(text: string)
    | ChooseFile(file: Option<FileInfo>)   // `e.target.files?.[0]`
    | Next
    | Back
    | Submit
    | SubmitSettles
    | Leave                                // the success view's buttons call `onBack`

  /** `handleNext`: advances below the last step, otherwise does nothing. */
  function HandleNext(p: Page): (q: Page)
    ensures q.(step := p.step) == p
    ensures q.step == p.step + 1 <==> p.step < LastStep
    ensures q.step == p.step || q.step == p.step + 1
  {
    if p.step < LastStep then p.(step := p.step + 1) else p
  }

  /** `handleBack`: steps back above the first step, otherwise leaves the wizard. */
  function HandleBack(p: Page): (q: Page)
    ensures q.(step := p.step, exits := p.exits) == p
    ensures p.step > 1 ==> q.step == p.step - 1 && q.exits == p.exits
    ensures p.step <= 1 ==> q.step == p.step && q.exits == p.exits + 1
  {
    if p.step > 1 then p.(step := p.step - 1) else p.(exits := p.exits + 1)
  }

  /** One event. The wizard is left only from the success view or by Back on the
      first step; success comes only from a settled submission and is never
      undone; the order id never changes, and the proof changes only to a
      chosen file. */
  function Step(p: Page, e: Event): (q: Page)
    ensures q.exits == p.exits + (if e.Leave? || (e.Back? && p.step <= 1) then 1 else 0)
    ensures q.isSuccess <==> p.isSuccess || e.SubmitSettles?
    ensures q.orderId == p.orderId
    ensures q.paymentProof != p.paymentProof ==> e.ChooseFile? && q.paymentProof == e.file
  {
    match e
    case EditSource(t) => p.(sourceGroup := t)
    case EditTarget(t) => p.(targetGroup := t)
    case EditCount(t) => p.(memberCount := t)
    case EditMethod(t) => p.(paymentMethod := t)
    case ChooseFile(f) => if f.Some? then p.(paymentProof := f) else p
    case Next => HandleNext(p)
    case Back => HandleBack(p)
    case Submit => p.(isProcessing := true)
    case SubmitSettles => p.(isProcessing := false, isSuccess := true)
    case Leave => p.(exits := p.exits + 1)
  }

  /** The controls on screen: the success view offers only its two leave buttons;
      otherwise both back buttons, the inputs of the current step, Next below the
      last step and Submit (disabled while processing) on it. The pending submit
      settles whenever one is in flight. */
  predicate Offered(p: Page, e: Event) {
    match e
    case SubmitSettles => p.isProcessing
    case Leave => p.isSuccess
    case _ => !p.isSuccess && match e
      case EditSource(_) => p.step == 1
      case EditTarget(_) => p.step == 1
      case EditCount(_) => p.step == 2
      case EditMethod(_) => p.step == 3
      case ChooseFile(_) => p.step == 3
      case Next => p.step < LastStep
      case Back => true
      case Submit => p.step == LastStep && !p.isProcessing
      case _ => false
  }

  predicate OfferedTrace(p: Page, events: seq<Event>)
    decreases |events|
  {
    events == [] || (Offered(p, events[0]) && OfferedTrace(Step(p, events[0]), events[1..]))
  }

  function Run(p: Page, events: seq<Event>): Page
    decreases |events|
  {
    if events == [] then p else Run(Step(p, events[0]), events[1..])
  }

  /** Next and Back move by exactly one step inside 1..3; Back on step 1 leaves
      instead, Next on step 3 does nothing. */
  lemma NavigationMoves(p: Page)
    requires 1 <= p.step <= LastStep
    ensures HandleNext(p).step == (if p.step < 3 then p.step + 1 else 3)
    ensures HandleNext(p).exits == p.exits
    ensures HandleBack(p).step == (if p.step > 1 then p.step - 1 else 1)
    ensures HandleBack(p).exits == (if p.step == 1 then p.exits + 1 else p.exits)
  {
  }

  lemma StepBounds(p: Page, e: Event)
    requires 1 <= p.step <= LastStep
    ensures 1 <= Step(p, e).step <= LastStep
  {
  }

  /** No sequence of clicks leaves steps 1..3, whether or not it is offered. */
  lemma {:induction false} RunStepBounds(p: Page, events: seq<Event>)
    requires 1 <= p.step <= LastStep
    ensures 1 <= Run(p, events).step <= LastStep
    decreases |events|
  {
    if events != [] {
      StepBounds(p, events[0]);
      RunStepBounds(Step(p, events[0]), events[1..]);
    }
  }

  /** Nothing is validated: from a fresh page, Next, Next, Submit and the settling
      timer reach the success view with every field still empty. */
  lemma SubmitWithoutInput(now: nat)
    ensures var events := [Next, Next, Submit, SubmitSettles];
      var p := Run(Mount(now), events);
      OfferedTrace(Mount(now), events) && p.isSuccess && p.sourceGroup == "" && p.memberCount == ""
      && p.paymentProof == None
  {
  }

  /** An empty file choice keeps the previous proof; a chosen file replaces it.
      Either way nothing else changes. */
  lemma ChooseFileKeepsOthers(p: Page, f: Option<FileInfo>)
    ensures Step(p, ChooseFile(f)).paymentProof == (if f.Some? then f else p.paymentProof)
    ensures Step(p, ChooseFile(f)).(paymentProof := p.paymentProof) == p
  {
  }

  /** No event changes the order id fixed at mount. */
  lemma {:induction false} OrderIdFixed(p: Page, events: seq<Event>)
    ensures Run(p, events).orderId == p.orderId
    decreases |events|
  {
    if events != [] {
      OrderIdFixed(Step(p, events[0]), events[1..]);
    }
  }
}

=== FILE: payment_proof.dfy ===
/** The payment-proof upload widget (`PaymentProofUpload`): a file is checked
    for size and type before it is kept, image files get a preview read in the
    background, and the upload is a 2-second wait that ends in success or
    error. `onUploadSuccess` and `onUploadError` calls are counted. */
module PaymentProof {
  import opened Common

  /** 5 MB: `5 * 1024 * 1024` bytes. */
  const SizeLimit: nat := 5242880
  const AllowedTypes: seq<string> := ["image/jpeg", "image/png", "application/pdf"]

  datatype FileInfo = FileInfo(name: string, size: nat, mime: string)

  datatype FileError = FileTooLarge | InvalidFileType

  datatype UploadStatus = Idle | Success | Error

  datatype Widget = Widget(
    file: Option<FileInfo>,
    uploading: bool,
    status: UploadStatus,
    preview: Option<string>,
    pendingReads: nat,      // FileReader loads not yet delivered
    rejections: nat,        // destructive toasts for refused files
    successes: nat,         // `onUploadSuccess` calls
    errors: nat)            // `onUploadError` calls

  const Initial: Widget := Widget(None, false, Idle, None, 0, 0, 0, 0)

  /** `validateFile`: the size is checked before the type. */
  function ValidateFile(f: FileInfo): (r: Option<FileError>)
    ensures r == None <==> f.size <= SizeLimit && f.mime in AllowedTypes
    ensures r == Some(FileTooLarge) <==> f.size > SizeLimit
  {
    if f.size > SizeLimit then Some(FileTooLarge)
    else if f.mime !in AllowedTypes then Some(InvalidFileType)
    else None
  }

  predicate IsImage(f: FileInfo) {
    StartsWith(f.mime, "image/")
  }

  datatype Event =
    | Choose(f: FileInfo)          // the file input or a drop on the drop zone
    | PreviewLoaded(url: string)   // a FileReader `onload`
    | Upload
    | UploadSettles(ok: bool)      // the awaited upload resolved or threw
    | Remove

  /** `handleFileChange`: a refused file only raises a toast; an accepted one
      replaces the file, resets the status and starts a preview read for images
      (clearing the preview otherwise). */
  function HandleFileChange(w: Widget, f: FileInfo): (g: Widget)
    ensures g.rejections == w.rejections + (if ValidateFile(f).Some? then 1 else 0)
    ensures g.file != w.file ==> g.file == Some(f) && f.size <= SizeLimit && f.mime in AllowedTypes
    ensures g.pendingReads > w.pendingReads ==> StartsWith(f.mime, "image/") && ValidateFile(f).None?
    ensures g.uploading == w.uploading && g.successes == w.successes && g.errors == w.errors
  {
    if ValidateFile(f).Some? then w.(rejections := w.rejections + 1)
    else if IsImage(f) then w.(file := Some(f), status := Idle, pendingReads := w.pendingReads + 1)
    else w.(file := Some(f), status := Idle, preview := None)
  }

  /** One event. Exactly one parent callback is called per settled upload; a
      newly kept file always passed the checks; the status shows success only
      after a successful upload. `UploadSettles(false)` over-approximates the
      component: its 2-second wait cannot throw, so the error branch is never
      taken there, and the model allows it. */
  function Step(w: Widget, e: Event): (g: Widget)
    ensures g.successes + g.errors == w.successes + w.errors + (if e.UploadSettles? then 1 else 0)
    ensures g.file != w.file && g.file.Some? ==> g.file.value.size <= SizeLimit && g.file.value.mime in AllowedTypes
    ensures g.status == Success ==> e == UploadSettles(true) || w.status == Success
  {
    match e
    case Choose(f) => HandleFileChange(w, f)
    case PreviewLoaded(url) => w.(preview := Some(url), pendingReads := if w.pendingReads > 0 then w.pendingReads - 1 else 0)
    case Upload => if w.file.None? then w else w.(uploading := true, status := Idle)
    case UploadSettles(ok) =>
      if ok then w.(status := Success, successes := w.successes + 1, uploading := false)
      else w.(status := Error, errors := w.errors + 1, uploading := false)
    case Remove => w.(file := None, preview := None, status := Idle)
  }

  /** The drop zone shows while no file is kept; the upload and remove buttons
      while one is, the upload button disabled while uploading or after a
      success. Background reads and the pending upload complete on their own,
      the upload either way although the component's own wait always succeeds. */
  predicate Offered(w: Widget, e: Event) {
    match e
    case Choose(_) => w.file.None?
    case PreviewLoaded(_) => w.pendingReads > 0
    case Upload => w.file.Some? && !w.uploading && w.status != Success
    case UploadSettles(_) => w.uploading
    case Remove => w.file.Some?
  }

  predicate OfferedTrace(w: Widget, events: seq<Event>)
    decreases |events|
  {
    events == [] || (Offered(w, events[0]) && OfferedTrace(Step(w, events[0]), events[1..]))
  }

  function Run(w: Widget, events: seq<Event>): Widget
    decreases |events|
  {
    if events == [] then w else Run(Step(w, events[0]), events[1..])
  }

  /** Upload clicks in a trace. */
  function CountUploads(events: seq<Event>): (n: nat)
    ensures n <= |events|
    decreases |events|
  {
    if events == [] then 0 else (if events[0].Upload? then 1 else 0) + CountUploads(events[1..])
  }

  // ---------------------------------------------------------------------------
  // Properties
  // ---------------------------------------------------------------------------

  /** A refused file changes nothing but the toast count; an accepted one is kept. */
  lemma ChooseOutcome(w: Widget, f: FileInfo)
    ensures ValidateFile(f).Some? ==> Step(w, Choose(f)) == w.(rejections := w.rejections + 1)
    ensures ValidateFile(f).None? ==> Step(w, Choose(f)).file == Some(f) && Step(w, Choose(f)).status == Idle
  {
  }

  /** A file over 5 MB is refused as too large even when its type is also wrong. */
  lemma SizeCheckedFirst(f: FileInfo)
    requires f.size > SizeLimit && f.mime !in AllowedTypes
    ensures ValidateFile(f) == Some(FileTooLarge)
  {
  }

  /** The widget's invariant: a kept file passed validation; every upload that is
      not in flight has been answered with exactly one callback; a success is shown
      only after a success callback. */
  predicate Inv(w: Widget, started: nat) {
    && (w.file.Some? ==> ValidateFile(w.file.value) == None)
    && w.successes + w.errors + (if w.uploading then 1 else 0) == started
    && (w.status == Success ==> w.successes > 0)
  }

  lemma StepInv(w: Widget, started: nat, e: Event)
    requires Inv(w, started) && Offered(w, e)
    ensures Inv(Step(w, e), started + (if e.Upload? then 1 else 0))
  {
  }

  /** Along any offered trace from the mounted widget, each upload click gets
      exactly one success or error callback once it settles, and only validated
      files are ever kept. */
  lemma {:induction false} RunInv(w: Widget, started: nat, events: seq<Event>)
    requires Inv(w, started) && OfferedTrace(w, events)
    ensures Inv(Run(w, events), started + CountUploads(events))
    decreases |events|
  {
    if events != [] {
      StepInv(w, started, events[0]);
      RunInv(Step(w, events[0]), started + (if events[0].Upload? then 1 else 0), events[1..]);
    }
  }

  lemma CallbacksMatchUploads(events: seq<Event>)
    requires OfferedTrace(Initial, events)
    ensures var w := Run(Initial, events);
      w.successes + w.errors <= CountUploads(events)
      && (!w.uploading ==> w.successes + w.errors == CountUploads(events))
      && (w.file.Some? ==> w.file.value.size <= SizeLimit && w.file.value.mime in AllowedTypes)
  {
    RunInv(Initial, 0, events);
  }

  /** After a success the upload button stays disabled until the file is removed
      or replaced. */
  lemma SuccessDisablesUpload(w: Widget)
    requires w.status == Success
    ensures !Offered(w, Upload)
    ensures Step(w, Remove).status == Idle
  {
  }
}

=== FILE: process_flow.dfy ===
/** The "how it works" section (`ProcessFlow`): four steps, one active, advanced
    by a 3-second interval that marks the step it leaves as completed and clears
    the completed list when it wraps round; clicking a step makes it active
    without touching the completed list. */
module ProcessFlow {
  import opened Common

  const StepCount: int := 4

  datatype Flow = Flow(active: int, completed: seq<int>)

  const Initial: Flow := Flow(0, [])

  /** One interval tick. */
  function Tick(f: Flow): (r: Flow)
    ensures 0 <= r.active < StepCount
    ensures r.active == 0 ==> r.completed == []
    ensures r.active != 0 ==> r.completed == f.completed + [f.active]
  {
    var next := (f.active + 1) % StepCount;
    if next == 0 then Flow(next, []) else Flow(next, f.completed + [f.active])
  }

  /** The active step goes round the four steps in order. */
  lemma TickAdvances(f: Flow)
    requires 0 <= f.active < StepCount
    ensures Tick(f).active == (if f.active == StepCount - 1 then 0 else f.active + 1)
    ensures Tick(f).active == 0 <==> f.active == StepCount - 1
  {
  }

  /** A card's click. */
  function Select(f: Flow, index: int): (r: Flow)
    ensures r.active == index && r.completed == f.completed
  {
    f.(active := index)
  }

  datatype Event = IntervalTick | Click(index: int)

  /** One event. A tick completes at most one more step, and empties the list
      when it wraps to the first step; a click changes only the active step.
      Any event the cards offer keeps the active step among the four. */
  function Step(f: Flow, e: Event): (g: Flow)
    ensures |g.completed| <= |f.completed| + 1
    ensures e.IntervalTick? && g.active == 0 ==> g.completed == []
    ensures e.Click? ==> g.completed == f.completed
    ensures (e.Click? ==> 0 <= e.index < StepCount) ==> 0 <= g.active < StepCount
  {
    match e
    case IntervalTick => Tick(f)
    case Click(i) => Select(f, i)
  }

  /** Both the step list and the visual grid have one card per step. */
  predicate Offered(e: Event) {
    e.Click? ==> 0 <= e.index < StepCount
  }

  predicate OfferedTrace(events: seq<Event>) {
    forall i :: 0 <= i < |events| ==> Offered(events[i])
  }

  function Run(f: Flow, events: seq<Event>): Flow
    decreases |events|
  {
    if events == [] then f else Run(Step(f, events[0]), events[1..])
  }

  /** `[0, 1, ..., n - 1]`. */
  function UpTo(n: nat): (r: seq<int>)
    ensures |r| == n && forall i :: 0 <= i < n ==> r[i] == i
  {
    if n == 0 then [] else UpTo(n - 1) + [n - 1]
  }

  /** Left to the interval alone, the completed steps are exactly those before the
      active one, in order. */
  predicate Orderly(f: Flow) {
    0 <= f.active < StepCount && f.completed == UpTo(f.active)
  }

  lemma TickOrderly(f: Flow)
    requires Orderly(f)
    ensures Orderly(Tick(f))
  {
  }

  /** Without clicks the section stays orderly for ever. */
  lemma {:induction false} TicksOrderly(f: Flow, events: seq<Event>)
    requires Orderly(f)
    requires forall i :: 0 <= i < |events| ==> events[i] == IntervalTick
    ensures Orderly(Run(f, events))
    decreases |events|
  {
    if events != [] {
      TickOrderly(f);
      TicksOrderly(Step(f, events[0]), events[1..]);
    }
  }

  /** Four ticks go once round and back to the mounted state. */
  lemma FullCycle()
    ensures Tick(Tick(Tick(Tick(Initial)))) == Initial
  {
  }

  /** Valid in any case: the active step and every completed entry name a step. */
  predicate InRange(f: Flow) {
    0 <= f.active < StepCount && forall i :: 0 <= i < |f.completed| ==> 0 <= f.completed[i] < StepCount
  }

  lemma {:induction false} RunInRange(f: Flow, events: seq<Event>)
    requires InRange(f) && OfferedTrace(events)
    ensures InRange(Run(f, events))
    decreases |events|
  {
    if events != [] {
      assert Offered(events[0]);
      RunInRange(Step(f, events[0]), events[1..]);
    }
  }

  /** Clicks break the ordering: clicking back to the first step and letting the
      interval tick lists the first step as completed twice. */
  lemma ClickBackRepeats()
    ensures Run(Flow(2, [0, 1]), [Click(0), IntervalTick]) == Flow(1, [0, 1, 0])
  {
  }

  datatype Card = Active | Done | Pending

  /** A card's look: the active step wins over the completed list. */
  function CardState(f: Flow, index: int): (c: Card)
    ensures c == Active <==> index == f.active
    ensures c == Done <==> index != f.active && index in f.completed
  {
    if f.active == index then Active else if index in f.completed then Done else Pending
  }

  /** In an orderly section the cards before the active one are done and the ones
      after it pending. */
  lemma OrderlyCards(f: Flow, index: int)
    requires Orderly(f) && 0 <= index < StepCount
    ensures CardState(f, index) == (if index == f.active then Active else if index < f.active then Done else Pending)
  {
    if index < f.active {
      assert f.completed[index] == index;
    }
  }

  /** The progress figure `Math.round((active + 1) / 4 * 100)`. */
  function Percent(active: int): (p: int)
    ensures (active + 1) as real * 25.0 - 0.5 < p as real <= (active + 1) as real * 25.0 + 0.5
  {
    Round((active + 1) as real / StepCount as real * 100.0)
  }

  /** The four steps show 25, 50, 75 and 100 percent. */
  lemma PercentByStep(active: int)
    requires 0 <= active < StepCount
    ensures Percent(active) == 25 * (active + 1)
  {
  }
}

=== FILE: progress_indicator.dfy ===
/** The step progress bar (`ProgressIndicator`): a percentage of the steps
    reached and, when a label is given for every step, a row of labels with the
    current one highlighted. */
module ProgressIndicator {
  import opened Common

  /** `(currentStep / totalSteps) * 100`. A zero total makes JavaScript produce
      `Infinity` or `NaN`, modelled as `None`. */
  function ProgressValue(current: int, total: int): (r: Option<real>)
    ensures r.Some? <==> total != 0
    ensures r.Some? ==> r.value * total as real == current as real * 100.0
  {
    if total == 0 then None else Some(current as real / total as real * 100.0)
  }

  /** Inside the step range the bar is a percentage, full exactly on the last step. */
  lemma ProgressBounds(current: int, total: int)
    requires 0 < total && 0 <= current <= total
    ensures var v := ProgressValue(current, total).value;
      0.0 <= v <= 100.0 && (v == 100.0 <==> current == total)
  {
  }

  /** A later step always shows more progress. */
  lemma ProgressMonotone(a: int, b: int, total: int)
    requires 0 < total && a < b
    ensures ProgressValue(a, total).value < ProgressValue(b, total).value
  {
  }

  /** Labels are drawn only when there is exactly one per step. */
  predicate LabelsShown(labels: Option<seq<string>>, total: int) {
    labels.Some? && |labels.value| == total
  }

  /** The label row: nothing unless there is one label per step, otherwise each
      label in order with the highlight on the one at the current step. */
  function LabelRow(labels: Option<seq<string>>, total: int, current: int): (row: seq<(string, bool)>)
    ensures !LabelsShown(labels, total) ==> row == []
    ensures LabelsShown(labels, total) ==>
      |row| == total && forall i :: 0 <= i < |row| ==> row[i].0 == labels.value[i] && (row[i].1 <==> i + 1 == current)
  {
    if LabelsShown(labels, total) then
      seq(|labels.value|, i requires 0 <= i < |labels.value| => (labels.value[i], i + 1 == current))
    else []
  }

  /** A drawn row highlights exactly one label while the current step is one of
      the steps, the one at position `current - 1`, and none otherwise. */
  lemma LabelRowHighlight(labels: Option<seq<string>>, total: int, current: int)
    requires LabelsShown(labels, total)
    ensures var row := LabelRow(labels, total, current);
      CountTrue(seq(|row|, i requires 0 <= i < |row| => row[i].1)) == (if 1 <= current <= total then 1 else 0)
  {
    var row := LabelRow(labels, total, current);
    var flags := seq(|row|, i requires 0 <= i < |row| => row[i].1);
    assert flags == Highlights(total, current);
    OneHighlight(total, current);
  }

  /** Which label of `count` is highlighted: the one whose 1-based position is the current step. */
  function Highlights(count: nat, current: int): (r: seq<bool>)
    ensures |r| == count
  {
    seq(count, i requires 0 <= i < count => i + 1 == current)
  }

  function CountTrue(s: seq<bool>): nat
    decreases |s|
  {
    if s == [] then 0 else (if s[0] then 1 else 0) + CountTrue(s[1..])
  }

  /** At most one flag is set when only position `j` may be set. */
  lemma {:induction false} CountOnly(s: seq<bool>, j: int)
    requires forall i :: 0 <= i < |s| ==> (s[i] <==> i == j)
    ensures CountTrue(s) == (if 0 <= j < |s| then 1 else 0)
    decreases |s|
  {
    if s != [] {
      assert forall i :: 0 <= i < |s[1..]| ==> (s[1..][i] <==> i == j - 1);
      CountOnly(s[1..], j - 1);
    }
  }

  /** Exactly one label is highlighted while the current step is one of the
      labelled steps, none otherwise; it is the label at position `current - 1`. */
  lemma OneHighlight(count: nat, current: int)
    ensures CountTrue(Highlights(count, current)) == (if 1 <= current <= count then 1 else 0)
    ensures 1 <= current <= count ==> Highlights(count, current)[current - 1]
  {
    CountOnly(Highlights(count, current), current - 1);
  }
}

=== FILE: start_wizard.dfy ===
/** The 4-step validated wizard (`EnhancedStartWizard`): links on step 1, the
    member count on step 2, payment on step 3, confirmation on step 4. The
    2-second payment wait is split into `Pay` (click) and `PaymentSettles`
    (the awaited timer firing). */
module StartWizard {
  import opened Common
  import TelegramLink
  import TransferForm
  import SuccessModal

  const TotalSteps: int := 4
  const MinMembers: real := 100.0
  const UnitRate: real := 0.01

  datatype Wizard = Wizard(
    step: int,
    source: string,
    destination: string,
    count: Option<real>,
    proofUploaded: bool,
    loading: bool,
    showSuccessModal: bool)

  const Initial: Wizard := Wizard(1, "", "", None, false, false, false)

  datatype Event =
    | EditSource(text: string)
    | EditDestination(text: string)
    | EditCount(value: real)       // `Number(e.target.value)`
    | ProofUploaded                // `onUploadSuccess` of the upload widget
    | Next
    | BackStep
    | Pay
    | PaymentSettles
    | CloseModal
    | StartAnother

  /** `handleNext`: step 1 needs both links valid, step 2 a count of at least 100
      (no upper bound); otherwise the step advances by one. */
  function HandleNext(w: Wizard): (v: Wizard)
    ensures v.(step := w.step) == w
    ensures v.step == w.step || v.step == w.step + 1
    ensures v.step == w.step + 1 <==>
      (w.step == 1 ==> TelegramLink.ValidLink(w.source) && TelegramLink.ValidLink(w.destination))
      && (w.step == 2 ==> w.count.Some? && w.count.value >= MinMembers)
  {
    if w.step == 1 && !(TelegramLink.ValidLink(w.source) && TelegramLink.ValidLink(w.destination)) then w
    else if w.step == 2 && !(w.count.Some? && w.count.value >= MinMembers) then w
    else w.(step := w.step + 1)
  }

  /** One event. The success modal opens only when the payment settles, on step 4;
      only Next and the settling payment move forward; each field changes only
      through its own input, and an uploaded proof stays uploaded. */
  function Step(w: Wizard, e: Event): (v: Wizard)
    ensures v.showSuccessModal && !w.showSuccessModal ==> e.PaymentSettles? && v.step == 4
    ensures 1 <= w.step < v.step ==> e.Next? || e.PaymentSettles?
    ensures v.source != w.source ==> e.EditSource?
    ensures v.destination != w.destination ==> e.EditDestination?
    ensures v.count != w.count ==> e.EditCount?
    ensures w.proofUploaded ==> v.proofUploaded
  {
    match e
    case EditSource(t) => w.(source := t)
    case EditDestination(t) => w.(destination := t)
    case EditCount(v) => w.(count := Some(v))
    case ProofUploaded => w.(proofUploaded := true)
    case Next => HandleNext(w)
    case BackStep => w.(step := w.step - 1)
    case Pay => w.(loading := true)
    case PaymentSettles => w.(step := 4, showSuccessModal := true, loading := false)
    case CloseModal => w.(showSuccessModal := false)
    case StartAnother => w.(step := 1)
  }

  /** Which controls the rendered step offers: the link inputs and Next on step 1,
      the count input, Back and Next on step 2, the upload widget, Back and the
      payment button (disabled while loading) on step 3, "start another" on step 4.
      The payment timer settles whenever one is pending. */
  predicate Offered(w: Wizard, e: Event) {
    match e
    case EditSource(_) => w.step == 1
    case EditDestination(_) => w.step == 1
    case EditCount(_) => w.step == 2
    case ProofUploaded => true
    case Next => w.step == 1 || w.step == 2
    case BackStep => w.step == 2 || w.step == 3
    case Pay => w.step == 3 && !w.loading
    case PaymentSettles => w.loading
    case CloseModal => w.showSuccessModal
    case StartAnother => w.step == 4
  }

  /** Every event of the trace is offered in the state it is applied to. */
  predicate OfferedTrace(w: Wizard, events: seq<Event>)
    decreases |events|
  {
    events == [] || (Offered(w, events[0]) && OfferedTrace(Step(w, events[0]), events[1..]))
  }

  function Run(w: Wizard, events: seq<Event>): Wizard
    decreases |events|
  {
    if events == [] then w else Run(Step(w, events[0]), events[1..])
  }

  // ---------------------------------------------------------------------------
  // Step validation
  // ---------------------------------------------------------------------------

  /** Next leaves step 1 exactly when both links match the pattern. */
  lemma NextFromStep1(w: Wizard)
    requires w.step == 1
    ensures HandleNext(w).step == (if TelegramLink.ValidLink(w.source) && TelegramLink.ValidLink(w.destination) then 2 else 1)
    ensures HandleNext(w).(step := w.step) == w
  {
  }

  /** Next leaves step 2 exactly when a count of at least 100 was entered. */
  lemma NextFromStep2(w: Wizard)
    requires w.step == 2
    ensures HandleNext(w).step == (if w.count.Some? && w.count.value >= 100.0 then 3 else 2)
    ensures HandleNext(w).(step := w.step) == w
  {
  }

  // ---------------------------------------------------------------------------
  // Step bounds
  // ---------------------------------------------------------------------------

  lemma StepBounds(w: Wizard, e: Event)
    requires 1 <= w.step <= TotalSteps && Offered(w, e)
    ensures 1 <= Step(w, e).step <= TotalSteps
  {
  }

  /** Whatever the user clicks, the wizard stays on one of its four steps. */
  lemma {:induction false} RunStepBounds(w: Wizard, events: seq<Event>)
    requires 1 <= w.step <= TotalSteps && OfferedTrace(w, events)
    ensures 1 <= Run(w, events).step <= TotalSteps
    decreases |events|
  {
    if events != [] {
      StepBounds(w, events[0]);
      RunStepBounds(Step(w, events[0]), events[1..]);
    }
  }

  // ---------------------------------------------------------------------------
  // Payment and restart
  // ---------------------------------------------------------------------------

  /** Paying needs no uploaded proof: clicking pay on step 3 and letting the timer
      settle lands on step 4 with the success modal open. */
  lemma PaymentIgnoresProof(w: Wizard)
    requires w.step == 3 && !w.loading && !w.proofUploaded
    ensures Offered(w, Pay) && Offered(Step(w, Pay), PaymentSettles)
    ensures var v := Step(Step(w, Pay), PaymentSettles);
      v.step == 4 && v.showSuccessModal && !v.loading && !v.proofUploaded
  {
  }

  /** "Start another transfer" returns to step 1 but keeps the entered links and count. */
  lemma StartAnotherKeepsFields(w: Wizard)
    requires w.step == 4
    ensures Step(w, StartAnother).step == 1
    ensures Step(w, StartAnother).source == w.source
    ensures Step(w, StartAnother).destination == w.destination
    ensures Step(w, StartAnother).count == w.count
  {
  }

  /** The payment button is not the only way out of step 3: the back button stays
      enabled while paying, so the timer can land on step 4 after the user went
      back to step 1 and emptied the source link. */
  lemma PaymentCanSkipValidation()
    ensures var w := Wizard(3, "https://t.me/a", "https://t.me/b", Some(100.0), false, false, false);
      var events := [Pay, BackStep, BackStep, EditSource(""), PaymentSettles];
      OfferedTrace(w, events) && Run(w, events).step == 4 && !TelegramLink.ValidLink(Run(w, events).source)
  {
    var w := Wizard(3, "https://t.me/a", "https://t.me/b", Some(100.0), false, false, false);
    var events := [Pay, BackStep, BackStep, EditSource(""), PaymentSettles];
    TelegramLink.RejectsEmptyAndForeign();
    assert Run(w, events) == Wizard(4, "", "https://t.me/b", Some(100.0), false, false, true);
  }

  // ---------------------------------------------------------------------------
  // Cost and order id
  // ---------------------------------------------------------------------------

  /** `estimatedCost`: one cent a member, `0.00` before any count is entered. */
  function EstimatedCost(count: Option<real>): (c: real)
    ensures count.None? ==> c == 0.0
    ensures count.Some? ==> c * 100.0 == count.value
  {
    if count.Some? then count.value * UnitRate else 0.0
  }

  lemma EstimatedCostFacts(m: real, n: real)
    requires m <= n
    ensures EstimatedCost(None) == 0.0 && EstimatedCost(Some(0.0)) == 0.0
    ensures EstimatedCost(Some(m)) <= EstimatedCost(Some(n))
    ensures EstimatedCost(Some(1000.0)) == 10.0
  {
  }

  const OrderIdRange: int := 1000000000

  /** The step-4 id `TT-{Math.floor(Math.random() * 1000000000)}`, for one draw
      `r`. The draw sits in the rendered markup, so every re-render of the step
      shows a fresh id; the model states what a single render shows. */
  function DisplayedOrderId(r: Unit): (id: string)
    ensures StartsWith(id, "TT-") && 4 <= |id| <= 12 && AllDigits(id[3..])
    ensures 0 <= DigitsValue(id[3..]) < OrderIdRange
    ensures DigitsValue(id[3..]) == (r * 1000000000.0).Floor
  {
    var n := (r * 1000000000.0).Floor;
    assert 0 <= n < OrderIdRange;
    var digits := Decimal(n);
    DigitsValueOfDecimal(n);
    DecimalLength(n);
    assert ("TT-" + digits)[3..] == digits;
    "TT-" + digits
  }

  /** The success dialog as the wizard renders it on every render, open or not:
      with the wizard's own title and description but no `language`, so the
      dialog's first text lookup reads a field of `undefined` and throws. */
  function SuccessDialogAsWritten(title: string, description: string): (r: Option<SuccessModal.Screen>)
    ensures r.None?
  {
    SuccessModal.Render(None, Some(title), Some(description))
  }

  /** The dialog with the wizard's own `language` passed through: it renders the
      wizard's title and description and the four next-step lines of that language. */
  function SuccessDialog(language: SuccessModal.Lang, title: string, description: string): (r: Option<SuccessModal.Screen>)
    ensures r.Some? && |r.value.nextSteps| == 4
    ensures title != [] ==> r.value.title == title
    ensures description != [] ==> r.value.description == description
  {
    SuccessModal.Render(Some(language), Some(title), Some(description))
  }

  /** As written, mounting the wizard fails whatever its texts; with the language
      passed through, the English dialog opens its list with the analysis step. */
  lemma SuccessDialogLanguage(title: string, description: string)
    ensures SuccessDialogAsWritten(title, description).None?
    ensures SuccessDialog(SuccessModal.En, title, description).value.nextSteps[0]
      == "Our AI system will analyze the source group"
  {
  }

  /** A number below 10^9 has at most nine decimal digits. */
  lemma DecimalLength(n: nat)
    requires n < 1000000000
    ensures |Decimal(n)| <= 9
  {
    assert Pow10(9) == 1000000000;
    DecimalLengthBound(n, 9);
  }

  lemma {:induction false} DecimalLengthBound(n: nat, e: nat)
    requires 1 <= e && n < Pow10(e)
    ensures |Decimal(n)| <= e
    decreases e
  {
    if n >= 10 {
      assert Pow10(1) == 10;
      DecimalLengthBound(n / 10, e - 1);
    }
  }

  // ---------------------------------------------------------------------------
  // Where the variants disagree
  // ---------------------------------------------------------------------------

  /** 60 000 members pass this wizard's step 2 but fail the transfer form's count check. */
  lemma SixtyThousandAcceptedHereRejectedThere(w: Wizard)
    requires w.step == 2 && w.count == Some(60000.0)
    requires TelegramLink.ValidLink(w.source) && TelegramLink.ValidLink(w.destination)
    ensures HandleNext(w).step == 3
    ensures TransferForm.SubmitCheck(w.source, w.destination, w.count, true) == Some(TransferForm.InvalidMemberCount)
  {
  }

  /** Below 100 members both variants refuse. */
  lemma FiftyRejectedByBoth(w: Wizard)
    requires w.step == 2 && w.count == Some(50.0)
    requires TelegramLink.ValidLink(w.source) && TelegramLink.ValidLink(w.destination)
    ensures HandleNext(w) == w
    ensures TransferForm.SubmitCheck(w.source, w.destination, w.count, true) == Some(TransferForm.InvalidMemberCount)
  {
  }

  /** For counts between 100 and 50 000 both variants agree with each other. */
  lemma AgreeInsideRange(w: Wizard)
    requires w.step == 2 && w.count.Some? && w.count.value <= 50000.0
    requires TelegramLink.ValidLink(w.source) && TelegramLink.ValidLink(w.destination)
    ensures HandleNext(w).step == 3 <==> TransferForm.SubmitCheck(w.source, w.destination, w.count, true) == None
  {
  }
}

=== FILE: success_modal.dfy ===
/** The success dialog (`SuccessModal`): it shows an order id (the one passed
    in, or one made from the clock at render time), copies it on request, and
    reports the buttons to its parent through `onConfirm` and `onClose`. */
module SuccessModal {
  import opened Common

  const ClockDigits: nat := 8

  /** `orderId || TT-${Date.now().toString().slice(-8)}`: an empty or missing id
      is replaced by the last eight digits of the clock. */
  function GeneratedOrderId(orderId: Option<string>, now: nat): (id: string)
    ensures orderId.Some? && orderId.value != [] ==> id == orderId.value
    ensures !(orderId.Some? && orderId.value != []) ==>
      StartsWith(id, "TT-") && 4 <= |id| <= 11 && AllDigits(id[3..])
      && DigitsValue(id[3..]) == now % Pow10(ClockDigits)
  {
    if orderId.Some? && orderId.value != [] then orderId.value
    else
      var tail := LastChars(Decimal(now), ClockDigits);
      LastDigitsValue(now, ClockDigits);
      assert ("TT-" + tail)[3..] == tail;
      "TT-" + tail
  }

  /** Any clock reading from 10^7 on (every real `Date.now()`) gives a full eight-digit id. */
  lemma ClockIdLength(now: nat)
    requires now >= 10000000
    ensures |GeneratedOrderId(None, now)| == 11
  {
    assert Pow10(7) == 10000000;
    DecimalLengthAtLeast(now, 7);
  }

  lemma {:induction false} DecimalLengthAtLeast(n: nat, e: nat)
    requires n >= Pow10(e)
    ensures |Decimal(n)| >= e + 1
    decreases e
  {
    if e > 0 {
      DecimalLengthAtLeast(n / 10, e - 1);
    }
  }

  /** Without an id passed in, two renders show the same id only if their clocks
      agree in the last eight digits; with one, the clock plays no part. */
  lemma GeneratedIdDependsOnClock(a: nat, b: nat, given: string)
    requires given != []
    ensures GeneratedOrderId(None, a) == GeneratedOrderId(None, b) ==> a % Pow10(8) == b % Pow10(8)
    ensures GeneratedOrderId(Some(given), a) == GeneratedOrderId(Some(given), b)
  {
  }

  /** A clock reading with fewer than eight digits yields a shorter id than the
      one eight digits further on, though both denote the same number. */
  lemma ShortClockDiffers()
    ensures GeneratedOrderId(None, 5) != GeneratedOrderId(None, 100000005)
  {
    assert |GeneratedOrderId(None, 5)| == 4;
    ClockIdLength(100000005);
  }

  // ---------------------------------------------------------------------------
  // Texts
  // ---------------------------------------------------------------------------

  /** The `language` prop, `'en' | 'ar'`. */
  datatype Lang = En | Ar

  /** The keys of the dialog's text table. */
  datatype Key =
    | DefaultTitle | DefaultDescription | OrderIdLabel | CopyOrderId | TrackOrderLabel | Ok
    | OrderIdCopied | WhatNext | Step1 | Step2 | Step3 | Step4

  /** The key as the source spells it, shown when its text is missing. */
  function KeyName(k: Key): string {
    match k
    case DefaultTitle => "defaultTitle"
    case DefaultDescription => "defaultDescription"
    case OrderIdLabel => "orderId"
    case CopyOrderId => "copyOrderId"
    case TrackOrderLabel => "trackOrder"
    case Ok => "ok"
    case OrderIdCopied => "orderIdCopied"
    case WhatNext => "whatNext"
    case Step1 => "step1"
    case Step2 => "step2"
    case Step3 => "step3"
    case Step4 => "step4"
  }

  /** The dialog's text table. */
  function Text(l: Lang, k: Key): string
  {
    match l
    case En => English(k)
    case Ar => Arabic(k)
  }

  function English(k: Key): string
  {
      match k
      case DefaultTitle => "Transfer Initiated Successfully!"
      case DefaultDescription => "Your Telegram member transfer has been started. You will receive updates on the progress."
      case OrderIdLabel => "Order ID:"
      case CopyOrderId => "Copy Order ID"
      case TrackOrderLabel => "Track Order"
      case Ok => "Got it!"
      case OrderIdCopied => "Order ID copied to clipboard!"
      case WhatNext => "What happens next?"
      case Step1 => "Our AI system will analyze the source group"
      case Step2 => "Members will be transferred in batches"
      case Step3 => "You'll receive real-time progress updates"
      case Step4 => "Transfer completion notification"
  }

  function Arabic(k: Key): string
  {
      match k
      case DefaultTitle => "تم بدء النقل بنجاح!"
      case DefaultDescription => "تم بدء نقل أعضاء تليجرام الخاص بك. ستتلقى تحديثات حول التقدم."
      case OrderIdLabel => "معرف الطلب:"
      case CopyOrderId => "نسخ معرف الطلب"
      case TrackOrderLabel => "تتبع الطلب"
      case Ok => "فهمت!"
      case OrderIdCopied => "تم نسخ معرف الطلب إلى الحافظة!"
      case WhatNext => "ما الذي سيحدث بعد ذلك؟"
      case Step1 => "سيقوم نظام الذكاء الاصطناعي بتحليل المجموعة المصدر"
      case Step2 => "سيتم نقل الأعضاء على دفعات"
      case Step3 => "ستتلقى تحديثات التقدم في الوقت الفعلي"
      case Step4 => "إشعار اكتمال النقل"
  }

  /** `t(key)`, that is `translations[language][key] || key`: an empty text
      shows the key itself. Without a `language` the table lookup reads a field
      of `undefined` and throws a `TypeError`, modelled as `None`. */
  function Translate(language: Option<Lang>, k: Key): (r: Option<string>)
    ensures r.None? <==> language.None?
    ensures r.Some? && Text(language.value, k) != [] ==> r.value == Text(language.value, k)
    ensures r.Some? && Text(language.value, k) == [] ==> r.value == KeyName(k)
  {
    match language
    case None => None
    case Some(l) => if Text(l, k) != [] then Some(Text(l, k)) else Some(KeyName(k))
  }

  /** What one render shows: the title, the description and the four
      "what happens next" lines. */
  datatype Screen = Screen(title: string, description: string, nextSteps: seq<string>)

  /** A render of the dialog. `nextSteps` is built on every render, open or not,
      so the render fails exactly when there is no `language`. A given non-empty
      title or description replaces the default text. */
  function Render(language: Option<Lang>, title: Option<string>, description: Option<string>): (r: Option<Screen>)
    ensures r.None? <==> language.None?
    ensures r.Some? ==>
      r.value.nextSteps == [Translate(language, Step1).value, Translate(language, Step2).value,
                            Translate(language, Step3).value, Translate(language, Step4).value]
    ensures r.Some? && title.Some? && title.value != [] ==> r.value.title == title.value
    ensures r.Some? && !(title.Some? && title.value != []) ==> r.value.title == Translate(language, DefaultTitle).value
    ensures r.Some? && description.Some? && description.value != [] ==> r.value.description == description.value
    ensures r.Some? && !(description.Some? && description.value != []) ==>
      r.value.description == Translate(language, DefaultDescription).value
  {
    match language
    case None => None
    case Some(l) =>
      var lang := Some(l);
      var steps := [Translate(lang, Step1).value, Translate(lang, Step2).value,
                    Translate(lang, Step3).value, Translate(lang, Step4).value];
      var shownTitle := if title.Some? && title.value != [] then title.value else Translate(lang, DefaultTitle).value;
      var shownDescription :=
        if description.Some? && description.value != [] then description.value
        else Translate(lang, DefaultDescription).value;
      Some(Screen(shownTitle, shownDescription, steps))
  }

  datatype Callback = Confirm | Close

  datatype Button = CopyId(now: nat) | TrackOrder | ConfirmButton | Dismiss

  /** What a click does: the clipboard text written (if any) and the parent
      callbacks called, in order. */
  datatype Effect = Effect(clipboard: Option<string>, calls: seq<Callback>)

  /** `handleCopyOrderId`, the "track order" button and the dialog's own close
      all use `onClose` alone, and `handleConfirm` calls `onConfirm` (when given)
      before `onClose`. So every button except copy closes the dialog, as its last
      call and exactly once; `onConfirm` is called only by the confirm button and
      only when given; copying closes nothing and writes the id shown at that
      moment. */
  function Click(orderId: Option<string>, hasOnConfirm: bool, b: Button): (e: Effect)
    ensures b.CopyId? <==> e.calls == []
    ensures !b.CopyId? ==> e.calls[|e.calls| - 1] == Close && multiset(e.calls)[Close] == 1
    ensures Confirm in e.calls <==> b == ConfirmButton && hasOnConfirm
    ensures e.clipboard.Some? <==> b.CopyId?
    ensures b.CopyId? ==> e.clipboard == Some(GeneratedOrderId(orderId, b.now))
  {
    match b
    case CopyId(now) => Effect(Some(GeneratedOrderId(orderId, now)), [])
    case TrackOrder => Effect(None, [Close])
    case ConfirmButton => Effect(None, (if hasOnConfirm then [Confirm] else []) + [Close])
    case Dismiss => Effect(None, [Close])
  }
}

=== FILE: system_monitor.dfy ===
/** The system monitor (`SystemMonitor`): every 5 seconds each metric drifts by
    a random amount in [-5, 5), is clamped to 0..100, gets a status from the
    unrounded value and is stored rounded; a random log line is pushed in front
    of the log, which keeps at most ten lines. The interval tick is the `Tick`
    event, its `Math.random()` draws its parameters. */
module SystemMonitor {
  import opened Common

  datatype Status = Normal | Warning | Critical
  datatype Level = Info | Warn | Fail          // 'info' | 'warning' | 'error'

  datatype Metric = Metric(name: string, value: int, unit: string, status: Status)
  datatype LogLine = LogLine(timestamp: string, level: Level, message: string)

  const MaxLogs: nat := 10

  const InitialMetrics: seq<Metric> := [
    Metric("CPU Usage", 35, "%", Normal),
    Metric("Memory Usage", 60, "%", Normal),
    Metric("Disk Usage", 85, "%", Warning),
    Metric("Network Latency", 25, "ms", Normal)
  ]

  const InitialLogs: seq<LogLine> := [
    LogLine("2024-07-20 10:30:00", Info, "System started successfully."),
    LogLine("2024-07-20 10:35:15", Warn, "High disk I/O detected."),
    LogLine("2024-07-20 10:40:00", Info, "AI model update applied.")
  ]

  /** `Math.max(0, Math.min(100, v))`. */
  function Clamp(v: real): (r: real)
    ensures 0.0 <= r <= 100.0
    ensures 0.0 <= v <= 100.0 ==> r == v
  {
    if v < 0.0 then 0.0 else if v > 100.0 then 100.0 else v
  }

  /** The status rule, on the unrounded value; a metric of any other name stays normal. */
  function StatusFor(name: string, v: real): (s: Status)
    ensures s == Critical <==> (name == "CPU Usage" && v > 80.0) || (name == "Disk Usage" && v > 90.0)
    ensures s == Warning <==>
      (name == "Memory Usage" && v > 70.0) || (name == "Disk Usage" && 80.0 < v <= 90.0)
      || (name == "Network Latency" && v > 50.0)
  {
    if name == "CPU Usage" && v > 80.0 then Critical
    else if name == "Memory Usage" && v > 70.0 then Warning
    else if name == "Disk Usage" && v > 90.0 then Critical
    else if name == "Disk Usage" && v > 80.0 then Warning
    else if name == "Network Latency" && v > 50.0 then Warning
    else Normal
  }

  /** One metric on one tick, drawn with `r`. */
  function Drift(m: Metric, r: Unit): (n: Metric)
    ensures n.name == m.name && n.unit == m.unit
    ensures 0 <= n.value <= 100
  {
    var v := Clamp(m.value as real + (r * 10.0 - 5.0));
    Metric(m.name, Round(v), m.unit, StatusFor(m.name, v))
  }

  /** From a value inside 0..100 the displayed value moves by at most 5. */
  lemma DriftBounded(m: Metric, r: Unit)
    requires 0 <= m.value <= 100
    ensures -5 <= Drift(m, r).value - m.value <= 5
  {
  }

  /** The disk is critical above 90, warning above 80 up to 90, normal otherwise;
      the CPU has no warning level. */
  lemma StatusLevels(v: real)
    ensures StatusFor("Disk Usage", v) == (if v > 90.0 then Critical else if v > 80.0 then Warning else Normal)
    ensures StatusFor("CPU Usage", v) != Warning
    ensures StatusFor("Memory Usage", v) != Critical
  {
  }

  /** The status comes from the unrounded value: the CPU can display 80 while
      marked critical (80.4 is above 80 but rounds to 80). */
  lemma CriticalAtDisplayedThreshold()
    ensures var m := Drift(Metric("CPU Usage", 80, "%", Normal), 0.54);
      m.value == 80 && m.status == Critical
  {
  }

  /** `prevMetrics.map(...)` with one draw per metric. */
  function TickMetrics(ms: seq<Metric>, draws: seq<Unit>): (r: seq<Metric>)
    requires |draws| == |ms|
    ensures |r| == |ms|
    ensures forall k :: 0 <= k < |ms| ==> r[k] == Drift(ms[k], draws[k])
  {
    seq(|ms|, k requires 0 <= k < |ms| => Drift(ms[k], draws[k]))
  }

  /** The random log line: error above 0.8 on the first draw, else warning above
      0.6 on the second, else info; the database message above 0.7 on the third. */
  function NewLog(timestamp: string, r1: Unit, r2: Unit, r3: Unit): (l: LogLine)
    ensures l.level == Fail <==> r1 > 0.8
    ensures l.level == Warn <==> r1 <= 0.8 && r2 > 0.6
  {
    LogLine(timestamp,
      if r1 > 0.8 then Fail else if r2 > 0.6 then Warn else Info,
      if r3 > 0.7 then "Database connection error." else "Successful API call.")
  }

  /** `[newLog, ...prevLogs.slice(0, 9)]`. */
  function PushLog(logs: seq<LogLine>, l: LogLine): (r: seq<LogLine>)
    ensures 1 <= |r| <= MaxLogs && r[0] == l
    ensures |r| == if |logs| < MaxLogs then |logs| + 1 else MaxLogs
    ensures r[1..] == logs[..|r| - 1]
  {
    var kept := if |logs| < 9 then logs else logs[..9];
    [l] + kept
  }

  /** However many ticks, the log never grows past ten lines once one was pushed,
      and the newest line is first. */
  lemma {:induction false} PushLogsBound(logs: seq<LogLine>, news: seq<LogLine>)
    ensures |PushAll(logs, news)| <= |logs| + |news|
    ensures |news| > 0 ==> |PushAll(logs, news)| <= MaxLogs && PushAll(logs, news)[0] == news[|news| - 1]
    decreases |news|
  {
    if news != [] {
      PushLogsBound(logs, news[..|news| - 1]);
    }
  }

  /** The log after pushing each of `news` in turn. */
  function PushAll(logs: seq<LogLine>, news: seq<LogLine>): seq<LogLine>
    decreases |news|
  {
    if news == [] then logs else PushLog(PushAll(logs, news[..|news| - 1]), news[|news| - 1])
  }

  datatype Monitor = Monitor(metrics: seq<Metric>, logs: seq<LogLine>)

  const Initial: Monitor := Monitor(InitialMetrics, InitialLogs)

  /** One interval tick: a draw per metric, three draws for the log line and the clock. */
  function Tick(m: Monitor, draws: seq<Unit>, timestamp: string, r1: Unit, r2: Unit, r3: Unit): (n: Monitor)
    requires |draws| == |m.metrics|
    ensures |n.metrics| == |m.metrics|
    ensures forall k :: 0 <= k < |n.metrics| ==> 0 <= n.metrics[k].value <= 100 && n.metrics[k].name == m.metrics[k].name
    ensures 1 <= |n.logs| <= MaxLogs && n.logs[0].timestamp == timestamp
  {
    Monitor(TickMetrics(m.metrics, draws), PushLog(m.logs, NewLog(timestamp, r1, r2, r3)))
  }

  datatype Tone = Green | Yellow | Red

  /** `getStatusColor`, shared by metric statuses and log levels. */
  function StatusTone(s: Status): Tone {
    match s
    case Normal => Green
    case Warning => Yellow
    case Critical => Red
  }

  function LevelTone(l: Level): Tone {
    match l
    case Info => Green
    case Warn => Yellow
    case Fail => Red
  }

  /** Metric statuses and log levels of the same severity share a colour, and each
      severity has its own. */
  lemma TonesMatch(s: Status, l: Level)
    ensures StatusTone(s) == LevelTone(l) <==> (s.Normal? && l.Info?) || (s.Warning? && l.Warn?) || (s.Critical? && l.Fail?)
  {
  }
}

=== FILE: telegram_link.dfy ===
/** The Telegram group-link check shared by the transfer form and the 4-step
    wizard: the regular expression `^https://t\.me/[a-zA-Z0-9_]+(\?join)?\/?$`,
    written out by hand. */
module TelegramLink {
  import opened Common

  const LinkPrefix: string := "https://t.me/"
  const JoinSuffix: string := "?join"

  /** One character of the class `[a-zA-Z0-9_]`. */
  predicate IsHandleChar(c: char) {
    IsAsciiLetter(c) || IsDigit(c) || c == '_'
  }

  /** A non-empty run of `[a-zA-Z0-9_]`. */
  predicate IsHandle(h: string) {
    |h| > 0 && forall i :: 0 <= i < |h| ==> IsHandleChar(h[i])
  }

  /** The pieces a matching link is made of. */
  datatype LinkParts = LinkParts(handle: string, join: bool, slash: bool)

  /** The link that the pattern reads as `parts`. */
  function Build(p: LinkParts): string {
    LinkPrefix + p.handle + (if p.join then JoinSuffix else "") + (if p.slash then "/" else "")
  }

  /** Splits a link into its pieces, or `None` when the pattern does not match.
      The optional `/` is the last character and the optional `?join` precedes it;
      neither can belong to the handle, so the split is unique. */
  function Parse(s: string): (r: Option<LinkParts>)
    ensures r.Some? ==> IsHandle(r.value.handle) && Build(r.value) == s
  {
    if !StartsWith(s, LinkPrefix) then None
    else
      var rest := s[|LinkPrefix|..];
      var slash := EndsWith(rest, "/");
      var noSlash := if slash then rest[..|rest| - 1] else rest;
      var join := EndsWith(noSlash, JoinSuffix);
      var handle := if join then noSlash[..|noSlash| - |JoinSuffix|] else noSlash;
      if IsHandle(handle) then
        Reassemble(s, rest, noSlash, handle, join, slash);
        Some(LinkParts(handle, join, slash))
      else None
  }

  /** The pieces `Parse` cuts off put the link back together. */
  lemma Reassemble(s: string, rest: string, noSlash: string, handle: string, join: bool, slash: bool)
    requires StartsWith(s, LinkPrefix) && rest == s[|LinkPrefix|..]
    requires slash == EndsWith(rest, "/") && noSlash == if slash then rest[..|rest| - 1] else rest
    requires join == EndsWith(noSlash, JoinSuffix)
    requires handle == if join then noSlash[..|noSlash| - |JoinSuffix|] else noSlash
    ensures Build(LinkParts(handle, join, slash)) == s
  {
    CutPrefix(s, LinkPrefix);
    if slash { CutSuffix(rest, "/"); }
    if join { CutSuffix(noSlash, JoinSuffix); }
  }

  lemma CutPrefix(s: string, prefix: string)
    requires StartsWith(s, prefix)
    ensures s == prefix + s[|prefix|..]
  {
  }

  lemma CutSuffix(s: string, suffix: string)
    requires EndsWith(s, suffix)
    ensures s == s[..|s| - |suffix|] + suffix
  {
  }

  /** `validateLink(link)` of the transfer form and the 4-step wizard. An accepted
      link has the prefix followed by at least one handle character. */
  function ValidLink(s: string): (ok: bool)
    ensures ok ==> StartsWith(s, LinkPrefix) && |s| > |LinkPrefix| && IsHandleChar(s[|LinkPrefix|])
  {
    var r := Parse(s);
    if r.Some? then
      BuildShape(r.value);
      true
    else false
  }

  /** A built link is the prefix followed by the handle's first character. */
  lemma BuildShape(p: LinkParts)
    requires IsHandle(p.handle)
    ensures StartsWith(Build(p), LinkPrefix) && |Build(p)| > |LinkPrefix|
    ensures Build(p)[|LinkPrefix|] == p.handle[0]
  {
    var tail := p.handle + (if p.join then JoinSuffix else "") + (if p.slash then "/" else "");
    assert Build(p) == LinkPrefix + tail;
    assert tail[0] == p.handle[0];
  }

  /** Every well-formed link is recognised, with exactly the pieces it was built from. */
  lemma ParseBuild(p: LinkParts)
    requires IsHandle(p.handle)
    ensures Parse(Build(p)) == Some(p)
  {
    var noSlash := p.handle + (if p.join then JoinSuffix else "");
    var rest := noSlash + (if p.slash then "/" else "");
    assert Build(p) == LinkPrefix + rest;
    assert Build(p)[|LinkPrefix|..] == rest;
    SlashPart(noSlash, p.slash);
    JoinPart(p.handle, p.join);
  }

  /** The trailing `/` is found exactly when it was written, and cut off cleanly;
      what precedes it never ends in `/`. */
  lemma SlashPart(noSlash: string, slash: bool)
    requires noSlash != [] && noSlash[|noSlash| - 1] != '/'
    ensures var rest := noSlash + (if slash then "/" else "");
      EndsWith(rest, "/") == slash && (if slash then rest[..|rest| - 1] else rest) == noSlash
  {
    var rest := noSlash + (if slash then "/" else "");
    if !slash {
      assert rest == noSlash;
      assert rest[|rest| - 1..] == [noSlash[|noSlash| - 1]];
    }
  }

  /** The `?join` suffix is found exactly when it was written, since no handle
      character is a `?`. */
  lemma JoinPart(handle: string, join: bool)
    requires IsHandle(handle)
    ensures var noSlash := handle + (if join then JoinSuffix else "");
      noSlash != [] && noSlash[|noSlash| - 1] != '/'
      && EndsWith(noSlash, JoinSuffix) == join
      && (if join then noSlash[..|noSlash| - |JoinSuffix|] else noSlash) == handle
  {
    var noSlash := handle + (if join then JoinSuffix else "");
    if join {
      assert noSlash[|noSlash| - 1] == 'n';
      assert noSlash[|noSlash| - |JoinSuffix|..] == JoinSuffix;
    } else {
      assert noSlash == handle;
      assert IsHandleChar(handle[|handle| - 1]);
      if |noSlash| >= |JoinSuffix| {
        assert IsHandleChar(handle[|handle| - 5]);
        assert noSlash[|noSlash| - 5..][0] == handle[|handle| - 5];
      }
    }
  }

  /** The check accepts exactly the strings of the pattern's shape: the prefix,
      a handle, an optional `?join` and an optional `/`. */
  lemma ValidLinkIff(s: string)
    ensures ValidLink(s) <==> exists p: LinkParts :: IsHandle(p.handle) && Build(p) == s
  {
    if exists p: LinkParts :: IsHandle(p.handle) && Build(p) == s {
      var p: LinkParts :| IsHandle(p.handle) && Build(p) == s;
      ParseBuild(p);
    }
  }

  /** The empty string fails the pattern, as does anything not starting with the prefix. */
  lemma RejectsEmptyAndForeign()
    ensures !ValidLink("")
    ensures !ValidLink("not-a-link")
    ensures !ValidLink("https://t.me/")
    ensures !ValidLink("https://t.me/?join")
  {
  }

  /** A bare handle is accepted. */
  lemma AcceptsBareHandle()
    ensures ValidLink("https://t.me/cryptotraders")
  {
    var a := LinkParts("cryptotraders", false, false);
    assert Build(a) == "https://t.me/cryptotraders";
    ParseBuild(a);
  }

  /** A handle followed by both optional suffixes is accepted. */
  lemma AcceptsJoinAndSlash()
    ensures ValidLink("https://t.me/my_group?join/")
  {
    var b := LinkParts("my_group", true, true);
    assert IsHandle(b.handle);
    assert Build(b) == "https://t.me/my_group?join/";
    ParseBuild(b);
  }
}

=== FILE: testimonials.dfy ===
/** The testimonial carousel (`SmartTestimonials`): four stories, one shown at a
    time, stepped by the arrows, the dots or a 5-second auto-play interval that
    the play button switches on and off. */
module Testimonials {
  datatype Stats = Stats(members: nat, time: string, success: real)

  datatype Story = Story(name: string, company: string, rating: nat, stats: Stats)

  /** The English catalogue, in display order. */
  const Stories: seq<Story> := [
    Story("Ahmed Mohamed", "CryptoHub", 5, Stats(8000, "2 hours", 99.9)),
    Story("Sarah Ahmed", "MarketPro Agency", 5, Stats(12000, "4 hours", 98.7)),
    Story("Mohamed Ali", "TechStart", 5, Stats(6500, "1.5 hours", 99.2)),
    Story("Fatima Hassan", "ContentCorp", 5, Stats(4200, "1 hour", 99.5))
  ]

  const Count: int := 4

  /** `nextTestimonial` and the auto-play tick. */
  function Next(i: int): (r: int)
    ensures 0 <= r < Count
    ensures 0 <= i < Count ==> r == i + 1 || (i == Count - 1 && r == 0)
  {
    (i + 1) % Count
  }

  /** `prevTestimonial`. */
  function Prev(i: int): (r: int)
    ensures 0 <= r < Count
    ensures 0 <= i < Count ==> r == i - 1 || (i == 0 && r == Count - 1)
  {
    (i - 1 + Count) % Count
  }

  /** The arrows undo each other. */
  lemma NextPrevInverse(i: int)
    requires 0 <= i < Count
    ensures Prev(Next(i)) == i
    ensures Next(Prev(i)) == i
  {
  }

  /** `k` steps forward from `i`. */
  function Forward(i: int, k: nat): (r: int)
    requires 0 <= i < Count
    ensures 0 <= r < Count
  {
    if k == 0 then i else Next(Forward(i, k - 1))
  }

  /** Stepping forward `k` times lands on `(i + k) % 4`: every story comes round
      once every four steps. */
  lemma {:induction false} ForwardWraps(i: int, k: nat)
    requires 0 <= i < Count
    ensures Forward(i, k) == (i + k) % Count
  {
    if k > 0 {
      ForwardWraps(i, k - 1);
      var j := Forward(i, k - 1);
      assert (j + 1) % Count == (i + k) % Count by {
        assert j == (i + (k - 1)) % Count;
        assert i + k == (i + (k - 1)) / Count * Count + j + 1;
        ModAdd(i + k, (i + (k - 1)) / Count, j + 1);
      }
    }
  }

  /** Adding multiples of 4 does not change the remainder. */
  lemma ModAdd(n: int, q: int, r: int)
    requires n == q * Count + r
    ensures n % Count == r % Count
  {
  }

  lemma FullCircle(i: int)
    requires 0 <= i < Count
    ensures Forward(i, 4) == i
  {
    ForwardWraps(i, 4);
  }

  /** The counter `i + 1 / 4` under the arrows. */
  function Counter(i: int): (r: (int, int))
    requires 0 <= i < Count
    ensures 1 <= r.0 <= r.1 == |Stories|
  {
    (i + 1, Count)
  }

  /** The dot row: one dot per story, the current one highlighted. */
  function Dots(current: int): (r: seq<bool>)
    ensures |r| == Count
    ensures forall i :: 0 <= i < |r| ==> (r[i] <==> i == current)
  {
    seq(Count, i => i == current)
  }

  datatype Carousel = Carousel(current: int, autoPlaying: bool)

  const Initial: Carousel := Carousel(0, true)

  datatype Event = NextClick | PrevClick | Dot(index: nat) | ToggleAuto | AutoTick

  /** One event. From a shown story, every event but a dot outside the four
      stories shows a story; only the play button switches auto-play; the back
      arrow is undone by the forward arrow. */
  function Step(c: Carousel, e: Event): (d: Carousel)
    ensures 0 <= c.current < Count && (e.Dot? ==> e.index < Count) ==> 0 <= d.current < Count
    ensures d.autoPlaying != c.autoPlaying <==> e.ToggleAuto?
    ensures e.PrevClick? && 0 <= c.current < Count ==> Next(d.current) == c.current
  {
    match e
    case NextClick => c.(current := Next(c.current))
    case PrevClick => c.(current := Prev(c.current))
    case Dot(i) => c.(current := i)
    case ToggleAuto => c.(autoPlaying := !c.autoPlaying)
    case AutoTick => c.(current := Next(c.current))
  }

  /** The dots exist only for the four stories; the interval ticks only while
      auto-play is on (its cleanup clears it when switched off). */
  predicate Offered(c: Carousel, e: Event) {
    match e
    case Dot(i) => i < Count
    case AutoTick => c.autoPlaying
    case _ => true
  }

  predicate OfferedTrace(c: Carousel, events: seq<Event>)
    decreases |events|
  {
    events == [] || (Offered(c, events[0]) && OfferedTrace(Step(c, events[0]), events[1..]))
  }

  function Run(c: Carousel, events: seq<Event>): Carousel
    decreases |events|
  {
    if events == [] then c else Run(Step(c, events[0]), events[1..])
  }

  /** Whatever is clicked, the shown story is one of the four. */
  lemma {:induction false} RunInRange(c: Carousel, events: seq<Event>)
    requires 0 <= c.current < Count && OfferedTrace(c, events)
    ensures 0 <= Run(c, events).current < Count
    decreases |events|
  {
    if events != [] {
      RunInRange(Step(c, events[0]), events[1..]);
    }
  }

  /** With auto-play on and no clicks, `k` ticks show story `k % 4`. */
  lemma {:induction false} AutoPlayCycles(k: nat)
    ensures Run(Initial, seq(k, _ => AutoTick)) == Carousel(k % Count, true)
  {
    AutoPlayFrom(0, k);
    ForwardWraps(0, k);
  }

  lemma {:induction false} AutoPlayFrom(i: int, k: nat)
    requires 0 <= i < Count
    ensures Run(Carousel(i, true), seq(k, _ => AutoTick)) == Carousel(Forward(i, k), true)
    decreases k
  {
    if k > 0 {
      var ticks := seq(k, _ => AutoTick);
      assert ticks[0] == AutoTick && ticks[1..] == seq(k - 1, _ => AutoTick);
      AutoPlayFrom(Next(i), k - 1);
      ForwardShift(i, k - 1);
    }
  }

  /** Taking the first step before the rest is the same as taking it last. */
  lemma {:induction false} ForwardShift(i: int, k: nat)
    requires 0 <= i < Count
    ensures Forward(Next(i), k) == Forward(i, k + 1)
  {
    if k > 0 {
      ForwardShift(i, k - 1);
    }
  }

  /** The auto-play switch only toggles playing and leaves the story alone. */
  lemma ToggleTwice(c: Carousel)
    requires 0 <= c.current < Count
    ensures Step(c, ToggleAuto).current == c.current
    ensures Step(c, ToggleAuto).autoPlaying != c.autoPlaying
    ensures Step(Step(c, ToggleAuto), ToggleAuto) == c
  {
  }

  /** While paused the story changes only by a click. */
  lemma PausedNoTick(c: Carousel)
    requires !c.autoPlaying
    ensures !Offered(c, AutoTick)
  {
  }

  /** Every story has five stars. */
  lemma AllFiveStars()
    ensures |Stories| == Count
    ensures forall i :: 0 <= i < |Stories| ==> Stories[i].rating == 5
  {
  }
}

=== FILE: training_dashboard.dfy ===
/** The model-training panel (`AITrainingDashboard`). Start and Resume each set up
    a 500 ms interval with its own counter that adds 5 per tick and, on reaching
    100, clears itself and marks training completed. As written, Pause, Stop and
    Reset never clear a running interval, so progress keeps moving after them;
    every running interval's counter is kept in `intervals`, and `Tick(k)` is the
    k-th interval firing.

    `StepAsWritten` is the code as written; `Step` clears the running interval on
    Pause, Stop and Reset, which is what the buttons evidently intend. */
module TrainingDashboard {
  import opened Common

  datatype Status = Idle | Training | Paused | Completed | Failed

  const DefaultModelName: string := "Default-AI-Model-V1"
  const DefaultEpochs: real := 10.0
  const DefaultLearningRate: real := 0.001
  const DefaultDataset: string := "telegram_member_data_v2"

  datatype Dashboard = Dashboard(
    modelName: string,
    status: Status,
    progress: int,
    epochs: real,
    learningRate: real,
    dataset: string,
    intervals: seq<int>)

  const Initial: Dashboard :=
    Dashboard(DefaultModelName, Idle, 0, DefaultEpochs, DefaultLearningRate, DefaultDataset, [])

  datatype Event =
    | SetModelName(text: string)
    | SetEpochs(value: real)
    | SetLearningRate(value: real)
    | SetDataset(text: string)
    | Start
    | Pause
    | Resume
    | Stop
    | Reset
    | Tick(k: nat)

  function RemoveAt(s: seq<int>, k: nat): (r: seq<int>)
    requires k < |s|
    ensures |r| == |s| - 1
    ensures forall i :: 0 <= i < |r| ==> r[i] == (if i < k then s[i] else s[i + 1])
  {
    s[..k] + s[k + 1..]
  }

  /** The k-th interval fires: its counter gains 5; at 100 or more the interval is
      cleared and training completes, otherwise the counter becomes the progress. */
  function FireTick(d: Dashboard, k: nat): (g: Dashboard)
    ensures k >= |d.intervals| ==> g == d
    ensures g.modelName == d.modelName && g.epochs == d.epochs
      && g.learningRate == d.learningRate && g.dataset == d.dataset
    ensures |g.intervals| <= |d.intervals|
    ensures g.status != d.status ==>
      g.status == Completed && g.progress == 100 && k < |d.intervals| && d.intervals[k] + 5 >= 100
    ensures k < |d.intervals| ==> g.progress == if d.intervals[k] + 5 >= 100 then 100 else d.intervals[k] + 5
  {
    if k >= |d.intervals| then d
    else
      var c := d.intervals[k] + 5;
      if c >= 100 then d.(intervals := RemoveAt(d.intervals, k), status := Completed, progress := 100)
      else d.(intervals := d.intervals[k := c], progress := c)
  }

  /** The handlers as written. Pause, Stop and Reset leave every running
      interval in place; only Start and Resume add one; a setting changes only
      through its own input or Reset. */
  function StepAsWritten(d: Dashboard, e: Event): (g: Dashboard)
    ensures e.Pause? || e.Stop? || e.Reset? ==> g.intervals == d.intervals
    ensures |g.intervals| == |d.intervals| + 1 <==> e.Start? || e.Resume?
    ensures |g.intervals| <= |d.intervals| + 1
    ensures g.modelName != d.modelName ==> e.SetModelName? || e.Reset?
    ensures g.dataset != d.dataset ==> e.SetDataset? || e.Reset?
  {
    match e
    case SetModelName(t) => d.(modelName := t)
    case SetEpochs(v) => d.(epochs := v)
    case SetLearningRate(v) => d.(learningRate := v)
    case SetDataset(t) => d.(dataset := t)
    case Start => d.(status := Training, progress := 0, intervals := d.intervals + [0])
    case Pause => d.(status := Paused)
    case Resume => d.(status := Training, intervals := d.intervals + [d.progress])
    case Stop => d.(status := Idle, progress := 0)
    case Reset => Initial.(intervals := d.intervals)
    case Tick(k) => FireTick(d, k)
  }

  /** The buttons on screen: Start when idle, completed or failed; Pause while
      training; Resume while paused; Stop while training or paused; Reset always.
      A running interval fires whenever it likes. */
  predicate Offered(d: Dashboard, e: Event) {
    match e
    case Start => d.status == Idle || d.status == Completed || d.status == Failed
    case Pause => d.status == Training
    case Resume => d.status == Paused
    case Stop => d.status == Training || d.status == Paused
    case Tick(k) => k < |d.intervals|
    case _ => true
  }

  predicate OfferedTraceAsWritten(d: Dashboard, events: seq<Event>)
    decreases |events|
  {
    events == [] || (Offered(d, events[0]) && OfferedTraceAsWritten(StepAsWritten(d, events[0]), events[1..]))
  }

  function RunAsWritten(d: Dashboard, events: seq<Event>): Dashboard
    decreases |events|
  {
    if events == [] then d else RunAsWritten(StepAsWritten(d, events[0]), events[1..])
  }

  /** What holds as written: progress is a multiple of 5 in 0..100, below 100 while
      training or paused; every running counter is a multiple of 5 below 100; the
      failed status is never reached. */
  predicate Inv(d: Dashboard) {
    && 0 <= d.progress <= 100 && d.progress % 5 == 0
    && ((d.status == Training || d.status == Paused) ==> d.progress < 100)
    && (forall i :: 0 <= i < |d.intervals| ==> 0 <= d.intervals[i] < 100 && d.intervals[i] % 5 == 0)
    && d.status != Failed
  }

  lemma InitialInv()
    ensures Inv(Initial)
  {
  }

  lemma StepInv(d: Dashboard, e: Event)
    requires Inv(d) && Offered(d, e)
    ensures Inv(StepAsWritten(d, e))
  {
  }

  lemma {:induction false} RunInv(d: Dashboard, events: seq<Event>)
    requires Inv(d) && OfferedTraceAsWritten(d, events)
    ensures Inv(RunAsWritten(d, events))
    decreases |events|
  {
    if events != [] {
      StepInv(d, events[0]);
      RunInv(StepAsWritten(d, events[0]), events[1..]);
    }
  }

  /** What each button does to the panel's fields: Start and Resume add a counter
      (from 0, or from the current progress), Pause changes only the status, Stop
      zeroes the progress, Reset restores the six defaults. None clears a counter. */
  lemma ButtonEffects(d: Dashboard)
    ensures var s := StepAsWritten(d, Start); s.status == Training && s.progress == 0 && s.intervals == d.intervals + [0]
    ensures StepAsWritten(d, Pause) == d.(status := Paused)
    ensures var r := StepAsWritten(d, Resume); r.status == Training && r.progress == d.progress && r.intervals == d.intervals + [d.progress]
    ensures var t := StepAsWritten(d, Stop); t.status == Idle && t.progress == 0 && t.intervals == d.intervals
    ensures var z := StepAsWritten(d, Reset);
      z.modelName == DefaultModelName && z.status == Idle && z.progress == 0 && z.epochs == DefaultEpochs
      && z.learningRate == DefaultLearningRate && z.dataset == DefaultDataset && z.intervals == d.intervals
  {
  }

  /** Completion always shows exactly 100. */
  lemma CompletionAt100(d: Dashboard, k: nat)
    requires Inv(d) && k < |d.intervals| && d.intervals[k] + 5 >= 100
    ensures StepAsWritten(d, Tick(k)).status == Completed && StepAsWritten(d, Tick(k)).progress == 100
    ensures d.intervals[k] == 95
  {
  }

  /** Pausing does not pause: a tick after Pause still advances progress. */
  lemma PauseKeepsRunning()
    ensures var d := RunAsWritten(Initial, [Start, Pause, Tick(0)]);
      OfferedTraceAsWritten(Initial, [Start, Pause, Tick(0)]) && d.status == Paused && d.progress == 5
  {
    var d1 := Initial.(status := Training, intervals := [0]);
    var d2 := d1.(status := Paused);
    var d3 := d2.(intervals := [5], progress := 5);
    assert StepAsWritten(Initial, Start) == d1;
    assert StepAsWritten(d1, Pause) == d2;
    assert StepAsWritten(d2, Tick(0)) == d3;
    assert RunAsWritten(d2, [Tick(0)]) == d3;
    assert [Start, Pause, Tick(0)][1..] == [Pause, Tick(0)];
  }

  /** Stopping does not stop: after Stop the old interval moves progress off 0
      while the status says idle. */
  lemma StopKeepsRunning()
    ensures var d := RunAsWritten(Initial, [Start, Stop, Tick(0)]);
      OfferedTraceAsWritten(Initial, [Start, Stop, Tick(0)]) && d.status == Idle && d.progress == 5
  {
    var d1 := Initial.(status := Training, intervals := [0]);
    var d2 := d1.(status := Idle);
    var d3 := d2.(intervals := [5], progress := 5);
    assert StepAsWritten(Initial, Start) == d1;
    assert StepAsWritten(d1, Stop) == d2;
    assert StepAsWritten(d2, Tick(0)) == d3;
    assert RunAsWritten(d2, [Tick(0)]) == d3;
    assert [Start, Stop, Tick(0)][1..] == [Stop, Tick(0)];
  }

  /** Pause then Resume leaves two intervals counting at once. */
  lemma ResumeDoublesIntervals()
    ensures |RunAsWritten(Initial, [Start, Pause, Resume]).intervals| == 2
  {
    assert [Start, Pause, Resume][1..] == [Pause, Resume];
  }

  // ---------------------------------------------------------------------------
  // The evident intent: buttons clear the running interval
  // ---------------------------------------------------------------------------

  /** The handlers with Pause, Stop and Reset clearing the running interval:
      afterwards nothing is counting, and training resumes only by Start or
      Resume. */
  function Step(d: Dashboard, e: Event): (g: Dashboard)
    ensures e.Pause? || e.Stop? || e.Reset? ==> g.intervals == []
    ensures |g.intervals| == |d.intervals| + 1 <==> e.Start? || e.Resume?
    ensures g.status == Training && d.status != Training ==> e.Start? || e.Resume?
  {
    match e
    case Pause => d.(status := Paused, intervals := [])
    case Stop => d.(status := Idle, progress := 0, intervals := [])
    case Reset => Initial
    case _ => StepAsWritten(d, e)
  }

  predicate OfferedTrace(d: Dashboard, events: seq<Event>)
    decreases |events|
  {
    events == [] || (Offered(d, events[0]) && OfferedTrace(Step(d, events[0]), events[1..]))
  }

  function Run(d: Dashboard, events: seq<Event>): Dashboard
    decreases |events|
  {
    if events == [] then d else Run(Step(d, events[0]), events[1..])
  }

  /** With the fix: exactly one interval runs while training and none otherwise,
      its counter is the progress, and an idle panel shows 0. */
  predicate FixedInv(d: Dashboard) {
    && Inv(d)
    && (d.status == Training <==> |d.intervals| == 1)
    && |d.intervals| <= 1
    && (|d.intervals| == 1 ==> d.intervals[0] == d.progress)
    && (d.status == Idle ==> d.progress == 0)
  }

  lemma StepFixedInv(d: Dashboard, e: Event)
    requires FixedInv(d) && Offered(d, e)
    ensures FixedInv(Step(d, e))
  {
  }

  lemma {:induction false} RunFixedInv(d: Dashboard, events: seq<Event>)
    requires FixedInv(d) && OfferedTrace(d, events)
    ensures FixedInv(Run(d, events))
    decreases |events|
  {
    if events != [] {
      StepFixedInv(d, events[0]);
      RunFixedInv(Step(d, events[0]), events[1..]);
    }
  }

  /** With the fix, nothing ticks unless training: a paused, stopped or completed
      panel keeps its progress until a button is pressed. */
  lemma FixedFrozenUnlessTraining(d: Dashboard, k: nat)
    requires FixedInv(d) && d.status != Training
    ensures !Offered(d, Tick(k))
  {
  }

  /** Where the original and the fix agree: edits, Start, Resume and ticks. */
  lemma FixedAgrees(d: Dashboard, e: Event)
    requires !e.Pause? && !e.Stop? && !e.Reset?
    ensures Step(d, e) == StepAsWritten(d, e)
  {
  }
}

=== FILE: transfer_form.dfy ===
/** The single-form transfer submitter: cost breakdown, the ordered validation
    of `handleSubmit`, and the validating -> processing -> transferring ->
    completed/failed progress machine. The two 2-second waits, the 1-second
    progress interval and the 1-second delay before `onSubmit` are pending jobs
    that a `Fire` event runs; `Math.random()` becomes the `fail` and `inc`
    arguments of that event. */
module TransferForm {
  import opened Common
  import TelegramLink

  datatype Status = Idle | Validating | Processing | Transferring | Completed | Failed

  // ---------------------------------------------------------------------------
  // Cost
  // ---------------------------------------------------------------------------

  const BaseRate: real := 0.015
  const MinProcessingFee: real := 5.0
  const ProcessingShare: real := 0.1

  datatype Cost = Cost(base: real, processing: real, total: real)

  function Max(a: real, b: real): real {
    if a >= b then a else b
  }

  /** `calculateCost()`: nothing is charged until a count is entered; then the
      base is $0.015 a member and the processing fee is 10% of it, at least $5. */
  function CalculateCost(count: Option<real>): (c: Cost)
    ensures count.None? ==> c == Cost(0.0, 0.0, 0.0)
    ensures count.Some? ==> c.processing >= MinProcessingFee && c.total == c.base + c.processing
  {
    match count
    case None => Cost(0.0, 0.0, 0.0)
    case Some(n) =>
      var base := n * BaseRate;
      var fee := Max(MinProcessingFee, base * ProcessingShare);
      Cost(base, fee, base + fee)
  }

  /** The fee is exactly the larger of $5 and a tenth of the base. */
  lemma ProcessingFeeRule(n: real)
    ensures CalculateCost(Some(n)).base == 0.015 * n
    ensures CalculateCost(Some(n)).processing == if n * 0.0015 >= 5.0 then n * 0.0015 else 5.0
  {
  }

  /** A larger count never costs less. */
  lemma TotalMonotone(m: real, n: real)
    requires m <= n
    ensures CalculateCost(Some(m)).total <= CalculateCost(Some(n)).total
    ensures CalculateCost(Some(m)).base <= CalculateCost(Some(n)).base
  {
  }

  // ---------------------------------------------------------------------------
  // Submission checks, in the order `handleSubmit` performs them
  // ---------------------------------------------------------------------------

  const MinMembers: real := 100.0
  const MaxMembers: real := 50000.0

  datatype SubmitError = InvalidSourceLink | InvalidDestinationLink | InvalidMemberCount | PaymentProofRequired

  predicate CountInRange(count: Option<real>) {
    count.Some? && MinMembers <= count.value <= MaxMembers
  }

  /** The first failing check, or `None` when the request may start. */
  function SubmitCheck(source: string, destination: string, count: Option<real>, proofUploaded: bool): (r: Option<SubmitError>)
    ensures r == None <==>
      TelegramLink.ValidLink(source) && TelegramLink.ValidLink(destination) && CountInRange(count) && proofUploaded
  {
    if !TelegramLink.ValidLink(source) then Some(InvalidSourceLink)
    else if !TelegramLink.ValidLink(destination) then Some(InvalidDestinationLink)
    else if !CountInRange(count) then Some(InvalidMemberCount)
    else if !proofUploaded then Some(PaymentProofRequired)
    else None
  }

  /** Each error is reported exactly when its check fails and every earlier one passes. */
  lemma SubmitCheckOrder(source: string, destination: string, count: Option<real>, proofUploaded: bool)
    ensures SubmitCheck(source, destination, count, proofUploaded) == Some(InvalidSourceLink)
      <==> !TelegramLink.ValidLink(source)
    ensures SubmitCheck(source, destination, count, proofUploaded) == Some(InvalidDestinationLink)
      <==> TelegramLink.ValidLink(source) && !TelegramLink.ValidLink(destination)
    ensures SubmitCheck(source, destination, count, proofUploaded) == Some(InvalidMemberCount)
      <==> TelegramLink.ValidLink(source) && TelegramLink.ValidLink(destination) && !CountInRange(count)
    ensures SubmitCheck(source, destination, count, proofUploaded) == Some(PaymentProofRequired)
      <==> TelegramLink.ValidLink(source) && TelegramLink.ValidLink(destination) && CountInRange(count) && !proofUploaded
  {
  }

  // ---------------------------------------------------------------------------
  // State and events
  // ---------------------------------------------------------------------------

  /** A callback the component has scheduled and not yet run; `run` numbers the
      submission that scheduled it. */
  datatype Job =
    | AwaitValidation(run: nat)          // first 2-second wait
    | AwaitProcessing(run: nat)          // second 2-second wait
    | Ticking(run: nat, counter: int)    // the progress interval and its `currentProgress`
    | NotifyParent(run: nat)             // the 1-second delay before `onSubmit()`

  datatype Form = Form(
    source: string,
    destination: string,
    count: Option<real>,
    specialRequests: string,
    proofUploaded: bool,
    loading: bool,
    progress: int,
    status: Status,
    jobs: seq<Job>,
    runs: nat,          // submissions started so far
    notified: nat)      // calls of `onSubmit()` so far

  const Initial: Form := Form("", "", None, "", false, false, 0, Idle, [], 0, 0)

  /** `Math.floor(Math.random() * 8) + 3`. */
  type Increment = x: int | 3 <= x <= 10 witness 3

  datatype Event =
    | EditSource(text: string)
    | EditDestination(text: string)
    | EditCount(value: real)          // `Number(e.target.value)`
    | EditRequests(text: string)
    | ProofUploaded                   // `onUploadSuccess` of the embedded upload widget
    | Submit
    | Fire(k: nat, fail: bool, inc: Increment)   // the k-th pending callback runs

  /** The submit button (and implicit submission) is disabled while loading or once completed. */
  predicate SubmitEnabled(f: Form) {
    !f.loading && f.status != Completed
  }

  function RemoveAt<T>(s: seq<T>, k: nat): (r: seq<T>)
    requires k < |s|
    ensures |r| == |s| - 1
    ensures forall i :: 0 <= i < k ==> r[i] == s[i]
    ensures forall i :: k <= i < |r| ==> r[i] == s[i + 1]
  {
    s[..k] + s[k + 1..]
  }

  /** `handleSubmit`: the entered fields are never changed; a started submission
      is loading and validating from 0%, with one validation wait queued for its
      new run number, and a disabled button changes nothing. */
  function HandleSubmit(f: Form): (g: Form)
    ensures !SubmitEnabled(f) ==> g == f
    ensures g.source == f.source && g.destination == f.destination && g.count == f.count
      && g.proofUploaded == f.proofUploaded && g.notified == f.notified
    ensures g.runs == f.runs ==> g.jobs == f.jobs && g.status == f.status && g.loading == f.loading
    ensures g.runs != f.runs ==>
      g.runs == f.runs + 1 && g.loading && g.status == Validating
      && g.progress == 0 && g.jobs == f.jobs + [AwaitValidation(f.runs)]
  {
    if !SubmitEnabled(f) || SubmitCheck(f.source, f.destination, f.count, f.proofUploaded).Some? then f
    else f.(loading := true, status := Validating, progress := 0,
            jobs := f.jobs + [AwaitValidation(f.runs)], runs := f.runs + 1)
  }

  /** Runs the k-th pending callback. Firing never queues a new callback and
      never touches the entered fields; only the delayed notification calls
      `onSubmit()`, and a missing callback changes nothing. */
  function FireJob(f: Form, k: nat, fail: bool, inc: Increment): (g: Form)
    ensures k >= |f.jobs| ==> g == f
    ensures |g.jobs| <= |f.jobs| && g.runs == f.runs
    ensures g.source == f.source && g.destination == f.destination && g.count == f.count
      && g.specialRequests == f.specialRequests && g.proofUploaded == f.proofUploaded
    ensures g.notified == f.notified + (if k < |f.jobs| && f.jobs[k].NotifyParent? then 1 else 0)
    ensures g.status == Completed && f.status != Completed ==> k < |f.jobs| && f.jobs[k].Ticking?
  {
    if k >= |f.jobs| then f
    else match f.jobs[k]
      case AwaitValidation(r) =>
        f.(progress := 20, status := Processing, jobs := f.jobs[k := AwaitProcessing(r)])
      case AwaitProcessing(r) =>
        // the interval is created, then the 5% failure draw clears it; `finally` ends loading
        if fail then f.(progress := 50, status := Failed, jobs := RemoveAt(f.jobs, k), loading := false)
        else f.(progress := 50, status := Transferring, jobs := f.jobs[k := Ticking(r, 50)], loading := false)
      case Ticking(r, c) =>
        if c + inc >= 100 then
          f.(progress := 100, status := Completed, jobs := f.jobs[k := NotifyParent(r)])
        else
          f.(progress := c + inc, jobs := f.jobs[k := Ticking(r, c + inc)])
      case NotifyParent(_) =>
        f.(notified := f.notified + 1, jobs := RemoveAt(f.jobs, k))
  }

  /** One event. While loading the text inputs are disabled; only submitting and
      firing a callback move the progress machine; the counts of runs and of
      `onSubmit()` calls never fall, and an uploaded proof stays uploaded. */
  function Step(f: Form, e: Event): (g: Form)
    ensures f.loading && (e.EditSource? || e.EditDestination? || e.EditCount? || e.EditRequests?) ==> g == f
    ensures !e.Submit? && !e.Fire? ==>
      g.jobs == f.jobs && g.status == f.status && g.progress == f.progress && g.loading == f.loading
    ensures g.runs >= f.runs && g.notified >= f.notified
    ensures f.proofUploaded ==> g.proofUploaded
  {
    match e
    case EditSource(t) => if f.loading then f else f.(source := t)
    case EditDestination(t) => if f.loading then f else f.(destination := t)
    case EditCount(v) => if f.loading then f else f.(count := Some(v))
    case EditRequests(t) => if f.loading then f else f.(specialRequests := t)
    case ProofUploaded => f.(proofUploaded := true)
    case Submit => HandleSubmit(f)
    case Fire(k, fail, inc) => FireJob(f, k, fail, inc)
  }

  function Run(f: Form, events: seq<Event>): Form
    decreases |events|
  {
    if events == [] then f else Run(Step(f, events[0]), events[1..])
  }

  // ---------------------------------------------------------------------------
  // Submission
  // ---------------------------------------------------------------------------

  /** A submission starts (validating, progress 0, loading) exactly when the button
      is enabled and all four checks pass; otherwise nothing changes. */
  lemma SubmitStartsOnlyWhenValid(f: Form)
    ensures HandleSubmit(f) != f <==>
      SubmitEnabled(f) && SubmitCheck(f.source, f.destination, f.count, f.proofUploaded) == None
    ensures HandleSubmit(f) != f ==>
      HandleSubmit(f).status == Validating && HandleSubmit(f).progress == 0 && HandleSubmit(f).loading
  {
    if SubmitEnabled(f) && SubmitCheck(f.source, f.destination, f.count, f.proofUploaded) == None {
      assert |HandleSubmit(f).jobs| == |f.jobs| + 1;
    }
  }

  /** Once completed, submitting does nothing. */
  lemma CompletedDisablesSubmit(f: Form)
    requires f.status == Completed || f.loading
    ensures Step(f, Submit) == f
  {
  }

  // ---------------------------------------------------------------------------
  // The success path, one callback at a time
  // ---------------------------------------------------------------------------

  lemma ValidationPhase(f: Form, k: nat, fail: bool, inc: Increment)
    requires k < |f.jobs| && f.jobs[k].AwaitValidation?
    ensures FireJob(f, k, fail, inc).status == Processing && FireJob(f, k, fail, inc).progress == 20
  {
  }

  lemma ProcessingPhase(f: Form, k: nat, fail: bool, inc: Increment)
    requires k < |f.jobs| && f.jobs[k].AwaitProcessing?
    ensures !fail ==> FireJob(f, k, fail, inc).status == Transferring && FireJob(f, k, fail, inc).progress == 50
    ensures fail ==> FireJob(f, k, fail, inc).status == Failed
    ensures !FireJob(f, k, fail, inc).loading
  {
  }

  /** Each tick adds 3..10 to the run's counter; the display stops at 100 with `completed`. */
  lemma TransferTick(f: Form, k: nat, fail: bool, inc: Increment)
    requires k < |f.jobs| && f.jobs[k].Ticking?
    ensures var g := FireJob(f, k, fail, inc);
      if f.jobs[k].counter + inc >= 100 then g.status == Completed && g.progress == 100
      else g.status == f.status && g.progress == f.jobs[k].counter + inc
  {
  }

  // ---------------------------------------------------------------------------
  // Invariants over any sequence of events
  // ---------------------------------------------------------------------------

  predicate RunsDistinct(jobs: seq<Job>) {
    forall i, j :: 0 <= i < j < |jobs| ==> jobs[i].run != jobs[j].run
  }

  /** The displayed progress stays within 0..100, a running interval's counter within
      50..99, every pending callback belongs to an earlier submission, and each
      submission has at most one pending callback. */
  predicate Inv(f: Form) {
    && 0 <= f.progress <= 100
    && (forall i :: 0 <= i < |f.jobs| ==> f.jobs[i].run < f.runs)
    && (forall i :: 0 <= i < |f.jobs| && f.jobs[i].Ticking? ==> 50 <= f.jobs[i].counter < 100)
    && RunsDistinct(f.jobs)
  }

  lemma InitialInv()
    ensures Inv(Initial)
  {
  }

  /** Pending callbacks whose runs are all below `bound`, and pairwise distinct. */
  predicate JobsWellFormed(jobs: seq<Job>, bound: nat) {
    && (forall i :: 0 <= i < |jobs| ==> jobs[i].run < bound)
    && RunsDistinct(jobs)
  }

  lemma ReplaceKeepsRuns(jobs: seq<Job>, bound: nat, k: nat, j: Job)
    requires JobsWellFormed(jobs, bound) && k < |jobs| && j.run == jobs[k].run
    ensures JobsWellFormed(jobs[k := j], bound)
  {
  }

  lemma RemoveKeepsRuns(jobs: seq<Job>, bound: nat, k: nat)
    requires JobsWellFormed(jobs, bound) && k < |jobs|
    ensures JobsWellFormed(RemoveAt(jobs, k), bound)
  {
    var r := RemoveAt(jobs, k);
    forall i, j | 0 <= i < j < |r|
      ensures r[i].run != r[j].run
    {
      var i' := if i < k then i else i + 1;
      var j' := if j < k then j else j + 1;
      assert r[i] == jobs[i'] && r[j] == jobs[j'] && i' < j';
    }
  }

  lemma FireJobInv(f: Form, k: nat, fail: bool, inc: Increment)
    requires Inv(f)
    ensures Inv(FireJob(f, k, fail, inc))
  {
    if k < |f.jobs| {
      var g := FireJob(f, k, fail, inc);
      match f.jobs[k]
      case AwaitValidation(r) =>
        ReplaceInv(f, g, k, AwaitProcessing(r));
      case AwaitProcessing(r) =>
        if fail {
          RemoveInv(f, g, k);
        } else {
          ReplaceInv(f, g, k, Ticking(r, 50));
        }
      case Ticking(r, c) =>
        if c + inc >= 100 {
          ReplaceInv(f, g, k, NotifyParent(r));
        } else {
          ReplaceInv(f, g, k, Ticking(r, c + inc));
        }
      case NotifyParent(_) =>
        RemoveInv(f, g, k);
    }
  }

  /** Replacing a pending callback by one of the same submission keeps the invariant. */
  lemma ReplaceInv(f: Form, g: Form, k: nat, j: Job)
    requires Inv(f) && k < |f.jobs| && j.run == f.jobs[k].run
    requires j.Ticking? ==> 50 <= j.counter < 100
    requires g.jobs == f.jobs[k := j] && g.runs == f.runs && 0 <= g.progress <= 100
    ensures Inv(g)
  {
    assert JobsWellFormed(f.jobs, f.runs);
    ReplaceKeepsRuns(f.jobs, f.runs, k, j);
  }

  /** Dropping a pending callback keeps the invariant. */
  lemma RemoveInv(f: Form, g: Form, k: nat)
    requires Inv(f) && k < |f.jobs|
    requires g.jobs == RemoveAt(f.jobs, k) && g.runs == f.runs && 0 <= g.progress <= 100
    ensures Inv(g)
  {
    assert JobsWellFormed(f.jobs, f.runs);
    RemoveKeepsRuns(f.jobs, f.runs, k);
  }

  lemma StepInv(f: Form, e: Event)
    requires Inv(f)
    ensures Inv(Step(f, e))
  {
    match e
    case Fire(k, fail, inc) => FireJobInv(f, k, fail, inc);
    case Submit => SubmitInv(f);
    case _ =>
  }

  /** A submission adds a callback for a fresh run number. */
  lemma SubmitInv(f: Form)
    requires Inv(f)
    ensures Inv(HandleSubmit(f))
  {
    var g := HandleSubmit(f);
    if SubmitEnabled(f) && SubmitCheck(f.source, f.destination, f.count, f.proofUploaded).None? {
      assert g.jobs == f.jobs + [AwaitValidation(f.runs)] && g.runs == f.runs + 1 && g.progress == 0;
      AppendInv(f, g);
    } else {
      assert g == f;
    }
  }

  /** Adding a validation wait for the next run number keeps the invariant. */
  lemma AppendInv(f: Form, g: Form)
    requires Inv(f)
    requires g.jobs == f.jobs + [AwaitValidation(f.runs)] && g.runs == f.runs + 1 && 0 <= g.progress <= 100
    ensures Inv(g)
  {
    assert JobsWellFormed(f.jobs, f.runs);
    AppendKeepsRuns(f.jobs, f.runs);
  }

  lemma AppendKeepsRuns(jobs: seq<Job>, bound: nat)
    requires JobsWellFormed(jobs, bound)
    ensures JobsWellFormed(jobs + [AwaitValidation(bound)], bound + 1)
    ensures forall i :: 0 <= i < |jobs| ==> (jobs + [AwaitValidation(bound)])[i] == jobs[i]
  {
  }

  lemma {:induction false} RunInv(f: Form, events: seq<Event>)
    requires Inv(f)
    ensures Inv(Run(f, events))
    decreases |events|
  {
    if events != [] {
      StepInv(f, events[0]);
      RunInv(Step(f, events[0]), events[1..]);
    }
  }

  /** From the initial form, whatever happens, the progress bar shows 0..100. */
  lemma ProgressNeverExceeds100(events: seq<Event>)
    ensures 0 <= Run(Initial, events).progress <= 100
  {
    RunInv(Initial, events);
  }

  // ---------------------------------------------------------------------------
  // A failed run never completes
  // ---------------------------------------------------------------------------

  predicate HasJob(f: Form, r: nat) {
    exists i :: 0 <= i < |f.jobs| && f.jobs[i].run == r
  }

  /** The event is a tick of run `r` that reaches 100 and sets `completed`. */
  predicate CompletesRun(f: Form, e: Event, r: nat) {
    e.Fire? && e.k < |f.jobs| && f.jobs[e.k].Ticking? && f.jobs[e.k].run == r
    && f.jobs[e.k].counter + e.inc >= 100
  }

  /** No event of `events`, replayed from `f`, completes run `r`. */
  predicate NeverCompletes(f: Form, events: seq<Event>, r: nat)
    decreases |events|
  {
    events == [] || (!CompletesRun(f, events[0], r) && NeverCompletes(Step(f, events[0]), events[1..], r))
  }

  /** The failure draw clears the run's interval: nothing of that run is left pending. */
  lemma FailureClearsRun(f: Form, k: nat, inc: Increment)
    requires Inv(f)
    requires k < |f.jobs| && f.jobs[k].AwaitProcessing?
    ensures Step(f, Fire(k, true, inc)).status == Failed
    ensures !HasJob(Step(f, Fire(k, true, inc)), f.jobs[k].run)
  {
    var g := Step(f, Fire(k, true, inc));
    forall i | 0 <= i < |g.jobs|
      ensures g.jobs[i].run != f.jobs[k].run
    {
      if i < k {
        assert g.jobs[i] == f.jobs[i];
      } else {
        assert g.jobs[i] == f.jobs[i + 1];
      }
    }
  }

  /** A submission with nothing pending never gets anything pending again. */
  lemma NoJobStaysNoJob(f: Form, e: Event, r: nat)
    requires Inv(f) && r < f.runs && !HasJob(f, r)
    ensures !HasJob(Step(f, e), r) && r < Step(f, e).runs
  {
    match e
    case Fire(k, fail, inc) => FireNoNewJob(f, k, fail, inc, r);
    case Submit => SubmitNoNewJob(f, r);
    case _ =>
  }

  /** A submission's callback carries a fresh run number, never an earlier one. */
  lemma SubmitNoNewJob(f: Form, r: nat)
    requires r < f.runs && !HasJob(f, r)
    ensures !HasJob(HandleSubmit(f), r) && r < HandleSubmit(f).runs
  {
    var g := HandleSubmit(f);
    if SubmitEnabled(f) && SubmitCheck(f.source, f.destination, f.count, f.proofUploaded).None? {
      assert g.jobs == f.jobs + [AwaitValidation(f.runs)] && g.runs == f.runs + 1;
      forall i | 0 <= i < |g.jobs|
        ensures g.jobs[i].run != r
      {
        if i < |f.jobs| {
          assert g.jobs[i] == f.jobs[i];
        }
      }
    } else {
      assert g == f;
    }
  }

  /** Running a callback never gives a submission without pending callbacks a new one. */
  lemma FireNoNewJob(f: Form, k: nat, fail: bool, inc: Increment, r: nat)
    requires !HasJob(f, r)
    ensures !HasJob(FireJob(f, k, fail, inc), r)
  {
    if k < |f.jobs| {
      var g := FireJob(f, k, fail, inc);
      match f.jobs[k]
      case AwaitValidation(q) =>
        ReplacedNoJob(f, g, k, AwaitProcessing(q), r);
      case AwaitProcessing(q) =>
        if fail {
          RemovedNoJob(f, g, k, r);
        } else {
          ReplacedNoJob(f, g, k, Ticking(q, 50), r);
        }
      case Ticking(q, c) =>
        if c + inc >= 100 {
          ReplacedNoJob(f, g, k, NotifyParent(q), r);
        } else {
          ReplacedNoJob(f, g, k, Ticking(q, c + inc), r);
        }
      case NotifyParent(_) =>
        RemovedNoJob(f, g, k, r);
    }
  }

  lemma ReplacedNoJob(f: Form, g: Form, k: nat, j: Job, r: nat)
    requires k < |f.jobs| && j.run == f.jobs[k].run && g.jobs == f.jobs[k := j]
    requires !HasJob(f, r)
    ensures !HasJob(g, r)
  {
    forall i | 0 <= i < |g.jobs|
      ensures g.jobs[i].run != r
    {
      if i != k {
        assert g.jobs[i] == f.jobs[i];
      }
    }
  }

  lemma RemovedNoJob(f: Form, g: Form, k: nat, r: nat)
    requires k < |f.jobs| && g.jobs == RemoveAt(f.jobs, k)
    requires !HasJob(f, r)
    ensures !HasJob(g, r)
  {
    forall i | 0 <= i < |g.jobs|
      ensures g.jobs[i].run != r
    {
      if i < k {
        assert g.jobs[i] == f.jobs[i];
      } else {
        assert g.jobs[i] == f.jobs[i + 1];
      }
    }
  }

  lemma {:induction false} NoJobNeverCompletes(f: Form, events: seq<Event>, r: nat)
    requires Inv(f) && r < f.runs && !HasJob(f, r)
    ensures NeverCompletes(f, events, r)
    decreases |events|
  {
    if events != [] {
      NoJobStaysNoJob(f, events[0], r);
      StepInv(f, events[0]);
      NoJobNeverCompletes(Step(f, events[0]), events[1..], r);
    }
  }

  /** A run that reached `failed` is never later completed by its own interval. */
  lemma FailedRunNeverCompletes(f: Form, k: nat, inc: Increment, later: seq<Event>)
    requires Inv(f)
    requires k < |f.jobs| && f.jobs[k].AwaitProcessing?
    ensures NeverCompletes(Step(f, Fire(k, true, inc)), later, f.jobs[k].run)
  {
    FailureClearsRun(f, k, inc);
    StepInv(f, Fire(k, true, inc));
    NoJobNeverCompletes(Step(f, Fire(k, true, inc)), later, f.jobs[k].run);
  }
}
